=== FILE: README.md ===
# CircuitSim core in Dafny

This project models the core of CircuitSim, a digital-logic simulator. The model has these parts:

- **Storage cells and accessors.** A storage cell is a 64-bit `std::bitset`. A `BoolStorageAccessor` is a field: an offset, a width and a weak reference to one cell. Its `get`/`set`/`clear`/`add`/`multiply` operations are modelled with the bitset masks the source uses.
- **The `DataBank<N>` allocator.** It is a first-fit bump allocator that hands out N index-aligned fields at a time. It also hands out whole cells (`lendStorage`), zeroes its cells (`clear`) and lists its cells (`getStorage`).
- **`wireBridge`.** It lays one or more views of consecutive terminals over a single fresh cell.
- **The `SocketController`.** Each socket copies one field into another. A tick runs every socket in registration order.
- **The gate pools.** Each pool owns a `DataBank` and evaluates every lane-tuple on each tick. NOT and OR are in the source. AND and XOR are written by analogy: one `GatePool` class whose gate kind selects the truth table.
- **`Managers::tick`.** It runs the AND, NOT, OR and XOR pools, then the sockets.
- **`Circuit` instances and the `CircuitSchematic` builder.** This covers the `add*` builders and the circular-dependency check of `addSubCircuit`. It also covers `generateWireBridgeData` and `lateGenerate`. Finally it covers `build`: a breadth-first pass creates the instances, then the instances are populated in reverse creation order.

How the model represents the system:

- Cells live in one `Arena` object, a map from handle to content. Handles are never reused, so an expired `weak_ptr` is a handle no longer in the map.
- Exceptions become `Result`/`Outcome` values that name the error.
- A loop that throws part-way is modelled as a `Run`: the cells as the loop left them, plus the outcome. Updates made before the failure stay, as they do in the source.
- Built instances live in a table `seq<Circuit>` and refer to each other by handle. Handle 0 stands for the placeholder parent that `build` creates. Handle 1 is the root.
- A sub-circuit is recorded as the value its schematic has when it is added. Because of this, every schematic tree is finite and `build` always terminates.
- `xorwrapper.dfy` holds the `xor_wrapper` and `wrapper` schematics that the schematic tests build, together with the names their instances must hold.

## Model

| member | source | states |
|---|---|---|
| Storage.NewAccessor | include/boolStorage.hpp:29-42 | construction succeeds exactly when offset + width ≤ 64; the result is in bounds; otherwise the error is OutOfBounds |
| Storage.LowBits | src/boolStorage.cpp:27 | `ONES >> (64 - width)` has exactly the bits below `width` set |
| Storage.FieldMask | src/boolStorage.cpp:8 | the mask has exactly the field's bits set |
| Storage.Shifted | src/boolStorage.cpp:27 | the value's low `width` bits moved to the field's position, every other bit 0 |
| Storage.GetField | src/boolStorage.cpp:4-14 | bit i of `get` is bit offset+i of the cell for i < width, 0 above; no bit above the width is set |
| Storage.SetField | src/boolStorage.cpp:16-38 | the field reads back as the value's low `width` bits; every bit outside the field is unchanged |
| Storage.ClearField | src/boolStorage.cpp:40-50 | the field reads 0; every other bit is kept |
| Storage.AddField | src/boolStorage.cpp:52-62 | the field reads the OR of its old content and the value's low bits; other bits kept |
| Storage.MultiplyAsWritten | src/boolStorage.cpp:64-74 | as written: bit i of the cell survives only if it lies in the field and the value's matching bit is 1 |
| Storage.MultiplyField | src/boolStorage.cpp:64-74 | as intended: the field reads the AND of its old content and the value; bits outside the field are unchanged |
| Storage.MultiplyAsWrittenClobbers | src/boolStorage.cpp:68-69 | on an all-ones cell, multiplying the 1-bit field at bit 0 by 1 clears bit 1 as written but not as intended |
| Storage.SetFieldFrame | src/boolStorage.cpp:24-31 | writing one field leaves what a disjoint field of the same cell reads unchanged |
| Storage.SetFieldWithOwnValue | src/boolStorage.cpp:4-38 | `set(get())` leaves the cell as it was |
| Storage.AddFieldIdempotent | src/boolStorage.cpp:52-62 | adding the same value twice equals adding it once |
| Storage.SetThenAdd | src/boolStorage.cpp:16-62 | after `set(x)` then `add(y)` the field reads `x OR y`, masked to the width |
| Storage.SetOnZeroCell | src/boolStorage.cpp:16-38 | `set` on an all-zero cell yields exactly the shifted value |
| Storage.EmptyFieldIsInert | include/boolStorage.hpp:29-42 | a width-0 accessor reads 0, and `set`, `clear` and `add` through it change nothing |
| Storage.GetFieldDistributes | src/boolStorage.cpp:4-14 | reading a field commutes with OR, AND and XOR of cells; reading a flipped cell yields the flipped field, masked |
| Storage.Lock | src/boolStorage.cpp:6-13 | locking succeeds exactly when the reference names a live cell, and yields its content; otherwise DanglingReference |
| Storage.Read | src/boolStorage.cpp:4-14 | `get` succeeds exactly when the cell is live and then yields the field's bits; otherwise DanglingReference |
| Storage.WriteField | src/boolStorage.cpp:16-38 | after `set`, the field reads the value; every disjoint field reads as before; every other cell is kept |
| Storage.Arena.Allocate | include/dataBank.hpp:53 | `make_shared`: a fresh never-used handle holding a zero cell; nothing else changes |
| Storage.Arena.Release | include/boolStorage.hpp:22 | a released cell is gone: every accessor naming it dangles; other cells are kept |
| Storage.Arena.Reset | include/dataBank.hpp:81-82 | `reset` zeroes one cell and changes nothing else |
| Storage.Arena.Store | include/gates/notGate.hpp:28 | a whole-cell write through a locked reference: succeeds exactly when the cell is live |
| Storage.Arena.Get | src/boolStorage.cpp:4-14 | succeeds exactly when the accessor's cell is live, with the field's bits |
| Storage.Arena.Set | src/boolStorage.cpp:16-38 | fails with DanglingReference on a dead cell and changes nothing; otherwise exactly that cell becomes SetField of it |
| Storage.Arena.Clear | src/boolStorage.cpp:40-50 | as Set, with ClearField |
| Storage.Arena.Add | src/boolStorage.cpp:52-62 | as Set, with AddField |
| Storage.Arena.Multiply | src/boolStorage.cpp:64-74 | as Set, with the corrected MultiplyField |
| Storage.EmptyAccessorDangles | include/boolStorage.hpp:45-50 | the default accessor names no cell, so every `get` through it fails |
| DataBank.FirstFit | include/dataBank.hpp:32-34 | the first block, in insertion order, whose cursor leaves room for the width; every earlier block is full |
| DataBank.Advance | include/dataBank.hpp:42-44 | every lane's free-bit offset grows by the width; the cells are kept |
| DataBank.FreshBlock | include/dataBank.hpp:50-56 | N lanes over consecutive fresh cells, all with the given cursor |
| DataBank.ZeroCells | include/dataBank.hpp:53 | exactly the N new handles, each holding a zero cell |
| DataBank.DataBank.constructor | include/dataBank.hpp:12-20 | an empty bank with no blocks and no loans |
| DataBank.DataBank.NewBlock | include/dataBank.hpp:50-57 | allocates N fresh zero cells and returns them as one block |
| DataBank.DataBank.LendBools | include/dataBank.hpp:27-59 | a width over 64 fails and changes nothing; otherwise N fields of that width come from the first block with room, at its cursor, or else from a new block at offset 0; the bank stays valid, with all loans pairwise disjoint |
| DataBank.DataBank.LendFromBlockKeepsValid | include/dataBank.hpp:33-46 | lending from an existing block keeps every lane within its cell, every cell in one lane and every loan disjoint from every other |
| DataBank.DataBank.LendFromNewBlockKeepsValid | include/dataBank.hpp:49-58 | the same invariant when a fresh block is appended and lent from |
| DataBank.AppendFreshKeepsBlocks | include/dataBank.hpp:50-57 | appending a block of fresh cells keeps every block well formed and every cell in one lane |
| DataBank.NewLoansDisjoint | include/dataBank.hpp:49-58 | fields lent from a fresh block overlap neither each other nor any earlier loan |
| DataBank.DataBank.LendStorage | include/dataBank.hpp:61-73 | appends a block of N fresh zero cells marked full and returns the cells; no loan changes |
| DataBank.DataBank.AppendFullBlockKeepsValid | include/dataBank.hpp:63-72 | appending a full block keeps the bank valid |
| DataBank.DataBank.Clear | include/dataBank.hpp:76-85 | every cell of the bank becomes 0; every other cell, every block and every cursor is kept |
| DataBank.DataBank.ClearBlock | include/dataBank.hpp:79-83 | every lane of one block becomes 0; every other cell is kept |
| DataBank.DataBank.GetStorage | include/dataBank.hpp:87-99 | one tuple of N cell references per block, in insertion order |
| DataBank.LoansDoNotInterfere | include/dataBank.hpp:23-24 | any two fields lent by one bank are independent: writing one never changes what the other reads |
| WireBridge.SumOfPrefix | src/wireBridge.cpp:11-14 | a prefix of a port's sizes never sums to more than the whole port |
| WireBridge.PortLayout | src/wireBridge.cpp:11-15 | a port that fits in one cell yields in-bounds terminals that tile the cell in order without overlap |
| WireBridge.Build | src/wireBridge.cpp:3-22 | lends exactly one fresh full cell; succeeds exactly when every port fits; terminal j of port p has width `ports[p][j]` at the running offset; otherwise OutOfBounds |
| Sockets.Step | include/socketController.hpp:23-26 | a socket tick makes the target read what the source read and leaves disjoint fields unchanged; it fails, changing nothing, when either cell is gone |
| Sockets.PreStep | include/socketController.hpp:19-22 | `preTick` clears the target field and leaves disjoint fields unchanged |
| Sockets.RunAll | src/socketController.cpp:20-22 | the sockets run in order; the run succeeds exactly when every socket's cells are live |
| Sockets.SingleSocket | src/socketController.cpp:20-22 | a controller with one socket behaves as that socket's tick |
| Sockets.RunAllFrame | src/socketController.cpp:20-22 | a field disjoint from every target reads the same after a tick |
| Sockets.Ticks | src/socketController.cpp:12-23 | t ticks succeed exactly when t = 0 or every socket's cells are live |
| Sockets.TickSocket | include/socketController.hpp:23-26 | the in-place socket tick performs Step |
| Sockets.PreTickSocket | include/socketController.hpp:19-22 | the in-place `preTick` performs PreStep |
| Sockets.SocketController.constructor | include/socketController.hpp:29-30 | a controller with no sockets |
| Sockets.SocketController.AddSocket | src/socketController.cpp:3-10 | succeeds exactly when the widths agree, appending the socket; otherwise SocketSizeMismatch and no change |
| Sockets.SocketController.Tick | src/socketController.cpp:12-23 | the in-place tick performs RunAll over the registered sockets |
| Sockets.SelfSocketIsIdentity | include/socketController.hpp:23-26 | a socket from a field to itself changes nothing |
| Sockets.IndependentSocketsCopy | src/socketController.cpp:20-22 | sockets whose targets are disjoint from each other and from every source all copy in one tick (fan-out, mixed widths) |
| Sockets.ChainRunExtends | src/socketController.cpp:20-22 | on a chain of sockets in any registration order, one tick keeps the fields that already hold the value and moves it at least one link further |
| Sockets.ChainSettles | src/socketController.cpp:12-23 | on a chain of disjoint equal-width fields linked by sockets in any registration order, after t ticks the first t + 1 fields hold the head's value, so a chain of n links settles within n ticks |
| Sockets.ChainTicksExtend | src/socketController.cpp:12-23 | the induction step of ChainSettles over the number of ticks |
| Sockets.InOrder | src/socketController.cpp:20-22 | the sockets of a chain registered link by link from its head: socket k copies field k into field k + 1 |
| Sockets.InOrderChainCopies | src/socketController.cpp:20-22 | registered in chain order, one tick carries the head's value to every field of the chain, because each socket reads, in the same tick, what the socket before it wrote |
| Sockets.FirstLink | src/socketController.cpp:20-22 | the first socket of such a chain passes, the second field takes the head's value, and no later socket writes the head |
| Sockets.ReverseOrderMovesOneLink | src/socketController.cpp:20-22 | registered in reverse order, one tick over a chain of three fields moves the head's value one link only: the third field takes the second field's old value |
| Gates.Eval | include/gates/orGate.hpp:29 | each output bit is the gate's truth function of the matching input bits (`~a` for NOT) |
| Gates.GateStep | include/gates/orGate.hpp:22-29 | one lane-tuple: succeeds exactly when every lane's cell is live; a failure is DanglingReference and changes nothing; no cell appears or disappears |
| Gates.PoolRun | include/gates/orGate.hpp:17-31 | a pool tick succeeds exactly when every block's cells are live; otherwise DanglingReference |
| Gates.PoolRunFrom | include/gates/orGate.hpp:21 | the pool tick from block k is block k's step followed by the rest, or a failure when block k is dead |
| Gates.PoolRunFrame | include/gates/orGate.hpp:21-30 | a cell that is no block's output is unchanged by a pool tick |
| Gates.FirstStep | include/gates/orGate.hpp:21-30 | on live, unshared blocks, the first step passes and the rest still sees live blocks |
| Gates.FirstOutputKept | include/gates/orGate.hpp:21-30 | later blocks never overwrite the first block's output |
| Gates.PoolRunOutput | include/gates/orGate.hpp:21-30 | with no cell shared between blocks, block k's output ends as the gate function of its own inputs |
| Gates.EvalOnField | include/gates/orGate.hpp:29 | a gate on whole cells computes the gate on every field of those cells |
| Gates.GatePool.constructor | include/gates/orGate.hpp:8-9 | a pool of the given kind over an empty private bank |
| Gates.GatePool.LendGate | include/gates/orGate.hpp:12-15 | `lendBools(1)`: Arity one-bit in-bounds fields at one common offset, lane i in cell i of one block the bank lists, recorded as loans; blocks listed before stay listed |
| Gates.GatePool.TickBlock | include/gates/orGate.hpp:22-29 | the in-place evaluation of one lane-tuple performs GateStep (for NOT, include/gates/notGate.hpp:17-30, the second lane becomes the flip of the first) |
| Gates.GatePool.Tick | include/gates/orGate.hpp:17-31 | the in-place pool tick performs PoolRun over `getStorage()` |
| Gates.BankRefsDistinct | include/dataBank.hpp:87-99 | the cells a valid bank lists are pairwise distinct |
| Gates.GateOutput | include/gates/orGate.hpp:17-31 | after a pool tick, a lent gate's output field reads the gate function of its input fields, and its inputs are unchanged |
| Managers.NetTick | include/managers.hpp:17-24 | one tick succeeds exactly when every pool's cells and every socket's cells are live; no cell appears or disappears |
| Managers.NetTicks | include/managers.hpp:17-24 | repeated ticks never add or remove a cell |
| Managers.NetTicksPass | include/managers.hpp:17-24 | t ticks succeed exactly when t = 0 or the net is live |
| Managers.Managers.constructor | include/managers.hpp:9-16 | a shared arena with the bank, the four pools and the controller, all empty |
| Managers.Managers.Tick | include/managers.hpp:17-24 | the in-place tick performs NetTick on the current net: AND, NOT, OR, XOR, then sockets |
| Managers.Managers.LendGate | src/circuitSchematic.cpp:96-121 | lends one gate of the requested kind: its terminals are the lanes, at one bit offset, of a block the kind's pool now lists; they are appended to that pool's loans and share no bit with any field the pool lent before; every block lent before stays; the other pools' blocks and loans, the sockets and the bridge blocks are unchanged |
| Managers.Managers.LendFrom | include/dataBank.hpp:27-59 | `lendGate` on one of the four pools: the terminals lie in a block the pool lists, are appended to its loans, and every block listed before stays; every bank stays valid |
| Managers.LentApart | include/dataBank.hpp:33-58 | in a bank whose loans are pairwise disjoint, the fields just lent are appended to the loan list and share no bit with any field lent before |
| Managers.GrowsKeepsCells | include/dataBank.hpp:10-11 | the banks only grow, so every cell the layout listed before is still listed |
| Managers.Managers.LendBridge | src/circuitSchematic.cpp:127-129 | `wireBridge` on the shared bank: succeeds exactly when every port fits, otherwise OutOfBounds; the layout changes only by one more bridge block holding one cell that no bank listed before; terminal j of port p has the declared width at its running offset in that cell; the pools and the sockets are unchanged |
| Managers.NandAndStage | include/managers.hpp:19 | in the NAND net, the AND stage writes `a AND b` to the AND output |
| Managers.NandNotStage | include/managers.hpp:20 | the NOT stage writes the flip of the NOT input |
| Managers.NandSocketStage | include/managers.hpp:23 | the socket carries the AND output bit to the NOT input and changes no other cell of the net |
| Managers.NandTick | include/managers.hpp:17-24 | one tick of the NAND net: the AND output and, through the socket, the NOT input hold `a AND b`; the NOT output holds the flip of the old NOT input; the inputs are unchanged |
| Managers.NandFirstTick | include/managers.hpp:17-24 | after the first tick, the NOT input already holds `a AND b` |
| Managers.NandLaterTick | include/managers.hpp:17-24 | every later tick leaves the NOT output at `NOT (a AND b)` |
| Managers.NandRuns | include/managers.hpp:17-24 | once the NOT input is fed, any number of further ticks keeps the NAND settled |
| Managers.NandSettles | tests/test_circuitSchematic.cpp:51-98 | the AND-NOT net of the NAND test: after two or more ticks the NOT output reads `NOT (a AND b)` and the inputs are unchanged |
| Names.NatToString | src/circuitSchematic.cpp:17 | `std::to_string`: at least one digit; only digits; one digit exactly below 10 |
| Names.NatToStringInjective | src/circuitSchematic.cpp:16-18 | different indices print differently |
| Schematic.NamesBelowAppend | src/circuitSchematic.cpp:75-82 | appending a sub-circuit adds its name and every name below it |
| Schematic.TerminalKeysCount | src/circuitSchematic.cpp:96-121 | a gate has as many terminal names as lanes |
| Schematic.ViewNamesDistinct | src/circuitSchematic.cpp:16-18 | the terminal names of one view are pairwise distinct |
| Schematic.Lane | src/circuitSchematic.cpp:97-100 | the name of lane 0, 1 or 2 of a gate: the gate's name, `_`, then `a`, `b` or `c` |
| Schematic.LaneInjective | src/circuitSchematic.cpp:96-121 | two gate terminal names are equal only for the same gate and lane |
| Schematic.LaneIsNoViewName | src/circuitSchematic.cpp:17 | a gate terminal name never equals a bridge terminal name `<view>_<i>`, which ends in a digit |
| Schematic.ViewNameInjective | src/circuitSchematic.cpp:16-18 | two bridge terminal names are equal only for the same view name and index |
| Schematic.CircuitSchematic.Data | include/circuitSchematic.hpp:32-47 | the declarations as a value, with this schematic's name and sub-circuits |
| Schematic.CircuitSchematic.Create | include/circuitSchematic.hpp:57-62 | a schematic with the name, no declarations and no dependencies |
| Schematic.CircuitSchematic.AddAndGate | src/circuitSchematic.cpp:28-31 | appends the AND gate name; nothing else changes |
| Schematic.CircuitSchematic.AddNotGate | src/circuitSchematic.cpp:33-36 | appends the NOT gate name; nothing else changes |
| Schematic.CircuitSchematic.AddOrGate | src/circuitSchematic.cpp:38-41 | appends the OR gate name; nothing else changes |
| Schematic.CircuitSchematic.AddXorGate | src/circuitSchematic.cpp:43-46 | appends the XOR gate name; nothing else changes |
| Schematic.CircuitSchematic.AddWireBridge | src/circuitSchematic.cpp:48-51 | appends the bridge; nothing else changes |
| Schematic.CircuitSchematic.AddConnection | src/circuitSchematic.cpp:53-56 | appends the connection; nothing else changes |
| Schematic.CircuitSchematic.AddExposedPort | src/circuitSchematic.cpp:58-61 | appends the port name; nothing else changes |
| Schematic.CircuitSchematic.InsertAll | src/circuitSchematic.cpp:78-80 | the dependency set gains exactly the child's dependencies |
| Schematic.CircuitSchematic.AddSubCircuit | src/circuitSchematic.cpp:63-83 | refuses with CircularDependency, changing nothing, exactly when the child is this schematic itself or depends on it; otherwise records the child's name and dependencies and appends the child; the dependency set always equals the names of every schematic below |
| Schematic.AddDependencyAsWritten | src/circuitSchematic.cpp:72-80 | as written: refuses only when the child's dependency set holds the parent's name |
| Schematic.SelfReferenceAccepted | src/circuitSchematic.cpp:72-75 | as written, adding a schematic to itself passes the check and makes it depend on itself; the corrected check refuses it |
| Schematic.GenerateWireBridgeData | src/circuitSchematic.cpp:5-26 | per bridge, the widths of each view and the names `<view>_<i>` of its terminals |
| Schematic.WithinChild | src/circuitSchematic.cpp:187-198 | a sub-circuit of a schematic within another is within it too: the queue reaches the sub-circuits of every schematic it reaches |
| Schematic.ResolvesWithin | src/circuitSchematic.cpp:203-211 | every schematic within a buildable one passes its own checks |
| Populate.BindGate | src/circuitSchematic.cpp:97-100 | stores a gate's terminals under `<gate>_a`, `_b` (and `_c`), one-bit and in bounds; other names are kept |
| Populate.BindGateBound | src/circuitSchematic.cpp:97-101 | binding a gate lent from a block of its pool makes that gate hold the block's lanes, and every earlier gate not declared again keeps its block |
| Populate.GatesBoundThen | src/circuitSchematic.cpp:96-121 | gates bound before a later kind's gates are added stay bound, unless declared again |
| Populate.AddGates | src/circuitSchematic.cpp:96-121 | the names gain exactly the terminal names of the declared gates, each one bit wide; the pool lends exactly one gate per declaration; every gate not declared again later holds, lane by lane, a block its kind's pool lent, shares no bit with another such gate and none with what the pool had lent before; other names are kept; the other pools' loans are unchanged; no socket changes |
| Populate.KindAddedStep | src/circuitSchematic.cpp:96-121 | binding the gate the pool has just lent extends the loop's invariant by one declaration: the pool's loans grow by exactly that gate's lanes, and the new gate is bound, new and apart from the earlier gates of its kind |
| Populate.BindGateNew | src/circuitSchematic.cpp:97-100 | a gate bound to fields that share no bit with anything the pool had lent keeps the declarations new since the start of the loop |
| Populate.BindGateApart | src/circuitSchematic.cpp:97-100 | a gate bound to such fresh fields shares no bit with any earlier gate of its kind, so gates of one kind stay pairwise apart |
| Populate.GatesApartThen | src/circuitSchematic.cpp:96-121 | adding a later kind's gates keeps every pair of gates of one kind apart, unless one is declared again |
| Populate.GatesNewThen | src/circuitSchematic.cpp:96-121 | adding a later kind's gates keeps every gate new since the first gate loop began |
| Populate.GatesOwnThen | src/circuitSchematic.cpp:96-121 | after the gates of one more kind, every gate is bound, apart from the others of its kind and new |
| Populate.GatesOwnKeptByBridges | src/circuitSchematic.cpp:130-140 | storing the bridge terminal names never overwrites a gate terminal, so the gates stay apart and new |
| Populate.AddBridges | src/circuitSchematic.cpp:124-140 | succeeds exactly when every bridge fits, adding exactly the bridge terminal names; otherwise OutOfBounds; on success every bridge sits over its own cell, the cells pairwise distinct and none listed before |
| Populate.LendBridges | src/circuitSchematic.cpp:127-129 | lends the bridges in order; succeeds exactly when all fit, otherwise OutOfBounds; the layout changes only by one new bridge block per bridge lent, over cells pairwise distinct and none listed before; terminal k of view j of bridge i is the running-offset field of that view in bridge i's cell |
| Populate.LendNextBridge | src/circuitSchematic.cpp:127-129 | one step of LendBridges: the layout gains exactly one bridge block over a cell no bank listed before, distinct from every bridge cell lent earlier; the views' terminals lie in that cell at their running offsets |
| Populate.SinceSnoc | src/wireBridge.cpp:5 | each `wireBridge` call takes a cell of its own: one more bridge over a cell new to the layout keeps the bridge cells lent since the start pairwise distinct and new |
| Populate.LentToSnoc | src/circuitSchematic.cpp:127-129 | lending the next bridge extends the lending loop's invariant: layout, freshness, fit and terminals |
| Populate.BridgesNewGrows | src/circuitSchematic.cpp:127-129 | bridges whose cells are new stay so as the layout grows, and are new relative to any earlier layout |
| Populate.NameLent | src/circuitSchematic.cpp:130-140 | naming the lent bridges adds exactly the bridge terminal names, keeps other names, and leaves every bridge wired over its own new cell |
| Populate.NameBridges | src/circuitSchematic.cpp:130-140 | the names gain exactly the terminal names of every bridge, all in bounds; every view not named again later holds its bridge's terminals; other names are kept |
| Populate.NameBridge | src/circuitSchematic.cpp:133-139 | the names gain exactly the terminal names of one bridge; every view not named again later in the bridge holds its terminals in the bridge's cell |
| Populate.NameView | src/circuitSchematic.cpp:136-138 | the names gain exactly `<view>_0 … <view>_{n-1}`, name i holding terminal i; other names are kept |
| Populate.NamedView | src/circuitSchematic.cpp:133-139 | naming view j extends the names, the bound views and the kept names from the first j views to the first j + 1 |
| Populate.StoreField | src/circuitSchematic.cpp:137 | storing under a name adds exactly that name with that field |
| Populate.SocketsFor | src/circuitSchematic.cpp:143-148 | one socket per connection, in declaration order, between the named fields |
| Populate.AddConnection | src/circuitSchematic.cpp:143-148 | one connection: PortNotFound exactly when an end is unknown, SocketSizeMismatch when the widths differ, otherwise exactly its socket is appended |
| Populate.AddConnections | src/circuitSchematic.cpp:143-148 | on the controller: succeeds exactly when every connection names known ends of equal width, appending exactly SocketsFor; a failure is PortNotFound or SocketSizeMismatch: only SocketSizeMismatch when every end is known, only PortNotFound when every connection with known ends has equal widths |
| Populate.Connect | src/circuitSchematic.cpp:143-148 | AddConnections through the managers: of what the managers have lent only the socket list changes, as AddConnections states |
| Populate.ExposeStep | src/circuitSchematic.cpp:155-158 | copying one exposed port keeps the copied-so-far invariant for both maps |
| Populate.AddExposedPorts | src/circuitSchematic.cpp:151-159 | succeeds exactly when every exposed port is known: the instance exposes exactly those ports and the parent gains exactly `<name>_<port>`, each the port's own accessor; other entries are kept; otherwise PortNotFound |
| Populate.StorePopulates | src/circuitSchematic.cpp:156-158 | writing back both maps yields a generated instance and keeps every field in bounds |
| Populate.LentSinceLent | src/circuitSchematic.cpp:94-140 | gates and bridges lent since an earlier layout are lent in the present one: bound, apart within each kind, over distinct bridge cells |
| Populate.FailedTells | src/circuitSchematic.cpp:141-159 | a failure leaves names under which `lateGenerate` cannot succeed; a failure other than a size mismatch means the schematic fails its own checks (a bridge does not fit or a name is unknown) |
| Populate.FailedFrom | src/circuitSchematic.cpp:91-160 | a failure of `lateGenerate`, with the names after lending holding every name of the schematic lent since the call began, is a failure of that schematic in the present layout |
| Populate.LendTerminals | src/circuitSchematic.cpp:94-140 | gates then bridges: succeeds exactly when the bridges fit, adding exactly the schematic's local names and keeping every other name's accessor; every gate holds a lent gate block, shares no bit with another gate of its kind or with anything its kind's pool lent before, and every view sits in a bridge cell of its own, new and distinct from the others, unless declared again later |
| Populate.LentSinceAfterBridges | src/circuitSchematic.cpp:94-140 | gates of their own, then bridges over new cells: everything the instance holds was lent since the start |
| Populate.LentSinceGrows | src/circuitSchematic.cpp:141-148 | registering sockets afterwards keeps what was lent to the instance its own |
| Populate.LocalKeysInOrder | src/circuitSchematic.cpp:94-140 | the names added kind by kind, then by bridges, are exactly the local names |
| Populate.KeptInOrder | src/circuitSchematic.cpp:94-140 | a name that no gate kind and no bridge defines keeps its accessor through all five steps |
| Populate.Wire | src/circuitSchematic.cpp:94-148 | terminals, then sockets; it also yields the names after lending: when the bridges fit, the given names plus exactly the local names, other names' accessors kept, gates and bridge cells lent during this call and new to their pools; it succeeds exactly when the bridges fit and every connection joins two known ports of one width under those names, and then returns them, appends exactly their sockets and leaves the instance wired (gates, views and connections sit in what the managers lent); OutOfBounds only when a bridge does not fit, PortNotFound only when some connection names an unknown port, SocketSizeMismatch only when some connection joins two known ports of different widths |
| Populate.WiredAfter | src/circuitSchematic.cpp:94-148 | gates and bridges bound before the connections are added, plus exactly the connections' sockets, make the instance wired |
| Populate.WiredGrows | src/circuitSchematic.cpp:94-148 | lending more never unwires an instance: what is lent stays where it is |
| Populate.LateGenerate | src/circuitSchematic.cpp:91-160 | `lateGenerate`: yields the names after lending, as in Wire, with gates and bridge cells lent during this call and new to their pools (each gate apart from everything its kind's pool lent before, each bridge cell listed in no bank before); it succeeds exactly when under those names the bridges fit, every connection joins two known ports of one width and every exposed port is known; then the instance holds exactly those names, exposes exactly its ports, the parent gains `<name>_<port>` for each, holding the same accessor, every field stays in bounds, exactly the connections' sockets are appended and the instance is wired in what the managers now hold; what was lent before stays; a failure is OutOfBounds exactly when a bridge does not fit, PortNotFound only when a connection end or exposed port is unknown, SocketSizeMismatch only when a connection joins two known ports of different widths |
| Instantiate.Enqueued | src/circuitSchematic.cpp:181-183 | the queue entries for a schematic's children, in declaration order, with the given parent |
| Instantiate.EnqueueChildren | src/circuitSchematic.cpp:196-199 | appends the children's entries; the pending work grows by the size of their subtrees |
| Instantiate.QueueSizeFront | src/circuitSchematic.cpp:186-201 | popping an entry and enqueueing its children strictly shrinks the pending work |
| Instantiate.SpawnStart | src/circuitSchematic.cpp:178-184 | the placeholder, the root and the root's children in the queue satisfy the breadth-first invariant |
| Instantiate.SpawnStep | src/circuitSchematic.cpp:187-200 | creating the next queued instance keeps the breadth-first invariant |
| Instantiate.SlotOwner | src/circuitSchematic.cpp:187-200 | the instance created next fills a child slot of the queue head's parent and of no other instance |
| Instantiate.SpawnDone | src/circuitSchematic.cpp:186-201 | with the queue empty, every child slot of every instance is filled: the table is a tree of the schematic |
| Instantiate.Spawn | src/circuitSchematic.cpp:176-201 | the first phase of `build`: one instance per node of the schematic tree, in breadth-first order, each linked to its children in declaration order, none populated |
| Instantiate.ParentOf | src/circuitSchematic.cpp:195 | every instance but the root fills a child slot of an earlier instance |
| Instantiate.ResolvesBelow | src/circuitSchematic.cpp:203-211 | every instance of a buildable schematic is buildable |
| Instantiate.NodeWithin | src/circuitSchematic.cpp:183-200 | every instance the first phase creates is of the root schematic or of one its sub-circuits use, at any depth |
| Instantiate.PopulatingStart | src/circuitSchematic.cpp:203 | the tree handed to the second phase satisfies the populating invariant |
| Instantiate.DoneStep | src/circuitSchematic.cpp:204-210 | populating instance k keeps the later instances populated |
| Instantiate.AwaitingStep | src/circuitSchematic.cpp:204-210 | populating instance k adds exactly its exports to its parent |
| Instantiate.LinksKept | src/circuitSchematic.cpp:204-210 | populating never changes child links |
| Instantiate.NextHoldsChildExports | src/circuitSchematic.cpp:204-210 | when instance k is popped it holds exactly its children's exports and exposes nothing |
| Instantiate.PopulatingStep | src/circuitSchematic.cpp:204-210 | populating the top of the stack keeps the populating invariant |
| Instantiate.WiredStart | src/circuitSchematic.cpp:203 | before the second phase no instance is yet required to be wired |
| Instantiate.WiredStep | src/circuitSchematic.cpp:204-210 | populating instance k wires it, and every later instance stays wired as the layout grows |
| Instantiate.PopulateNext | src/circuitSchematic.cpp:204-210 | one pop and `lateGenerate`: succeeds exactly when the popped instance's names after lending let `lateGenerate` succeed; then it keeps the invariant, stores those names as the instance's and wires it; otherwise it fails with one of the three errors, told by those names as in LateGenerate, which, when the bridges fit, are exactly the schematic's names with its gates and bridges lent; only a width mismatch when the schematic is buildable |
| Instantiate.PopulateAll | src/circuitSchematic.cpp:203-211 | the second phase: every instance populated and wired, last created first; a failure names the popped instance that failed and its names after lending, and its error is told by them as in PopulateNext |
| Instantiate.PopulatedInstance | src/circuitSchematic.cpp:203-215 | after the second phase every instance, with its subtree, is an instance of its schematic, wired into what the managers lent |
| Instantiate.PopulatedResolves | src/circuitSchematic.cpp:203-215 | after the second phase the whole schematic tree is buildable |
| Instantiate.Build | src/circuitSchematic.cpp:162-216 | `build`: on success the schematic is buildable, the root at handle 1 holds exactly its names and exposes exactly its ports, each gate name holds the lanes of a lent gate block, apart from the other gates of its kind in the instance, each view a lent bridge cell of its own, each connection a registered socket (recursively for every child), and every field is in bounds; nothing lent before is lost; a failure is OutOfBounds, PortNotFound or SocketSizeMismatch, and only SocketSizeMismatch for a buildable schematic; it names the schematic within the root's whose instance failed and that instance's names after lending: OutOfBounds and PortNotFound mean that schematic fails its own checks, SocketSizeMismatch that one of its connections joins two known names of different widths; when its bridges fit those names are exactly its names, its gates and bridges lent in the final layout |
| XorWrapper.XorWrapperKeys | tests/test_circuitSchematic.cpp:363-391 | an `xor_wrapper` instance knows exactly `xor1_a`, `xor1_b`, `xor1_c`, `input_0`, `input_1`, `output_0` and exposes the three bridge terminals |
| XorWrapper.XorWrapperResolves | tests/test_circuitSchematic.cpp:363-376 | `xor_wrapper` passes every check of `build` other than connection widths |
| XorWrapper.WrapperKeys | tests/test_circuitSchematic.cpp:485-500 | a `wrapper` instance knows exactly `xor_input_0`, `xor_input_1`, `xor_output_0` |
| XorWrapper.BuiltXorWrapper | tests/test_circuitSchematic.cpp:378-391 | a built `xor_wrapper` holds six names and exposes three ports, each the accessor it knows under that name |
| XorWrapper.BuiltWrapper | tests/test_circuitSchematic.cpp:485-500 | a built `wrapper` holds exactly the three re-exported names and one child |
| Nand.NandGatesBound | tests/test_circuitSchematic.cpp:52-58 | in an instance of the NAND schematic, `and1` holds a lent AND gate and `not1` a lent NOT gate |
| Nand.NandFromGates | tests/test_circuitSchematic.cpp:52-58 | those two gates, the socket `and1_c -> not1_a` and the three exposed ports form the AND-NOT net over the gates' cells |
| Nand.BuiltNand | tests/test_circuitSchematic.cpp:52-61 | a built NAND exposes exactly `and1_a`, `and1_b`, `not1_b`, and the AND block, the NOT block and the socket of the AND-NOT net whose ticks Managers.NandSettles describes are among what the managers lent, with the AND inputs and the NOT output as its ports |

## Left out

- Reference counting is not modelled. `shared_ptr`/`weak_ptr` lifetime becomes an arena of cells with explicit `Release`. Nothing in the modelled core releases a cell, so the only way a reference dangles is through `Release` or the default accessor.
- The `self` `weak_ptr` and `schematic.expired()` are not modelled: a sub-circuit is a value, so it can never expire. The "expired" exceptions of `addSubCircuit` and `build` have no counterpart.
- Sub-circuits are snapshots. A sub-circuit is recorded as the child's declarations at the time of `addSubCircuit`. The source stores a `weak_ptr` and reads the child when `build` runs, so declarations added to the child afterwards are seen by the source and not by this model.
- Aliases (`addAlias`, used by tests/test_circuitSchematic_alias.cpp) do not exist in include/circuitSchematic.hpp or src/circuitSchematic.cpp. They are not modelled.
- Sockets.PreStep and Sockets.PreTickSocket model `preTick`, which `SocketController::tick` has commented out (src/socketController.cpp:15-17). The modelled tick does not call them.
- DataBank.DataBank.Clear: requires every bank cell to be live. The bank owns its cells through `shared_ptr`, so they never expire in the source.
- WireBridge.Build: the `offset > STORAGE_SIZE` check at src/wireBridge.cpp:16-18 can never fire. An oversized port already fails in the accessor constructor with OutOfBounds, so the model reports OutOfBounds and has no error for that check.
- include/gates/andGate.hpp and include/gates/xorGate.hpp are not part of this model. The AND and XOR pools are modelled by analogy with include/gates/orGate.hpp: three lanes, with `&` and `^` as the operation.
- The Catch2 test framework and the random inputs of the tests are not modelled. The tests' expected names are stated as lemmas in `xorwrapper.dfy`.
- Managers.NandSettles: settling is proved for the NAND net of the tests. There is no general theorem for arbitrary nets, because feedback loops need not settle.
- Instantiate.Build: the name sets are proved for every instance in the tree, and so is each exposed port's accessor. It is not stated that a child's re-exported accessor in the parent is the same accessor the child holds: `Generated` states that for each instance when it is populated, but later siblings may overwrite a parent name with the same key.
- Instantiate.Build: returns the whole instance table with the root at handle 1, rather than a `shared_ptr` to the root.
- Instantiate.Build: on failure the state left in the managers is described only through the failing instance's names: its gates and bridges are lent in the final layout. What earlier instances lent and the sockets already registered are not described beyond the managers staying valid and the layout growing.
- Instantiate.Build, Instantiate.PopulateAll: success is not promised from a condition on the schematic alone. Whether a connection's ends agree in width can depend on a child's re-exported port, whose width is that of the child's own name, and on which of two colliding names was written last, so a static width condition would have to replay population. The model states instead, for every failure, which instance failed and the names after lending that make its connection or port check fail.
- Instantiate.PopulateNext: on success the names after lending are stated to be the ones the popped instance stores, and on failure to hold its names when the bridges fit. That they were lent during this pop, which Populate.LateGenerate states, is not repeated here.
- Populate.GatesBound, Populate.BridgesWired: when a schematic declares two gates or two views under one name, the later one overwrites the earlier one's terminals, so only the last declaration of each name is promised to hold its lent fields.
- Nand.BuiltNand: does not state that the layout's net is exactly the AND-NOT net or that its five cells are distinct and live, which Managers.NandSettles requires. Fields are proved apart within one pool (Managers.LentApart) and bridge cells are proved new, but tying the two would also need the cells of different pools to be proved distinct and carried through Build.
- Populate.LendTerminals, Populate.Wire, Populate.LateGenerate: gates of different kinds are not stated to be apart. Each pool uses cells of its own, but the model tracks disjointness only within one pool's loans.
- Instantiate.Build: does not state that the gates or bridge cells of two different instances are apart. Populate.LateGenerate states that each instance's gates and cells are new when its call begins, but Build does not carry that fact across instances.
- Instantiate.Build: states that the layout grows and holds every instance's fields, not the exact layout afterwards (which blocks were added, and in which order).
- The integer widths (`size_t`) are unbounded here. The source checks `offset > 64 || width > 64` separately to guard against wrap-around in `offset + width`, and with unbounded integers that check coincides with the sum check.

## Findings

| source | as written | input that shows it | evidently intended | confidence | as-written member | corrected member |
|---|---|---|---|---|---|---|
| src/boolStorage.cpp:64-74 | `multiply` ANDs the whole cell with the shifted value, which is 0 outside the field | a cell of all ones, the 1-bit field at offset 0, value 1: bit 1, in a neighbouring field, is cleared | AND the field only and keep every other bit, as `set`, `clear` and `add` do | not executed | Storage.MultiplyAsWritten, Storage.MultiplyAsWrittenClobbers | Storage.MultiplyField |
| src/circuitSchematic.cpp:72-75 | the circular-dependency check looks only for the parent's name among the child's dependencies, never whether the child is the parent itself | `s->addSubCircuit("x", s)` on a fresh schematic `s`: the check passes and `s` depends on itself, so `build` never empties its queue | refuse a child that is the parent itself, as well as one that depends on it | not executed | Schematic.AddDependencyAsWritten, Schematic.SelfReferenceAccepted | Schematic.CircuitSchematic.AddSubCircuit |

=== FILE: circuit.dfy ===
/** A built circuit instance: its children, every port it knows by name and
    the ports it exposes. Instances refer to each other by handle. */
module Circuits {
  import opened Storage

  /** `Circuit`: the handles of the sub-circuit instances, in the order they
      were built, the name map and the exposed-port map. A name maps to one
      accessor; storing under a known name replaces the old accessor. */
  datatype Circuit = Circuit(
    subCircuits: seq<nat>,
    names: map<string, Accessor>,
    exposedPorts: map<string, Accessor>)

  /** A fresh instance: no children, no names, no exposed ports. */
  const EMPTY_CIRCUIT := Circuit([], map[], map[])

  /** Every accessor an instance holds is a valid field. */
  predicate FieldsInBounds(c: Circuit) {
    && (forall k | k in c.names :: c.names[k].InBounds())
    && (forall k | k in c.exposedPorts :: c.exposedPorts[k].InBounds())
  }

  /** Every instance of a table holds valid fields only. */
  predicate AllInBounds(table: seq<Circuit>) {
    forall h | 0 <= h < |table| :: FieldsInBounds(table[h])
  }
}

=== FILE: databank.dfy ===
/** The data bank: a growth-only, first-fit bump allocator that packs bit
    fields into blocks of N parallel cells ("lanes"). Lane i of block k is
    terminal i of the k-th group of fields, so index-aligned fields of one
    request always share offset and width. */
module DataBank {
  import opened Storage

  /** One lane of a block: its cell and the offset of the cell's first free bit
      (STORAGE_SIZE once every bit is used). */
  datatype StorageData = StorageData(cell: nat, freeBitOffset: nat)

  /** The N lanes allocated together. */
  type Block = seq<StorageData>

  /** A field handed out by `lendBools`, with the block and lane it came from. */
  datatype Loan = Loan(block: nat, lane: nat, field: Accessor)

  /** The cursor of a block: lane 0's free-bit offset, which every lane shares. */
  function Cursor(b: Block): nat
    requires |b| > 0
  {
    b[0].freeBitOffset
  }

  /** The first block, in insertion order, with room for `width` more bits;
      |blocks| when there is none. */
  function FirstFit(blocks: seq<Block>, width: nat): (k: nat)
    requires forall j | 0 <= j < |blocks| :: |blocks[j]| > 0
    ensures k <= |blocks|
    ensures k < |blocks| ==> Cursor(blocks[k]) + width <= STORAGE_SIZE
    ensures forall j | 0 <= j < k :: Cursor(blocks[j]) + width > STORAGE_SIZE
  {
    if blocks == [] then 0
    else if Cursor(blocks[0]) + width <= STORAGE_SIZE then 0
    else 1 + FirstFit(blocks[1..], width)
  }

  /** The block after `width` bits were claimed on every lane. */
  function Advance(b: Block, width: nat): (r: Block)
    ensures |r| == |b|
    ensures forall i | 0 <= i < |b| :: r[i] == StorageData(b[i].cell, b[i].freeBitOffset + width)
  {
    seq(|b|, i requires 0 <= i < |b| => StorageData(b[i].cell, b[i].freeBitOffset + width))
  }

  /** A new block over the consecutive fresh cells first, first + 1, ... */
  function FreshBlock(first: nat, lanes: nat, cursor: nat): (r: Block)
    ensures |r| == lanes
    ensures forall i | 0 <= i < lanes :: r[i] == StorageData(first + i, cursor)
  {
    seq(lanes, i requires 0 <= i < lanes => StorageData(first + i, cursor))
  }

  /** The zeroed content of the cells first, ..., first + count - 1. */
  function ZeroCells(first: nat, count: nat): (m: Cells)
    ensures forall i: nat :: i in m <==> first <= i < first + count
    ensures forall i | i in m :: m[i] == Zeros()
  {
    if count == 0 then map[] else ZeroCells(first, count - 1)[first + count - 1 := Zeros()]
  }

  /** Every cell of a sequence of blocks. */
  function BlockCells(blocks: seq<Block>): set<nat> {
    set k, i | 0 <= k < |blocks| && 0 <= i < |blocks[k]| :: blocks[k][i].cell
  }

  /** A block has `lanes` lanes that share one cursor of at most STORAGE_SIZE
      and cells already handed out by the arena (handles below `bound`). */
  predicate BlockOk(b: Block, lanes: nat, bound: nat) {
    && |b| == lanes && lanes >= 1
    && forall i | 0 <= i < |b| ::
         b[i].freeBitOffset == b[0].freeBitOffset <= STORAGE_SIZE && b[i].cell < bound
  }

  /** No cell serves two lanes. */
  predicate CellsDistinct(blocks: seq<Block>) {
    forall k, i, k2, i2 |
      0 <= k < |blocks| && 0 <= i < |blocks[k]| && 0 <= k2 < |blocks| && 0 <= i2 < |blocks[k2]|
      && blocks[k][i].cell == blocks[k2][i2].cell
      :: k == k2 && i == i2
  }

  /** A loan lies in its lane's cell, below that lane's cursor. */
  predicate LoanOk(l: Loan, blocks: seq<Block>) {
    && l.block < |blocks| && l.lane < |blocks[l.block]|
    && l.field.InBounds()
    && l.field.cell == CellAt(blocks[l.block][l.lane].cell)
    && l.field.offset + l.field.width <= blocks[l.block][l.lane].freeBitOffset
  }

  /** The loans made for one request: one per lane, in lane order. */
  function LoansOf(block: nat, fields: seq<Accessor>): (r: seq<Loan>)
    ensures |r| == |fields|
    ensures forall i | 0 <= i < |fields| :: r[i] == Loan(block, i, fields[i])
  {
    seq(|fields|, i requires 0 <= i < |fields| => Loan(block, i, fields[i]))
  }

  /** The fields of a list of loans, in lending order. */
  function LoanFields(loans: seq<Loan>): (r: seq<Accessor>)
    ensures |r| == |loans|
    ensures forall x | 0 <= x < |loans| :: r[x] == loans[x].field
  {
    seq(|loans|, x requires 0 <= x < |loans| => loans[x].field)
  }

  class DataBank {
    /** N, the number of lanes per block. */
    const lanes: nat
    /** Where the bank's cells live. */
    const arena: Arena
    /** The blocks, in the order they were appended. */
    var storage: seq<Block>
    /** Every field lent so far, in lending order. */
    ghost var loans: seq<Loan>

    ghost predicate Valid()
      reads this, arena
    {
      arena.Valid() && ValidWith(arena.next)
    }

    /** The bank's own invariant, given that the arena has handed out every
        handle below `bound`. */
    ghost predicate ValidWith(bound: nat)
      reads this
    {
      && Shaped()
      && (forall k | 0 <= k < |storage| :: BlockOk(storage[k], lanes, bound))
      && CellsDistinct(storage)
      && (forall x | 0 <= x < |loans| :: LoanOk(loans[x], storage))
      && (forall x, y | 0 <= x < |loans| && 0 <= y < |loans| && x != y ::
            Disjoint(loans[x].field, loans[y].field))
    }

    /** The arena handing out more handles keeps the bank valid. */
    lemma ValidLater(bound: nat, bound': nat)
      requires ValidWith(bound) && bound <= bound'
      ensures ValidWith(bound')
    {
      forall k | 0 <= k < |storage|
        ensures BlockOk(storage[k], lanes, bound')
      {
        assert BlockOk(storage[k], lanes, bound);
      }
    }

    /** Every block has one entry per lane. */
    predicate Shaped()
      reads this
    {
      lanes >= 1 && forall k | 0 <= k < |storage| :: |storage[k]| == lanes
    }

    /** Every cell the bank owns. */
    ghost function Cells(): set<nat>
      reads this
    {
      BlockCells(storage)
    }

    constructor (lanes: nat, arena: Arena)
      requires lanes >= 1 && arena.Valid()
      ensures Valid() && this.lanes == lanes && this.arena == arena
      ensures storage == [] && loans == []
    {
      this.lanes := lanes;
      this.arena := arena;
      storage := [];
      loans := [];
    }

    /** Allocates one fresh zeroed cell per lane and returns them as a block
        whose lanes all carry the given cursor. */
    method NewBlock(cursor: nat) returns (block: Block)
      requires arena.Valid()
      modifies arena
      ensures arena.Valid()
      ensures block == FreshBlock(old(arena.next), lanes, cursor)
      ensures arena.next == old(arena.next) + lanes
      ensures arena.cells == old(arena.cells) + ZeroCells(old(arena.next), lanes)
    {
      block := [];
      var i := 0;
      while i < lanes
        invariant 0 <= i <= lanes
        invariant arena.Valid()
        invariant arena.next == old(arena.next) + i
        invariant block == FreshBlock(old(arena.next), i, cursor)
        invariant arena.cells == old(arena.cells) + ZeroCells(old(arena.next), i)
      {
        var cell := arena.Allocate();
        block := block + [StorageData(cell, cursor)];
        i := i + 1;
      }
    }

    /** `lendBools`: N index-aligned fields of `width` bits, one per lane of a
        single block: from the first block with room, else from a new block. */
    method LendBools(width: nat) returns (r: Result<seq<Accessor>>)
      requires Valid()
      modifies this, arena
      ensures Valid()
      ensures width > STORAGE_SIZE ==>
        && r == Err(WidthExceedsCapacity)
        && storage == old(storage) && loans == old(loans)
        && arena.cells == old(arena.cells) && arena.next == old(arena.next)
      ensures width <= STORAGE_SIZE ==> r.Ok? && |r.value| == lanes
      ensures width <= STORAGE_SIZE && FirstFit(old(storage), width) < |old(storage)| ==>
        var k := FirstFit(old(storage), width);
        && storage == old(storage)[k := Advance(old(storage)[k], width)]
        && arena.cells == old(arena.cells) && arena.next == old(arena.next)
        && (forall i | 0 <= i < lanes ::
              r.value[i] == Accessor(Cursor(old(storage)[k]), width, CellAt(old(storage)[k][i].cell)))
        && loans == old(loans) + LoansOf(k, r.value)
      ensures width <= STORAGE_SIZE && FirstFit(old(storage), width) == |old(storage)| ==>
        && storage == old(storage) + [FreshBlock(old(arena.next), lanes, width)]
        && arena.next == old(arena.next) + lanes
        && arena.cells == old(arena.cells) + ZeroCells(old(arena.next), lanes)
        && (forall i | 0 <= i < lanes :: r.value[i] == Accessor(0, width, CellAt(old(arena.next) + i)))
        && loans == old(loans) + LoansOf(|old(storage)|, r.value)
    {
      if width > STORAGE_SIZE {
        return Err(WidthExceedsCapacity);
      }
      var k := 0;
      while k < |storage|
        invariant 0 <= k <= |storage|
        invariant forall j | 0 <= j < k :: Cursor(storage[j]) + width > STORAGE_SIZE
      {
        if storage[k][0].freeBitOffset + width <= STORAGE_SIZE {
          var block := storage[k];
          var accessors: seq<Accessor> := [];
          var i := 0;
          while i < lanes
            invariant 0 <= i <= lanes
            invariant |accessors| == i
            invariant forall j | 0 <= j < i ::
              accessors[j] == Accessor(Cursor(block), width, CellAt(block[j].cell))
          {
            accessors := accessors + [Accessor(block[i].freeBitOffset, width, CellAt(block[i].cell))];
            i := i + 1;
          }
          i := 0;
          while i < lanes
            invariant 0 <= i <= lanes
            invariant |block| == lanes
            invariant forall j | 0 <= j < lanes ::
              block[j] == if j < i then Advance(storage[k], width)[j] else storage[k][j]
          {
            block := block[i := StorageData(block[i].cell, block[i].freeBitOffset + width)];
            i := i + 1;
          }
          assert block == Advance(storage[k], width);
          LendFromBlockKeepsValid(k, width, accessors);
          storage := storage[k := block];
          loans := loans + LoansOf(k, accessors);
          return Ok(accessors);
        }
        k := k + 1;
      }
      var block := NewBlock(width);
      var accessors: seq<Accessor> := [];
      var i := 0;
      while i < lanes
        invariant 0 <= i <= lanes
        invariant |accessors| == i
        invariant forall j | 0 <= j < i :: accessors[j] == Accessor(0, width, CellAt(block[j].cell))
      {
        accessors := accessors + [Accessor(0, width, CellAt(block[i].cell))];
        i := i + 1;
      }
      LendFromNewBlockKeepsValid(old(storage), old(arena.next), width, accessors);
      storage := storage + [block];
      loans := loans + LoansOf(|old(storage)|, accessors);
      return Ok(accessors);
    }

    /** Claiming `width` more bits of block k keeps the bank valid, with the
        new fields recorded as loans. */
    lemma LendFromBlockKeepsValid(k: nat, width: nat, accessors: seq<Accessor>)
      requires Valid() && k < |storage| && Cursor(storage[k]) + width <= STORAGE_SIZE
      requires |accessors| == lanes
      requires forall j | 0 <= j < lanes ::
        accessors[j] == Accessor(Cursor(storage[k]), width, CellAt(storage[k][j].cell))
      ensures var s := storage[k := Advance(storage[k], width)];
              var ls := loans + LoansOf(k, accessors);
              && (forall k' | 0 <= k' < |s| :: BlockOk(s[k'], lanes, arena.next))
              && CellsDistinct(s)
              && (forall x | 0 <= x < |ls| :: LoanOk(ls[x], s))
              && (forall x, y | 0 <= x < |ls| && 0 <= y < |ls| && x != y :: Disjoint(ls[x].field, ls[y].field))
    {
      var s := storage[k := Advance(storage[k], width)];
      var ls := loans + LoansOf(k, accessors);
      forall x | 0 <= x < |ls| ensures LoanOk(ls[x], s) {
        if x < |loans| {
          assert LoanOk(loans[x], storage);
        }
      }
      forall x, y | 0 <= x < |ls| && 0 <= y < |ls| && x != y
        ensures Disjoint(ls[x].field, ls[y].field)
      {
        if x < |loans| && y < |loans| {
        } else if x < |loans| {
          var l := loans[x];
          assert LoanOk(l, storage);
          if l.block == k && l.lane == y - |loans| {
          } else {
            assert storage[l.block][l.lane].cell != storage[k][y - |loans|].cell;
          }
        } else if y < |loans| {
          var l := loans[y];
          assert LoanOk(l, storage);
          if l.block == k && l.lane == x - |loans| {
          } else {
            assert storage[l.block][l.lane].cell != storage[k][x - |loans|].cell;
          }
        } else {
          assert storage[k][x - |loans|].cell != storage[k][y - |loans|].cell;
        }
      }
    }

    /** Appending a fresh block and lending its first `width` bits keeps the
        bank valid, with the new fields recorded as loans. */
    lemma LendFromNewBlockKeepsValid(s0: seq<Block>, first: nat, width: nat, accessors: seq<Accessor>)
      requires Valid() && storage == s0 && width <= STORAGE_SIZE
      requires forall k | 0 <= k < |s0| :: BlockOk(s0[k], lanes, first)
      requires |accessors| == lanes
      requires forall j | 0 <= j < lanes :: accessors[j] == Accessor(0, width, CellAt(first + j))
      requires arena.next == first + lanes
      ensures var s := s0 + [FreshBlock(first, lanes, width)];
              var ls := loans + LoansOf(|s0|, accessors);
              && (forall k' | 0 <= k' < |s| :: BlockOk(s[k'], lanes, arena.next))
              && CellsDistinct(s)
              && (forall x | 0 <= x < |ls| :: LoanOk(ls[x], s))
              && (forall x, y | 0 <= x < |ls| && 0 <= y < |ls| && x != y :: Disjoint(ls[x].field, ls[y].field))
    {
      AppendFreshKeepsBlocks(s0, lanes, first, width);
      AppendKeepsLoans(s0, FreshBlock(first, lanes, width), loans);
      NewLoansOk(s0, first, width, loans, accessors);
      NewLoansDisjoint(s0, lanes, first, width, loans, accessors);
    }

    /** `lendStorage`: a new block of zeroed cells whose every bit is marked
        used, handed out as whole cells. */
    method LendStorage() returns (refs: seq<CellRef>)
      requires Valid()
      modifies this, arena
      ensures Valid()
      ensures storage == old(storage) + [FreshBlock(old(arena.next), lanes, STORAGE_SIZE)]
      ensures arena.next == old(arena.next) + lanes
      ensures arena.cells == old(arena.cells) + ZeroCells(old(arena.next), lanes)
      ensures |refs| == lanes && forall i | 0 <= i < lanes :: refs[i] == CellAt(old(arena.next) + i)
      ensures loans == old(loans)
    {
      var block := NewBlock(STORAGE_SIZE);
      refs := [];
      var i := 0;
      while i < lanes
        invariant 0 <= i <= lanes
        invariant |refs| == i
        invariant forall j | 0 <= j < i :: refs[j] == CellAt(block[j].cell)
      {
        refs := refs + [CellAt(block[i].cell)];
        i := i + 1;
      }
      AppendFullBlockKeepsValid(old(storage), old(arena.next));
      storage := storage + [block];
    }

    /** Appending a block of fresh cells keeps the bank valid. */
    lemma AppendFullBlockKeepsValid(s0: seq<Block>, first: nat)
      requires Valid() && storage == s0 && arena.next == first + lanes
      requires forall k | 0 <= k < |s0| :: BlockOk(s0[k], lanes, first)
      ensures var s := s0 + [FreshBlock(first, lanes, STORAGE_SIZE)];
              && (forall k' | 0 <= k' < |s| :: BlockOk(s[k'], lanes, arena.next))
              && CellsDistinct(s)
              && (forall x | 0 <= x < |loans| :: LoanOk(loans[x], s))
    {
      AppendFreshKeepsBlocks(s0, lanes, first, STORAGE_SIZE);
      AppendKeepsLoans(s0, FreshBlock(first, lanes, STORAGE_SIZE), loans);
    }

    /** `clear`: every cell of every block becomes 0; no block or cursor changes. */
    method Clear()
      requires Valid() && Cells() <= arena.cells.Keys
      modifies arena
      ensures Valid() && arena.next == old(arena.next)
      ensures arena.cells.Keys == old(arena.cells).Keys
      ensures forall c | c in arena.cells ::
        arena.cells[c] == if c in Cells() then Zeros() else old(arena.cells)[c]
    {
      var k := 0;
      while k < |storage|
        invariant 0 <= k <= |storage|
        invariant Valid() && arena.next == old(arena.next)
        invariant arena.cells.Keys == old(arena.cells).Keys
        invariant forall c | c in arena.cells ::
          arena.cells[c] == if c in BlockCells(storage[..k]) then Zeros() else old(arena.cells)[c]
      {
        BlockCellsSnoc(storage, k);
        ClearBlock(k);
        k := k + 1;
      }
      assert storage[..k] == storage;
    }

    /** Zeroes the cells of block k, lane by lane. */
    method ClearBlock(k: nat)
      requires Valid() && k < |storage| && Cells() <= arena.cells.Keys
      modifies arena
      ensures Valid() && arena.next == old(arena.next)
      ensures arena.cells.Keys == old(arena.cells).Keys
      ensures forall c | c in arena.cells ::
        arena.cells[c] == if c in LaneCells(storage[k], |storage[k]|) then Zeros() else old(arena.cells)[c]
    {
      var b := storage[k];
      for i := 0 to |b|
        invariant Valid() && arena.next == old(arena.next)
        invariant arena.cells.Keys == old(arena.cells).Keys
        invariant forall c | c in arena.cells ::
          arena.cells[c] == if c in LaneCells(b, i) then Zeros() else old(arena.cells)[c]
      {
        assert b[i].cell in Cells();
        arena.Reset(b[i].cell);
      }
    }

    /** `getStorage`: one tuple of cell references per block, in insertion order. */
    function GetStorage(): (r: seq<seq<CellRef>>)
      requires Shaped()
      reads this
      ensures |r| == |storage|
      ensures forall k | 0 <= k < |r| :: |r[k]| == lanes
      ensures forall k, i | 0 <= k < |r| && 0 <= i < lanes :: r[k][i] == CellAt(storage[k][i].cell)
    {
      var blocks := storage;
      seq(|blocks|, k requires 0 <= k < |blocks| =>
        seq(|blocks[k]|, i requires 0 <= i < |blocks[k]| => CellAt(blocks[k][i].cell)))
    }
  }

  /** The cells of the first `n` lanes of a block. */
  function LaneCells(b: Block, n: nat): set<nat>
    requires n <= |b|
  {
    set i | 0 <= i < n :: b[i].cell
  }

  /** The cells of the first k + 1 blocks are those of the first k and the
      lanes of block k. */
  lemma BlockCellsSnoc(blocks: seq<Block>, k: nat)
    requires k < |blocks|
    ensures BlockCells(blocks[..k + 1]) == BlockCells(blocks[..k]) + LaneCells(blocks[k], |blocks[k]|)
  {
    var p, q := blocks[..k + 1], blocks[..k];
    forall c | c in BlockCells(p) ensures c in BlockCells(q) + LaneCells(blocks[k], |blocks[k]|) {
      var k2, i :| 0 <= k2 < |p| && 0 <= i < |p[k2]| && p[k2][i].cell == c;
      if k2 < k {
        assert q[k2][i].cell == c;
      }
    }
    forall c | c in BlockCells(q) ensures c in BlockCells(p) {
      var k2, i :| 0 <= k2 < |q| && 0 <= i < |q[k2]| && q[k2][i].cell == c;
      assert p[k2][i].cell == c;
    }
    forall c | c in LaneCells(blocks[k], |blocks[k]|) ensures c in BlockCells(p) {
      var i :| 0 <= i < |blocks[k]| && blocks[k][i].cell == c;
      assert p[k][i].cell == c;
    }
  }

  /** Appending a block of fresh cells keeps every block well formed and
      every cell serving one lane. */
  lemma AppendFreshKeepsBlocks(s0: seq<Block>, lanes: nat, first: nat, cursor: nat)
    requires lanes >= 1 && cursor <= STORAGE_SIZE
    requires forall k | 0 <= k < |s0| :: BlockOk(s0[k], lanes, first)
    requires CellsDistinct(s0)
    ensures var s := s0 + [FreshBlock(first, lanes, cursor)];
            && (forall k | 0 <= k < |s| :: BlockOk(s[k], lanes, first + lanes))
            && CellsDistinct(s)
  {
    var s := s0 + [FreshBlock(first, lanes, cursor)];
    forall k | 0 <= k < |s| ensures BlockOk(s[k], lanes, first + lanes) {
      if k < |s0| {
        assert BlockOk(s0[k], lanes, first);
      }
    }
    forall k, i, k2, i2 |
      0 <= k < |s| && 0 <= i < |s[k]| && 0 <= k2 < |s| && 0 <= i2 < |s[k2]|
      && s[k][i].cell == s[k2][i2].cell
      ensures k == k2 && i == i2
    {
      if k < |s0| { assert BlockOk(s0[k], lanes, first); }
      if k2 < |s0| { assert BlockOk(s0[k2], lanes, first); }
    }
  }

  /** Appending a block moves no loan. */
  lemma AppendKeepsLoans(s0: seq<Block>, b: Block, loans: seq<Loan>)
    requires forall x | 0 <= x < |loans| :: LoanOk(loans[x], s0)
    ensures forall x | 0 <= x < |loans| :: LoanOk(loans[x], s0 + [b])
  {
    forall x | 0 <= x < |loans| ensures LoanOk(loans[x], s0 + [b]) {
      assert LoanOk(loans[x], s0);
    }
  }

  /** The fields lent from a fresh block lie in its lanes, below its cursor. */
  lemma NewLoansOk(s0: seq<Block>, first: nat, width: nat, loans: seq<Loan>, accessors: seq<Accessor>)
    requires width <= STORAGE_SIZE
    requires forall x | 0 <= x < |loans| :: LoanOk(loans[x], s0 + [FreshBlock(first, |accessors|, width)])
    requires forall j | 0 <= j < |accessors| :: accessors[j] == Accessor(0, width, CellAt(first + j))
    ensures var s := s0 + [FreshBlock(first, |accessors|, width)];
            var ls := loans + LoansOf(|s0|, accessors);
            forall x | 0 <= x < |ls| :: LoanOk(ls[x], s)
  {
    var s := s0 + [FreshBlock(first, |accessors|, width)];
    var ls := loans + LoansOf(|s0|, accessors);
    forall x | 0 <= x < |ls| ensures LoanOk(ls[x], s) {
      if x < |loans| {
        assert ls[x] == loans[x];
      } else {
        assert ls[x] == Loan(|s0|, x - |loans|, accessors[x - |loans|]);
      }
    }
  }

  /** The fields lent from a fresh block overlap neither each other nor any
      earlier loan, which lies in an older cell. */
  lemma NewLoansDisjoint(s0: seq<Block>, lanes: nat, first: nat, width: nat, loans: seq<Loan>,
                         accessors: seq<Accessor>)
    requires forall k | 0 <= k < |s0| :: BlockOk(s0[k], lanes, first)
    requires forall x | 0 <= x < |loans| :: LoanOk(loans[x], s0)
    requires forall x, y | 0 <= x < |loans| && 0 <= y < |loans| && x != y :: Disjoint(loans[x].field, loans[y].field)
    requires forall j | 0 <= j < |accessors| :: accessors[j] == Accessor(0, width, CellAt(first + j))
    ensures var ls := loans + LoansOf(|s0|, accessors);
            forall x, y | 0 <= x < |ls| && 0 <= y < |ls| && x != y :: Disjoint(ls[x].field, ls[y].field)
  {
    var ls := loans + LoansOf(|s0|, accessors);
    forall x, y | 0 <= x < |ls| && 0 <= y < |ls| && x != y
      ensures Disjoint(ls[x].field, ls[y].field)
    {
      if x < |loans| && y < |loans| {
        assert Disjoint(loans[x].field, loans[y].field);
      } else if x < |loans| {
        assert LoanOk(loans[x], s0);
        assert BlockOk(s0[loans[x].block], lanes, first);
      } else if y < |loans| {
        assert LoanOk(loans[y], s0);
        assert BlockOk(s0[loans[y].block], lanes, first);
      }
    }
  }

  /** Fields lent by one bank never share a bit: all loans are pairwise
      disjoint, so a value written through one is invisible through another. */
  lemma LoansDoNotInterfere(bank: DataBank, x: nat, y: nat, c: BoolStorage, value: BoolStorage)
    requires bank.Valid() && x < |bank.loans| && y < |bank.loans| && x != y
    ensures var a := bank.loans[x].field;
            var b := bank.loans[y].field;
            a.cell == b.cell ==> GetField(SetField(c, a, value), b) == GetField(c, b)
  {
    var a := bank.loans[x].field;
    var b := bank.loans[y].field;
    assert LoanOk(bank.loans[x], bank.storage) && LoanOk(bank.loans[y], bank.storage);
    if a.cell == b.cell {
      SetFieldFrame(c, a, b, value);
    }
  }
}

=== FILE: gates.dfy ===
/** Gate pools. A pool owns a data bank whose blocks have one lane per gate
    terminal (the inputs, then the output); lent gates are one-bit fields of
    one block, index-aligned across its lanes. A pool tick computes every gate
    of a block at once, by applying the gate's operator to the whole cells. */
module Gates {
  import opened Storage
  import opened DataBank

  datatype GateKind = AndGate | NotGate | OrGate | XorGate

  /** Lanes per block: two inputs and an output, or one input and an output. */
  function Arity(kind: GateKind): nat {
    if kind == NotGate then 2 else 3
  }

  /** The gate's truth table on one bit position; a NOT gate reads only `a`. */
  function Truth(kind: GateKind, a: bool, b: bool): bool {
    match kind
    case AndGate => a && b
    case NotGate => !a
    case OrGate => a || b
    case XorGate => a != b
  }

  /** The cell-wide operator the pool applies to a block's input cells
      (`*a & *b`, `~*a`, `*a | *b`, `*a ^ *b`): the truth table at every bit. */
  function Eval(kind: GateKind, ins: seq<BoolStorage>): (r: BoolStorage)
    requires |ins| == Arity(kind) - 1
    ensures forall i | 0 <= i < STORAGE_SIZE :: r[i] == Truth(kind, ins[0][i], ins[|ins| - 1][i])
  {
    match kind
    case AndGate => And(ins[0], ins[1])
    case NotGate => Flip(ins[0])
    case OrGate => Or(ins[0], ins[1])
    case XorGate => Xor(ins[0], ins[1])
  }

  /** Every lane of a block names an existing cell. */
  predicate RefsLive(cells: Cells, refs: seq<CellRef>) {
    forall i | 0 <= i < |refs| :: refs[i].CellAt? && refs[i].index in cells
  }

  /** The contents of a block's input cells. */
  function Inputs(cells: Cells, refs: seq<CellRef>): (r: seq<BoolStorage>)
    requires |refs| > 0 && RefsLive(cells, refs)
    ensures |r| == |refs| - 1
    ensures forall i | 0 <= i < |r| :: r[i] == cells[refs[i].index]
  {
    seq(|refs| - 1, i requires 0 <= i < |refs| - 1 => cells[refs[i].index])
  }

  /** The pool's work on one block: lock every lane, fail if one is gone,
      else the output cell takes the operator applied to the input cells. */
  function GateStep(cells: Cells, kind: GateKind, refs: seq<CellRef>): (r: Run)
    requires |refs| == Arity(kind)
    ensures r.cells.Keys == cells.Keys
    ensures r.outcome.Pass? <==> RefsLive(cells, refs)
    ensures r.outcome.Fail? ==> r.cells == cells && r.outcome.error == DanglingReference
  {
    if RefsLive(cells, refs) then
      Run(cells[refs[|refs| - 1].index := Eval(kind, Inputs(cells, refs))], Pass)
    else Run(cells, Fail(DanglingReference))
  }

  /** A pool tick: every block in insertion order; the first block with a
      missing cell stops the tick, keeping the outputs already written. */
  function PoolRun(cells: Cells, kind: GateKind, blocks: seq<seq<CellRef>>): (r: Run)
    requires forall k | 0 <= k < |blocks| :: |blocks[k]| == Arity(kind)
    ensures r.cells.Keys == cells.Keys
    ensures r.outcome.Pass? <==> forall k | 0 <= k < |blocks| :: RefsLive(cells, blocks[k])
    ensures r.outcome.Fail? ==> r.outcome.error == DanglingReference
    decreases |blocks|
  {
    if blocks == [] then Run(cells, Pass)
    else
      var first := GateStep(cells, kind, blocks[0]);
      if first.outcome.Fail? then first
      else
        assert forall k | 0 <= k < |blocks| :: RefsLive(first.cells, blocks[k]) == RefsLive(cells, blocks[k]);
        PoolRun(first.cells, kind, blocks[1..])
  }

  /** A pool tick from block k on: that block's step, then the rest. */
  lemma PoolRunFrom(cells: Cells, kind: GateKind, blocks: seq<seq<CellRef>>, k: nat)
    requires forall k2 | 0 <= k2 < |blocks| :: |blocks[k2]| == Arity(kind)
    requires k < |blocks|
    ensures PoolRun(cells, kind, blocks[k..])
            == if RefsLive(cells, blocks[k])
               then PoolRun(GateStep(cells, kind, blocks[k]).cells, kind, blocks[k + 1..])
               else Run(cells, Fail(DanglingReference))
  {
    assert blocks[k..][0] == blocks[k] && blocks[k..][1..] == blocks[k + 1..];
  }

  /** No cell serves two lanes of the pool. */
  ghost predicate RefsDistinct(blocks: seq<seq<CellRef>>) {
    forall k, i, k2, i2 :: Unshared(blocks, k, i, k2, i2)
  }

  /** Lane i of block k and lane i2 of block k2 hold the same cell only when
      they are the same lane. */
  predicate Unshared(blocks: seq<seq<CellRef>>, k: int, i: int, k2: int, i2: int) {
    0 <= k < |blocks| && 0 <= i < |blocks[k]| && 0 <= k2 < |blocks| && 0 <= i2 < |blocks[k2]|
    && blocks[k][i] == blocks[k2][i2]
    ==> k == k2 && i == i2
  }

  /** A pool of one block runs that block's gate. */
  lemma SingleBlock(cells: Cells, kind: GateKind, refs: seq<CellRef>)
    requires |refs| == Arity(kind)
    ensures PoolRun(cells, kind, [refs]) == GateStep(cells, kind, refs)
  {
    assert [refs][1..] == [];
  }

  lemma RefsDistinctTail(blocks: seq<seq<CellRef>>)
    requires blocks != [] && RefsDistinct(blocks)
    ensures RefsDistinct(blocks[1..])
  {
    var tail := blocks[1..];
    forall k, i, k2, i2
      ensures Unshared(tail, k, i, k2, i2)
    {
      assert Unshared(blocks, k + 1, i, k2 + 1, i2);
    }
  }

  /** No block writes the cell `c`. */
  predicate NotAnOutput(blocks: seq<seq<CellRef>>, c: nat) {
    forall k | 0 <= k < |blocks| && |blocks[k]| > 0 :: blocks[k][|blocks[k]| - 1] != CellAt(c)
  }

  /** A tick leaves every cell that is not an output as it was. */
  lemma {:induction false} PoolRunFrame(cells: Cells, kind: GateKind, blocks: seq<seq<CellRef>>, c: nat)
    requires forall k | 0 <= k < |blocks| :: |blocks[k]| == Arity(kind)
    requires c in cells && NotAnOutput(blocks, c)
    ensures PoolRun(cells, kind, blocks).cells[c] == cells[c]
    decreases |blocks|
  {
    if blocks != [] {
      var first := GateStep(cells, kind, blocks[0]);
      if first.outcome.Pass? {
        assert first.cells[c] == cells[c];
        PoolRunFrame(first.cells, kind, blocks[1..], c);
      }
    }
  }

  /** With every lane live, the first block's step passes, keeps every lane
      of the other blocks live and leaves the rest of the tick to them. */
  lemma FirstStep(cells: Cells, kind: GateKind, blocks: seq<seq<CellRef>>)
    requires forall k2 | 0 <= k2 < |blocks| :: |blocks[k2]| == Arity(kind) && RefsLive(cells, blocks[k2])
    requires blocks != []
    ensures GateStep(cells, kind, blocks[0]).outcome.Pass?
    ensures PoolRun(cells, kind, blocks) == PoolRun(GateStep(cells, kind, blocks[0]).cells, kind, blocks[1..])
    ensures forall k2 | 0 <= k2 < |blocks[1..]| ::
      |blocks[1..][k2]| == Arity(kind) && RefsLive(GateStep(cells, kind, blocks[0]).cells, blocks[1..][k2])
  {
  }

  /** No later block writes the first block's output cell, so the tick
      leaves the value the first step stored there. */
  lemma FirstOutputKept(cells: Cells, kind: GateKind, blocks: seq<seq<CellRef>>)
    requires forall k2 | 0 <= k2 < |blocks| :: |blocks[k2]| == Arity(kind)
    requires blocks != [] && RefsDistinct(blocks) && RefsLive(cells, blocks[0])
    ensures PoolRun(GateStep(cells, kind, blocks[0]).cells, kind, blocks[1..]).cells[blocks[0][Arity(kind) - 1].index]
            == Eval(kind, Inputs(cells, blocks[0]))
  {
    var n := Arity(kind);
    var out := blocks[0][n - 1].index;
    var tail := blocks[1..];
    assert NotAnOutput(tail, out) by {
      forall k2 | 0 <= k2 < |tail| && |tail[k2]| > 0
        ensures tail[k2][|tail[k2]| - 1] != CellAt(out)
      {
        assert Unshared(blocks, k2 + 1, n - 1, 0, n - 1);
      }
    }
    PoolRunFrame(GateStep(cells, kind, blocks[0]).cells, kind, tail, out);
  }

  /** When every lane exists and no cell is shared, a tick leaves in the
      output cell of block k the operator applied to that block's input cells
      as they were before the tick, whatever the order of the blocks. */
  lemma {:induction false} PoolRunOutput(cells: Cells, kind: GateKind, blocks: seq<seq<CellRef>>, k: nat)
    requires forall k2 | 0 <= k2 < |blocks| :: |blocks[k2]| == Arity(kind) && RefsLive(cells, blocks[k2])
    requires RefsDistinct(blocks) && k < |blocks|
    ensures PoolRun(cells, kind, blocks).outcome.Pass?
    ensures PoolRun(cells, kind, blocks).cells[blocks[k][Arity(kind) - 1].index]
            == Eval(kind, Inputs(cells, blocks[k]))
    decreases |blocks|
  {
    var n := Arity(kind);
    var out := blocks[0][n - 1].index;
    var first := GateStep(cells, kind, blocks[0]);
    var tail := blocks[1..];
    FirstStep(cells, kind, blocks);
    if k == 0 {
      FirstOutputKept(cells, kind, blocks);
    } else {
      RefsDistinctTail(blocks);
      forall i | 0 <= i < n - 1
        ensures blocks[k][i].index != out
      {
        assert Unshared(blocks, k, i, 0, n - 1);
      }
      assert Inputs(first.cells, blocks[k]) == Inputs(cells, blocks[k]);
      assert tail[k - 1] == blocks[k];
      PoolRunOutput(first.cells, kind, tail, k - 1);
    }
  }

  /** The field values of a sequence of cells, through one accessor's bits. */
  function FieldsOf(ins: seq<BoolStorage>, a: Accessor): (r: seq<BoolStorage>)
    requires a.InBounds()
    ensures |r| == |ins| && forall i | 0 <= i < |ins| :: r[i] == GetField(ins[i], a)
  {
    seq(|ins|, i requires 0 <= i < |ins| => GetField(ins[i], a))
  }

  /** Applying the operator to whole cells and then reading a field is
      applying it to the fields, cut to the field's width. */
  lemma EvalOnField(kind: GateKind, ins: seq<BoolStorage>, a: Accessor)
    requires |ins| == Arity(kind) - 1 && a.InBounds()
    ensures GetField(Eval(kind, ins), a) == And(Eval(kind, FieldsOf(ins, a)), LowBits(a.width))
  {
    var l := GetField(Eval(kind, ins), a);
    var r := And(Eval(kind, FieldsOf(ins, a)), LowBits(a.width));
    forall i | 0 <= i < STORAGE_SIZE
      ensures l[i] == r[i]
    {
    }
  }

  // ---------------------------------------------------------------------
  // The pool object

  /** `t` is one gate of `kind` lent in `block`: one-bit fields at a single
      bit offset, the field of lane i in cell i of the block. */
  predicate GateTerminals(t: seq<Accessor>, kind: GateKind, block: seq<CellRef>) {
    && |t| == Arity(kind) && |block| == Arity(kind)
    && t[0].offset < STORAGE_SIZE
    && forall i | 0 <= i < |t| :: block[i].CellAt? && t[i] == Accessor(t[0].offset, 1, block[i])
  }

  class GatePool {
    const kind: GateKind
    /** The pool's own bank, one lane per terminal. */
    const bank: DataBank

    ghost predicate Valid()
      reads this, bank, bank.arena
    {
      bank.Valid() && bank.lanes == Arity(kind)
    }

    constructor (kind: GateKind, arena: Arena)
      requires arena.Valid()
      ensures Valid() && this.kind == kind && fresh(bank)
      ensures bank.arena == arena && bank.storage == [] && bank.loans == []
    {
      this.kind := kind;
      bank := new DataBank(Arity(kind), arena);
    }

    /** `lendGate`: one new gate, as index-aligned one-bit fields of block k
        (its inputs, then its output). A one-bit request always succeeds. */
    method LendGate() returns (terminals: seq<Accessor>, ghost k: nat)
      requires Valid()
      modifies bank, bank.arena
      ensures Valid()
      ensures |terminals| == Arity(kind) && k < |bank.storage|
      ensures forall i | 0 <= i < |terminals| ::
        && terminals[i].width == 1 && terminals[i].offset == terminals[0].offset
        && terminals[i].InBounds()
        && terminals[i].cell == CellAt(bank.storage[k][i].cell)
      ensures GateTerminals(terminals, kind, bank.GetStorage()[k])
      ensures bank.loans == old(bank.loans) + LoansOf(k, terminals)
      ensures bank.arena.next >= old(bank.arena.next)
      ensures old(bank.GetStorage()) <= bank.GetStorage()
    {
      ghost var blocks := bank.GetStorage();
      var r := bank.LendBools(1);
      terminals := r.value;
      k := FirstFit(old(bank.storage), 1);
      forall j | 0 <= j < |blocks|
        ensures bank.GetStorage()[j] == blocks[j]
      {
        assert forall i | 0 <= i < bank.lanes :: bank.storage[j][i].cell == old(bank.storage)[j][i].cell;
      }
      assert LoanOk(bank.loans[|old(bank.loans)|], bank.storage);
      forall i | 0 <= i < |terminals|
        ensures terminals[i].InBounds()
      {
        assert LoanOk(bank.loans[|old(bank.loans)| + i], bank.storage);
      }
    }

    /** One block of `tick`: lock every lane, fail if one is gone, else
        store the operator applied to the inputs in the output cell. */
    method TickBlock(refs: seq<CellRef>) returns (o: Outcome)
      requires Valid() && |refs| == Arity(kind)
      modifies bank.arena
      ensures Valid() && bank.arena.next == old(bank.arena.next)
      ensures Run(bank.arena.cells, o) == GateStep(old(bank.arena.cells), kind, refs)
    {
      var arena := bank.arena;
      var a := Lock(arena.cells, refs[0]);
      var b := Lock(arena.cells, refs[1]);
      if kind == NotGate {
        if a.Err? || b.Err? {
          return Fail(DanglingReference);
        }
        assert RefsLive(arena.cells, refs);
        o := arena.Store(refs[1], Flip(a.value));
      } else {
        var c := Lock(arena.cells, refs[2]);
        if a.Err? || b.Err? || c.Err? {
          return Fail(DanglingReference);
        }
        assert RefsLive(arena.cells, refs);
        assert Inputs(arena.cells, refs) == [a.value, b.value];
        o := arena.Store(refs[2], Eval(kind, [a.value, b.value]));
      }
    }

    /** `tick`: every block of the bank, in insertion order, as PoolRun says. */
    method Tick() returns (o: Outcome)
      requires Valid()
      modifies bank.arena
      ensures Valid() && bank.arena.next == old(bank.arena.next)
      ensures Run(bank.arena.cells, o) == PoolRun(old(bank.arena.cells), kind, bank.GetStorage())
    {
      var blocks := bank.GetStorage();
      var k := 0;
      while k < |blocks|
        invariant 0 <= k <= |blocks|
        invariant Valid() && bank.arena.next == old(bank.arena.next)
        invariant PoolRun(old(bank.arena.cells), kind, blocks) == PoolRun(bank.arena.cells, kind, blocks[k..])
      {
        PoolRunFrom(bank.arena.cells, kind, blocks, k);
        o := TickBlock(blocks[k]);
        if o.Fail? {
          return;
        }
        k := k + 1;
      }
      o := Pass;
    }
  }

  /** The cells of a valid bank, as `getStorage` hands them out, are distinct. */
  lemma BankRefsDistinct(bank: DataBank)
    requires bank.Valid()
    ensures RefsDistinct(bank.GetStorage())
  {
    var blocks := bank.GetStorage();
    forall k, i, k2, i2
      ensures Unshared(blocks, k, i, k2, i2)
    {
      if 0 <= k < |blocks| && 0 <= i < |blocks[k]| && 0 <= k2 < |blocks| && 0 <= i2 < |blocks[k2]| {
        assert blocks[k][i] == blocks[k2][i2] ==> bank.storage[k][i].cell == bank.storage[k2][i2].cell;
      }
    }
  }

  /** The values of a gate's input fields. */
  function InputReads(cells: Cells, terminals: seq<Accessor>): (r: seq<BoolStorage>)
    requires |terminals| > 0
    requires forall i | 0 <= i < |terminals| :: terminals[i].InBounds() && LiveIn(cells, terminals[i])
    ensures |r| == |terminals| - 1
    ensures forall i | 0 <= i < |r| :: Ok(r[i]) == Read(cells, terminals[i])
  {
    seq(|terminals| - 1, i requires 0 <= i < |terminals| - 1 => Read(cells, terminals[i]).value)
  }

  /** What one lent gate sees after a pool tick in which every cell of the
      pool exists: its inputs are unchanged and its output field holds the
      gate's operator applied to the input fields' values from before the
      tick (the gate tests check `c.get() == (a.get() | b.get())`). */
  lemma GateOutput(pool: GatePool, cells: Cells, terminals: seq<Accessor>, k: nat)
    requires pool.Valid() && k < |pool.bank.storage|
    requires forall k2 | 0 <= k2 < |pool.bank.storage| :: RefsLive(cells, pool.bank.GetStorage()[k2])
    requires |terminals| == Arity(pool.kind)
    requires forall i | 0 <= i < |terminals| ::
      && terminals[i].width == 1 && terminals[i].offset == terminals[0].offset && terminals[i].InBounds()
      && terminals[i].cell == CellAt(pool.bank.storage[k][i].cell)
    ensures PoolRun(cells, pool.kind, pool.bank.GetStorage()).outcome.Pass?
    ensures forall i | 0 <= i < |terminals| - 1 ::
      Read(PoolRun(cells, pool.kind, pool.bank.GetStorage()).cells, terminals[i]) == Read(cells, terminals[i])
    ensures Read(PoolRun(cells, pool.kind, pool.bank.GetStorage()).cells, terminals[|terminals| - 1])
            == Ok(And(Eval(pool.kind, InputReads(cells, terminals)), LowBits(1)))
  {
    var blocks := pool.bank.GetStorage();
    var n := Arity(pool.kind);
    BankRefsDistinct(pool.bank);
    PoolRunOutput(cells, pool.kind, blocks, k);
    var r := PoolRun(cells, pool.kind, blocks);
    forall i | 0 <= i < n - 1
      ensures Read(r.cells, terminals[i]) == Read(cells, terminals[i])
    {
      var c := pool.bank.storage[k][i].cell;
      assert NotAnOutput(blocks, c) by {
        forall k2 | 0 <= k2 < |blocks| && |blocks[k2]| > 0
          ensures blocks[k2][|blocks[k2]| - 1] != CellAt(c)
        {
          assert Unshared(blocks, k2, n - 1, k, i);
        }
      }
      PoolRunFrame(cells, pool.kind, blocks, c);
    }
    var out := terminals[n - 1];
    var ins := Inputs(cells, blocks[k]);
    EvalOnField(pool.kind, ins, out);
    assert FieldsOf(ins, out) == InputReads(cells, terminals);
  }
}

=== FILE: instantiate.dfy ===
/** `CircuitSchematic::build`: a breadth-first pass creates one empty
    instance per node of the schematic tree and links each to its parent;
    then the instances are populated from the last created to the first, so
    every instance is populated after all of its descendants have exported
    their ports into it. */
module Instantiate {
  import opened Storage
  import opened Schematic
  import opened Circuits
  import opened Populate
  import M = Managers

  /** A sub-circuit waiting for its instance: its schematic, its name in the
      parent and the parent's handle. */
  datatype Pending = Pending(schematic: SchematicData, name: string, parent: nat)

  /** An instance waiting to be populated: its schematic, its name in the
      parent, its handle and the parent's handle. */
  datatype Frame = Frame(schematic: SchematicData, name: string, circuit: nat, parent: nat)

  /** The queue entries for the children of instance `c`, in declaration order. */
  function Enqueued(subs: seq<SubCircuit>, c: nat): (q: seq<Pending>)
    ensures |q| == |subs|
    ensures forall i | 0 <= i < |subs| :: q[i] == Pending(subs[i].schematic, subs[i].name, c)
  {
    seq(|subs|, i requires 0 <= i < |subs| => Pending(subs[i].schematic, subs[i].name, c))
  }

  /** The instances a queue still has to create: each entry and everything
      below it. */
  function QueueSize(q: seq<Pending>): nat {
    if q == [] then 0
    else QueueSize(q[..|q| - 1]) + 1 + SubsSize(q[|q| - 1].schematic.subCircuits)
  }

  lemma {:induction false} QueueSizeFront(q: seq<Pending>)
    requires q != []
    ensures QueueSize(q) == 1 + SubsSize(q[0].schematic.subCircuits) + QueueSize(q[1..])
    decreases |q|
  {
    if |q| > 1 {
      QueueSizeFront(q[..|q| - 1]);
      assert q[..|q| - 1][1..] == q[1..][..|q[1..]| - 1];
    }
  }

  // ---------------------------------------------------------------------
  // The instance tree

  /** How many of the child slots `f`, `f + 1`, ..., `f + len - 1` lie below
      handle `n`. */
  function Below(f: nat, len: nat, n: nat): (j: nat)
    ensures j <= len
  {
    if n <= f then 0 else if n - f >= len then len else n - f
  }

  /** `nodes[h]` describes instance `h` (handles start at 1; entry 0 stands
      for the parent placeholder the root exports into). The root comes
      first and every child slot of an instance comes after the instance. */
  predicate Shape(n: nat, nodes: seq<Frame>, first: seq<nat>, s: SchematicData) {
    && n >= 2 && |nodes| == n && |first| == n
    && nodes[1] == Frame(s, "main", 1, 0)
    && (forall h | 1 <= h < n :: nodes[h].circuit == h && nodes[h].parent < h && h < first[h])
  }

  /** Child `i` of instance `h` lives at handle `first[h] + i`. */
  predicate ChildAt(nodes: seq<Frame>, first: seq<nat>, h: nat, i: nat) {
    && h < |nodes| && h < |first| && i < |nodes[h].schematic.subCircuits| && first[h] + i < |nodes|
    && nodes[first[h] + i]
       == Frame(nodes[h].schematic.subCircuits[i].schematic, nodes[h].schematic.subCircuits[i].name, first[h] + i, h)
  }

  /** Every created child slot holds its child. */
  predicate ChildrenPlaced(n: nat, nodes: seq<Frame>, first: seq<nat>)
    requires |nodes| == n && |first| == n
  {
    forall h, i | 1 <= h < n && 0 <= i < |nodes[h].schematic.subCircuits| && first[h] + i < n ::
      ChildAt(nodes, first, h, i)
  }

  /** Instance `k` fills a child slot of an earlier instance, its parent. */
  predicate ChildOf(nodes: seq<Frame>, first: seq<nat>, k: nat) {
    && k < |nodes|
    && 1 <= nodes[k].parent < k
    && k < |first|
    && first[nodes[k].parent] <= k < first[nodes[k].parent] + |nodes[nodes[k].parent].schematic.subCircuits|
  }

  /** Every created instance but the root is some instance's child. */
  predicate ParentsPlaced(n: nat, nodes: seq<Frame>, first: seq<nat>) {
    forall k | 2 <= k < n :: ChildOf(nodes, first, k)
  }

  /** Child `i` of instance `h`, not created yet, is queue entry
      `first[h] + i - n`. */
  predicate QueuedAt(n: nat, nodes: seq<Frame>, first: seq<nat>, queue: seq<Pending>, h: nat, i: nat) {
    && h < |nodes| && h < |first| && i < |nodes[h].schematic.subCircuits| && n <= first[h] + i < n + |queue|
    && queue[first[h] + i - n]
       == Pending(nodes[h].schematic.subCircuits[i].schematic, nodes[h].schematic.subCircuits[i].name, h)
  }

  /** Queue entry `j`, the future handle `n + j`, fills a child slot of a
      created instance. */
  predicate EntryOf(n: nat, nodes: seq<Frame>, first: seq<nat>, queue: seq<Pending>, j: nat) {
    && j < |queue|
    && 1 <= queue[j].parent < n
    && queue[j].parent < |nodes| && queue[j].parent < |first|
    && first[queue[j].parent] <= n + j < first[queue[j].parent] + |nodes[queue[j].parent].schematic.subCircuits|
  }

  /** The children not created yet wait in the queue in handle order: entry
      `j` will become handle `n + j`. */
  predicate Queued(n: nat, nodes: seq<Frame>, first: seq<nat>, queue: seq<Pending>)
    requires |nodes| == n && |first| == n
  {
    && (forall h, i | 1 <= h < n && 0 <= i < |nodes[h].schematic.subCircuits| && first[h] + i >= n ::
          QueuedAt(n, nodes, first, queue, h, i))
    && (forall j | 0 <= j < |queue| :: EntryOf(n, nodes, first, queue, j))
  }

  /** Instance `h`'s child handles are its created child slots, in order. */
  predicate LinkedAt(table: seq<Circuit>, nodes: seq<Frame>, first: seq<nat>, h: nat) {
    && h < |table| && h < |nodes| && h < |first|
    && |table[h].subCircuits| == Below(first[h], |nodes[h].schematic.subCircuits|, |table|)
    && (forall i | 0 <= i < |table[h].subCircuits| :: table[h].subCircuits[i] == first[h] + i)
  }

  /** Every instance's child handles are its created child slots. */
  predicate Linked(table: seq<Circuit>, nodes: seq<Frame>, first: seq<nat>) {
    forall h | 1 <= h < |table| :: LinkedAt(table, nodes, first, h)
  }

  /** No instance holds a name or an exposed port yet. */
  predicate Unpopulated(table: seq<Circuit>) {
    forall h | 0 <= h < |table| :: table[h].names == map[] && table[h].exposedPorts == map[]
  }

  /** What the breadth-first pass keeps. */
  predicate Spawned(table: seq<Circuit>, nodes: seq<Frame>, first: seq<nat>, queue: seq<Pending>, s: SchematicData) {
    && Shape(|table|, nodes, first, s)
    && ChildrenPlaced(|table|, nodes, first)
    && ParentsPlaced(|table|, nodes, first)
    && Queued(|table|, nodes, first, queue)
    && Linked(table, nodes, first)
    && Unpopulated(table)
  }

  /** The breadth-first pass before its first step. */
  lemma SpawnStart(s: SchematicData, placeholder: Frame)
    ensures Spawned([EMPTY_CIRCUIT, EMPTY_CIRCUIT], [placeholder, Frame(s, "main", 1, 0)], [0, 2],
                    Enqueued(s.subCircuits, 1), s)
  {
    var nodes, first := [placeholder, Frame(s, "main", 1, 0)], [0, 2];
    assert Shape(2, nodes, first, s);
    assert Queued(2, nodes, first, Enqueued(s.subCircuits, 1));
    assert Linked([EMPTY_CIRCUIT, EMPTY_CIRCUIT], nodes, first);
  }

  /** The next handle fills a child slot of the queue head's parent only. */
  lemma SlotOwner(table: seq<Circuit>, nodes: seq<Frame>, first: seq<nat>, queue: seq<Pending>, s: SchematicData)
    requires Spawned(table, nodes, first, queue, s) && queue != []
    ensures forall h | 1 <= h < |table| && first[h] <= |table| < first[h] + |nodes[h].schematic.subCircuits| ::
              h == queue[0].parent
  {
    forall h | 1 <= h < |table| && first[h] <= |table| < first[h] + |nodes[h].schematic.subCircuits|
      ensures h == queue[0].parent
    {
      assert QueuedAt(|table|, nodes, first, queue, h, |table| - first[h]);
    }
  }

  /** Creating the instance for the queue's head keeps the pass's invariant. */
  lemma {:induction false} SpawnStep(table: seq<Circuit>, nodes: seq<Frame>, first: seq<nat>, queue: seq<Pending>,
                                     s: SchematicData, table': seq<Circuit>, nodes': seq<Frame>, first': seq<nat>,
                                     queue': seq<Pending>)
    requires Spawned(table, nodes, first, queue, s) && queue != []
    requires EntryOf(|table|, nodes, first, queue, 0)
    requires table' == (table + [EMPTY_CIRCUIT])[queue[0].parent := table[queue[0].parent].(
                          subCircuits := table[queue[0].parent].subCircuits + [|table|])]
    requires nodes' == nodes + [Frame(queue[0].schematic, queue[0].name, |table|, queue[0].parent)]
    requires first' == first + [|table| + |queue|]
    requires queue' == queue[1..] + Enqueued(queue[0].schematic.subCircuits, |table|)
    ensures Spawned(table', nodes', first', queue', s)
  {
    var c, p := |table|, queue[0].parent;
    var kids := Enqueued(queue[0].schematic.subCircuits, c);
    assert EntryOf(c, nodes, first, queue, 0);
    var n' := c + 1;
    assert Shape(c + 1, nodes', first', s);
    forall h, i | 1 <= h < n' && 0 <= i < |nodes'[h].schematic.subCircuits| && first'[h] + i < n'
      ensures ChildAt(nodes', first', h, i)
    {
      if first[h] + i < c {
        assert ChildAt(nodes, first, h, i);
      } else {
        assert QueuedAt(c, nodes, first, queue, h, i);
      }
    }
    forall k | 2 <= k < c + 1
      ensures ChildOf(nodes', first', k)
    {
      if k < c {
        assert ChildOf(nodes, first, k);
      }
    }
    forall h, i | 1 <= h < n' && 0 <= i < |nodes'[h].schematic.subCircuits| && first'[h] + i >= n'
      ensures QueuedAt(n', nodes', first', queue', h, i)
    {
      if h < c {
        assert QueuedAt(c, nodes, first, queue, h, i);
        assert queue'[first[h] + i - (c + 1)] == queue[first[h] + i - c];
      } else {
        assert queue'[|queue| - 1 + i] == kids[i];
      }
    }
    forall j | 0 <= j < |queue'|
      ensures EntryOf(n', nodes', first', queue', j)
    {
      if j < |queue| - 1 {
        assert EntryOf(c, nodes, first, queue, j + 1);
        assert queue'[j] == queue[j + 1];
      } else {
        assert queue'[j] == kids[j - (|queue| - 1)];
      }
    }
    assert Queued(n', nodes', first', queue');
    SlotOwner(table, nodes, first, queue, s);
    forall h | 1 <= h < c + 1
      ensures LinkedAt(table', nodes', first', h)
    {
      if h < c {
        assert LinkedAt(table, nodes, first, h);
      }
    }
    assert Unpopulated(table');
  }

  /** The facts about handles and schematics alone that the pass leaves:
      what `Spawned` keeps, with every child slot created. */
  predicate Tree(n: nat, nodes: seq<Frame>, first: seq<nat>, s: SchematicData) {
    && Shape(n, nodes, first, s)
    && ChildrenPlaced(n, nodes, first)
    && ParentsPlaced(n, nodes, first)
    && (forall h | 1 <= h < n :: |nodes[h].schematic.subCircuits| == 0 || first[h] + |nodes[h].schematic.subCircuits| <= n)
  }

  /** After the pass every child slot holds a created instance. */
  lemma SpawnDone(table: seq<Circuit>, nodes: seq<Frame>, first: seq<nat>, s: SchematicData)
    requires Spawned(table, nodes, first, [], s)
    ensures Tree(|table|, nodes, first, s)
  {
    forall h | 1 <= h < |table|
      ensures |nodes[h].schematic.subCircuits| == 0 || first[h] + |nodes[h].schematic.subCircuits| <= |table|
    {
      var len := |nodes[h].schematic.subCircuits|;
      if 0 < len {
        assert first[h] + (len - 1) >= |table| ==> QueuedAt(|table|, nodes, first, [], h, len - 1);
      }
    }
  }

  /** Queues the children of instance `c`, in declaration order. */
  method EnqueueChildren(queue: seq<Pending>, subs: seq<SubCircuit>, c: nat) returns (q: seq<Pending>)
    ensures q == queue + Enqueued(subs, c)
    ensures QueueSize(q) == QueueSize(queue) + SubsSize(subs)
  {
    q := queue;
    for j := 0 to |subs|
      invariant q == queue + Enqueued(subs[..j], c)
      invariant QueueSize(q) == QueueSize(queue) + SubsSize(subs[..j])
    {
      assert Enqueued(subs[..j + 1], c) == Enqueued(subs[..j], c) + [Pending(subs[j].schematic, subs[j].name, c)];
      assert subs[..j + 1][..j] == subs[..j];
      q := q + [Pending(subs[j].schematic, subs[j].name, c)];
      assert q[..|q| - 1] == queue + Enqueued(subs[..j], c);
    }
    assert subs[..|subs|] == subs;
  }

  /** The breadth-first pass: one empty instance per node of the schematic
      tree, children linked in declaration order, the frames to populate in
      creation order. */
  method Spawn(s: SchematicData) returns (table: seq<Circuit>, stack: seq<Frame>, ghost first: seq<nat>)
    ensures |stack| == |table| - 1
    ensures Tree(|table|, [Frame(s, "", 0, 0)] + stack, first, s)
    ensures Linked(table, [Frame(s, "", 0, 0)] + stack, first) && Unpopulated(table)
  {
    table := [EMPTY_CIRCUIT, EMPTY_CIRCUIT];
    stack := [Frame(s, "main", 1, 0)];
    var queue := Enqueued(s.subCircuits, 1);
    first := [0, 2];
    ghost var nodes := [Frame(s, "", 0, 0)] + stack;
    SpawnStart(s, Frame(s, "", 0, 0));
    while queue != []
      invariant Spawned(table, nodes, first, queue, s)
      invariant nodes == [Frame(s, "", 0, 0)] + stack
      decreases QueueSize(queue)
    {
      var head := queue[0];
      var c := |table|;
      assert EntryOf(c, nodes, first, queue, 0);
      ghost var (table0, nodes0, first0, queue0) := (table, nodes, first, queue);
      QueueSizeFront(queue);
      table := (table + [EMPTY_CIRCUIT])[head.parent := table[head.parent].(subCircuits := table[head.parent].subCircuits + [c])];
      first := first + [c + |queue|];
      nodes := nodes + [Frame(head.schematic, head.name, c, head.parent)];
      queue := EnqueueChildren(queue[1..], head.schematic.subCircuits, c);
      stack := stack + [Frame(head.schematic, head.name, c, head.parent)];
      SpawnStep(table0, nodes0, first0, queue0, s, table, nodes, first, queue);
    }
    SpawnDone(table, nodes, first, s);
  }

  /** Instance `k`, other than the root, is a child slot of its parent. */
  lemma ParentOf(n: nat, nodes: seq<Frame>, first: seq<nat>, s: SchematicData, k: nat)
    requires Tree(n, nodes, first, s) && 2 <= k < n
    ensures 1 <= nodes[k].parent < k && first[nodes[k].parent] <= k
    ensures k - first[nodes[k].parent] < |nodes[nodes[k].parent].schematic.subCircuits|
    ensures nodes[k].schematic == nodes[nodes[k].parent].schematic.subCircuits[k - first[nodes[k].parent]].schematic
  {
    assert ChildOf(nodes, first, k);
    assert ChildAt(nodes, first, nodes[k].parent, k - first[nodes[k].parent]);
  }

  lemma ResolvesChild(s: SchematicData, i: nat)
    requires Resolves(s) && i < |s.subCircuits|
    ensures Resolves(s.subCircuits[i].schematic)
  {
  }

  /** Every instance of a buildable schematic is buildable. */
  lemma {:induction false} ResolvesBelow(n: nat, nodes: seq<Frame>, first: seq<nat>, s: SchematicData, k: nat)
    requires Tree(n, nodes, first, s) && Resolves(s) && 1 <= k < n
    ensures Resolves(nodes[k].schematic)
    decreases k
  {
    if k >= 2 {
      ParentOf(n, nodes, first, s, k);
      var p := nodes[k].parent;
      ResolvesBelow(n, nodes, first, s, p);
      ResolvesChild(nodes[p].schematic, k - first[p]);
    } else {
      assert nodes[k].schematic == s;
    }
  }

  // ---------------------------------------------------------------------
  // Populating, last instance first

  /** An instance `c` of `s`: it knows exactly the names `s` defines and
      re-exports, and exposes exactly the ports `s` lists, each as the
      accessor it knows under that name. */
  predicate Holds(c: Circuit, s: SchematicData) {
    && c.names.Keys == Keys(s)
    && c.exposedPorts.Keys == PortSet(s.exposedPorts)
    && (forall i | 0 <= i < |s.exposedPorts| ::
          s.exposedPorts[i] in c.names && c.exposedPorts[s.exposedPorts[i]] == c.names[s.exposedPorts[i]])
  }

  /** Instance `h` of `table` and everything below it is an instance of `s`
      and its sub-circuits, child `i` under handle `table[h].subCircuits[i]`,
      each wired into the layout `l`: its names hold the gates, bridge
      terminals and sockets the managers lent for it. */
  ghost predicate Instance(table: seq<Circuit>, h: nat, s: SchematicData, l: M.Layout)
    decreases s
  {
    && h < |table|
    && Holds(table[h], s)
    && Wired(table[h].names, s, l)
    && |table[h].subCircuits| == |s.subCircuits|
    && forall i | 0 <= i < |s.subCircuits| :: Instance(table, table[h].subCircuits[i], s.subCircuits[i].schematic, l)
  }

  /** Instance `h` is wired into `l`. */
  ghost predicate WiredAt(table: seq<Circuit>, nodes: seq<Frame>, h: nat, l: M.Layout) {
    h < |table| && h < |nodes| && Wired(table[h].names, nodes[h].schematic, l)
  }

  /** The instances above `k` are wired into `l`. */
  ghost predicate WiredAbove(table: seq<Circuit>, nodes: seq<Frame>, k: nat, l: M.Layout) {
    forall h | k < h < |table| :: WiredAt(table, nodes, h, l)
  }

  /** Nothing is populated before the second phase, so nothing need be wired. */
  lemma WiredStart(table: seq<Circuit>, nodes: seq<Frame>, l: M.Layout)
    requires |table| >= 1
    ensures WiredAbove(table, nodes, |table| - 1, l)
  {
  }

  /** Populating instance `k` wires it and leaves the instances after it,
      which the layout still holds, as they were. */
  lemma WiredStep(table: seq<Circuit>, t: seq<Circuit>, nodes: seq<Frame>, k: nat, p: nat, l1: M.Layout, l2: M.Layout)
    requires p < k < |table| == |t| && M.Grows(l1, l2)
    requires WiredAbove(table, nodes, k, l1)
    requires forall h | 0 <= h < |table| && h != k && h != p :: t[h] == table[h]
    requires k < |nodes| && Wired(t[k].names, nodes[k].schematic, l2)
    ensures WiredAbove(t, nodes, k - 1, l2)
  {
    forall h | k - 1 < h < |t|
      ensures WiredAt(t, nodes, h, l2)
    {
      if h > k {
        assert WiredAt(table, nodes, h, l1) && t[h] == table[h];
        WiredGrows(table[h].names, nodes[h].schematic, l1, l2);
      }
    }
  }

  /** Instance `h` is populated and passes its own checks. */
  predicate DoneAt(table: seq<Circuit>, nodes: seq<Frame>, h: nat) {
    h < |table| && h < |nodes| && Holds(table[h], nodes[h].schematic) && LocalResolves(nodes[h].schematic)
  }

  /** The instances above `k` are populated and pass their own checks. */
  predicate DoneAbove(table: seq<Circuit>, nodes: seq<Frame>, k: nat) {
    forall h | k < h < |table| :: DoneAt(table, nodes, h)
  }

  /** The instances up to `k` hold exactly the exports of their children
      above `k`, and expose nothing yet. */
  predicate Awaiting(table: seq<Circuit>, nodes: seq<Frame>, first: seq<nat>, k: nat) {
    forall h | 1 <= h <= k && h < |table| :: AwaitingAt(table, nodes, first, k, h)
  }

  /** Instance `h` holds exactly the exports of its children above `k`, and
      exposes nothing yet. */
  predicate AwaitingAt(table: seq<Circuit>, nodes: seq<Frame>, first: seq<nat>, k: nat, h: nat) {
    && h < |table| && h < |nodes| && h < |first|
    && table[h].names.Keys
       == ChildExports(nodes[h].schematic.subCircuits[Below(first[h], |nodes[h].schematic.subCircuits|, k + 1)..])
    && table[h].exposedPorts == map[]
  }

  /** What the populating pass keeps, with `k` the next handle to populate. */
  predicate Populating(table: seq<Circuit>, nodes: seq<Frame>, first: seq<nat>, s: SchematicData, k: nat) {
    && Tree(|table|, nodes, first, s)
    && Linked(table, nodes, first)
    && k < |table|
    && AllInBounds(table)
    && DoneAbove(table, nodes, k)
    && Awaiting(table, nodes, first, k)
  }

  /** The pass hands the second phase a tree with nothing populated. */
  lemma PopulatingStart(table: seq<Circuit>, nodes: seq<Frame>, first: seq<nat>, s: SchematicData)
    requires Tree(|table|, nodes, first, s) && Linked(table, nodes, first) && Unpopulated(table)
    ensures Populating(table, nodes, first, s, |table| - 1)
  {
    var k := |table| - 1;
    forall h | 1 <= h <= k
      ensures AwaitingAt(table, nodes, first, k, h)
    {
      var subs := nodes[h].schematic.subCircuits;
      assert subs[Below(first[h], |subs|, k + 1)..] == [];
      assert table[h].names == map[] && table[h].exposedPorts == map[];
    }
    forall h | 0 <= h < |table|
      ensures FieldsInBounds(table[h])
    {
      assert table[h].names == map[];
    }
  }

  /** Populating `k` leaves the instances after it untouched and makes `k`
      itself populated. */
  lemma DoneStep(table: seq<Circuit>, t: seq<Circuit>, nodes: seq<Frame>, k: nat, p: nat)
    requires |nodes| == |table| == |t| && p < k < |table|
    requires DoneAbove(table, nodes, k)
    requires forall h | 0 <= h < |table| && h != k && h != p :: t[h] == table[h]
    requires Holds(t[k], nodes[k].schematic) && LocalResolves(nodes[k].schematic)
    ensures DoneAbove(t, nodes, k - 1)
  {
    forall h | k - 1 < h < |t|
      ensures DoneAt(t, nodes, h)
    {
      if h > k {
        assert DoneAt(table, nodes, h);
      }
    }
  }

  /** Populating `k` adds its exports to its parent, the one instance whose
      populated children now start one slot earlier. */
  lemma {:induction false} AwaitingStep(table: seq<Circuit>, t: seq<Circuit>, nodes: seq<Frame>, first: seq<nat>,
                                        s: SchematicData, k: nat)
    requires Tree(|table|, nodes, first, s) && |t| == |table| && 1 <= k < |table|
    requires Awaiting(table, nodes, first, k)
    requires var p := nodes[k].parent;
             && (forall h | 0 <= h < |table| && h != k && h != p :: t[h] == table[h])
             && t[p].exposedPorts == table[p].exposedPorts
             && t[p].names.Keys == table[p].names.Keys + ExportKeys(nodes[k].name, nodes[k].schematic.exposedPorts)
    ensures Awaiting(t, nodes, first, k - 1)
  {
    var p, k' := nodes[k].parent, k - 1;
    forall h | 1 <= h <= k' && h < |t|
      ensures AwaitingAt(t, nodes, first, k', h)
    {
      assert AwaitingAt(table, nodes, first, k, h);
      var subs := nodes[h].schematic.subCircuits;
      if h == p {
        assert ChildOf(nodes, first, k);
        var i0 := k - first[p];
        assert ChildAt(nodes, first, p, i0);
        assert Below(first[p], |subs|, k + 1) == i0 + 1 && Below(first[p], |subs|, k) == i0;
        assert subs[i0..][1..] == subs[i0 + 1..];
      } else {
        assert first[h] <= k < first[h] + |subs| ==> ChildAt(nodes, first, h, k - first[h]);
        assert Below(first[h], |subs|, k + 1) == Below(first[h], |subs|, k);
      }
    }
  }

  /** The child links survive populating. */
  lemma LinksKept(table: seq<Circuit>, t: seq<Circuit>, nodes: seq<Frame>, first: seq<nat>)
    requires |nodes| == |table| == |t| == |first| && Linked(table, nodes, first)
    requires forall h | 0 <= h < |table| :: t[h].subCircuits == table[h].subCircuits
    ensures Linked(t, nodes, first)
  {
    forall h | 1 <= h < |t|
      ensures LinkedAt(t, nodes, first, h)
    {
      assert LinkedAt(table, nodes, first, h);
    }
  }

  /** The next instance to populate holds the exports of all its children. */
  lemma NextHoldsChildExports(table: seq<Circuit>, nodes: seq<Frame>, first: seq<nat>, s: SchematicData, k: nat)
    requires Populating(table, nodes, first, s, k) && k >= 1
    ensures table[k].names.Keys + LocalKeys(nodes[k].schematic) == Keys(nodes[k].schematic)
    ensures table[k].exposedPorts == map[]
  {
    assert AwaitingAt(table, nodes, first, k, k);
    assert nodes[k].schematic.subCircuits[Below(first[k], |nodes[k].schematic.subCircuits|, k + 1)..]
           == nodes[k].schematic.subCircuits;
  }

  /** Populating instance `k` moves the boundary down by one. */
  lemma PopulatingStep(table: seq<Circuit>, t: seq<Circuit>, nodes: seq<Frame>, first: seq<nat>,
                       s: SchematicData, k: nat)
    requires Populating(table, nodes, first, s, k) && k >= 1
    requires Generated(table, t, nodes[k].schematic, k, nodes[k].parent, nodes[k].name)
    requires BridgesFit(nodes[k].schematic.wireBridges)
    requires Resolved(table[k].names.Keys + LocalKeys(nodes[k].schematic), nodes[k].schematic)
    ensures Populating(t, nodes, first, s, k - 1)
  {
    var p := nodes[k].parent;
    NextHoldsChildExports(table, nodes, first, s, k);
    assert Holds(t[k], nodes[k].schematic);
    DoneStep(table, t, nodes, k, p);
    AwaitingStep(table, t, nodes, first, s, k);
    LinksKept(table, t, nodes, first);
  }

  /** Once every instance is populated, each is an instance of its schematic. */
  lemma {:induction false} PopulatedInstance(table: seq<Circuit>, nodes: seq<Frame>, first: seq<nat>, s: SchematicData,
                                             l: M.Layout, h: nat)
    requires Tree(|table|, nodes, first, s) && Linked(table, nodes, first) && DoneAbove(table, nodes, 0)
    requires WiredAbove(table, nodes, 0, l)
    requires 1 <= h < |table|
    ensures Instance(table, h, nodes[h].schematic, l)
    decreases |table| - h
  {
    var subs := nodes[h].schematic.subCircuits;
    assert LinkedAt(table, nodes, first, h) && DoneAt(table, nodes, h) && WiredAt(table, nodes, h, l);
    forall i | 0 <= i < |subs|
      ensures Instance(table, table[h].subCircuits[i], subs[i].schematic, l)
    {
      assert ChildAt(nodes, first, h, i);
      assert table[h].subCircuits[i] == first[h] + i;
      assert nodes[first[h] + i].schematic == subs[i].schematic;
      PopulatedInstance(table, nodes, first, s, l, first[h] + i);
    }
  }

  /** Once every instance is populated, every schematic in the tree is
      buildable. */
  lemma {:induction false} PopulatedResolves(table: seq<Circuit>, nodes: seq<Frame>, first: seq<nat>, s: SchematicData, h: nat)
    requires Tree(|table|, nodes, first, s) && DoneAbove(table, nodes, 0)
    requires 1 <= h < |table|
    ensures Resolves(nodes[h].schematic)
    decreases |table| - h
  {
    var subs := nodes[h].schematic.subCircuits;
    forall i | 0 <= i < |subs|
      ensures Resolves(subs[i].schematic)
    {
      assert ChildAt(nodes, first, h, i);
      assert nodes[first[h] + i].schematic == subs[i].schematic;
      PopulatedResolves(table, nodes, first, s, first[h] + i);
    }
    assert DoneAt(table, nodes, h);
  }

  /** The facts about the next frame to populate that `lateGenerate` needs. */
  lemma NextFrame(table: seq<Circuit>, nodes: seq<Frame>, first: seq<nat>, s: SchematicData, k: nat)
    requires Populating(table, nodes, first, s, k) && k >= 1
    ensures nodes[k].circuit == k && nodes[k].parent < k
  {
  }

  /** Every created instance is of a schematic within the root's. */
  lemma {:induction false} NodeWithin(n: nat, nodes: seq<Frame>, first: seq<nat>, s: SchematicData, k: nat)
    requires Tree(n, nodes, first, s) && 1 <= k < n
    ensures Within(nodes[k].schematic, s)
    decreases k
  {
    if k >= 2 {
      assert ChildOf(nodes, first, k);
      var p := nodes[k].parent;
      assert ChildAt(nodes, first, p, k - first[p]);
      NodeWithin(n, nodes, first, s, p);
      WithinChild(nodes[p].schematic, s, k - first[p]);
    }
  }

  /** One pop of `build`'s stack: populates the instance of frame `k`. */
  method PopulateNext(mgr: M.Managers, table: seq<Circuit>, top: Frame, ghost nodes: seq<Frame>,
                      ghost first: seq<nat>, s: SchematicData, ghost k: nat, ghost l0: M.Layout)
    returns (r: Result<seq<Circuit>>, ghost lent: map<string, Accessor>)
    requires mgr.Valid()
    requires Populating(table, nodes, first, s, k) && k >= 1 && top == nodes[k]
    requires WiredAbove(table, nodes, k, mgr.Current()) && M.Grows(l0, mgr.Current())
    modifies mgr.andGate.bank, mgr.notGate.bank, mgr.orGate.bank, mgr.xorGate.bank, mgr.arena,
             mgr.randomAccessDataBank, mgr.socketController
    ensures mgr.Valid()
    ensures M.Grows(l0, mgr.Current())
    ensures r.Ok? ==> Populating(r.value, nodes, first, s, k - 1)
    ensures r.Ok? ==> WiredAbove(r.value, nodes, k - 1, mgr.Current())
    ensures r.Err? ==> r.error == OutOfBounds || r.error == PortNotFound || r.error == SocketSizeMismatch
    ensures r.Err? && Resolves(s) ==> r.error == SocketSizeMismatch
    ensures r.Ok? <==> Generates(lent, top.schematic)
    ensures r.Ok? ==> r.value[k].names == lent
    ensures r.Err? ==> Failed(r.error, lent, top.schematic, mgr.Current())
  {
    NextFrame(table, nodes, first, s, k);
    NextHoldsChildExports(table, nodes, first, s, k);
    r, lent := LateGenerate(mgr, top.schematic, table, top.circuit, top.parent, top.name);
    M.GrowsTransitive(l0, old(mgr.Current()), mgr.Current());
    if r.Err? {
      FailedFrom(r.error, lent, table[k].names, top.schematic, old(mgr.Current()), mgr.Current());
      if Resolves(s) {
        ResolvesBelow(|table|, nodes, first, s, k);
      }
    } else {
      PopulatingStep(table, r.value, nodes, first, s, k);
      WiredStep(table, r.value, nodes, k, top.parent, old(mgr.Current()), mgr.Current());
    }
  }

  /** The second phase of `build`: pops the frames, last created first, and
      populates each instance. */
  method PopulateAll(mgr: M.Managers, table: seq<Circuit>, stack: seq<Frame>, ghost nodes: seq<Frame>,
                     ghost first: seq<nat>, s: SchematicData)
    returns (r: Result<seq<Circuit>>, ghost at: nat, ghost lent: map<string, Accessor>)
    requires mgr.Valid()
    requires Populating(table, nodes, first, s, |stack|)
    requires |stack| < |table| && stack == nodes[1..|stack| + 1]
    requires WiredAbove(table, nodes, |stack|, mgr.Current())
    modifies mgr.andGate.bank, mgr.notGate.bank, mgr.orGate.bank, mgr.xorGate.bank, mgr.arena,
             mgr.randomAccessDataBank, mgr.socketController
    ensures mgr.Valid()
    ensures M.Grows(old(mgr.Current()), mgr.Current())
    ensures r.Ok? ==> Populating(r.value, nodes, first, s, 0)
    ensures r.Ok? ==> WiredAbove(r.value, nodes, 0, mgr.Current())
    ensures r.Err? ==> r.error == OutOfBounds || r.error == PortNotFound || r.error == SocketSizeMismatch
    ensures r.Err? && Resolves(s) ==> r.error == SocketSizeMismatch
    ensures r.Err? ==> 1 <= at <= |stack| && Failed(r.error, lent, nodes[at].schematic, mgr.Current())
  {
    at, lent := 0, map[];
    var t, rest := table, stack;
    ghost var l0 := mgr.Current();
    while rest != []
      invariant Populating(t, nodes, first, s, |rest|)
      invariant |rest| < |t| && rest == nodes[1..|rest| + 1] && |rest| <= |stack|
      invariant mgr.Valid()
      invariant M.Grows(l0, mgr.Current())
      invariant WiredAbove(t, nodes, |rest|, mgr.Current())
    {
      var k := |rest|;
      var top := rest[k - 1];
      rest := rest[..k - 1];
      var g;
      g, lent := PopulateNext(mgr, t, top, nodes, first, s, k, l0);
      if g.Err? {
        r, at := g, k;
        return;
      }
      t := g.value;
    }
    r := Ok(t);
  }

  /** `build`: returns the instance table, root at handle 1. On success the
      schematic is buildable and the table is an instance of it. A failure
      names the schematic `failed` within `s` whose instance failed and
      `lent`, that instance's names after lending: an unfit bridge or an
      unknown port there makes `failed` fail its own checks, and a size
      mismatch is a connection of `failed` whose ends `lent` gives
      different widths. What was lent or registered before a failure
      stays. */
  method Build(mgr: M.Managers, s: SchematicData)
    returns (r: Result<seq<Circuit>>, ghost failed: SchematicData, ghost lent: map<string, Accessor>)
    requires mgr.Valid()
    modifies mgr.andGate.bank, mgr.notGate.bank, mgr.orGate.bank, mgr.xorGate.bank, mgr.arena,
             mgr.randomAccessDataBank, mgr.socketController
    ensures mgr.Valid()
    ensures M.Grows(old(mgr.Current()), mgr.Current())
    ensures r.Ok? ==> Resolves(s) && Instance(r.value, 1, s, mgr.Current()) && AllInBounds(r.value)
    ensures r.Err? ==> r.error == OutOfBounds || r.error == PortNotFound || r.error == SocketSizeMismatch
    ensures r.Err? && Resolves(s) ==> r.error == SocketSizeMismatch
    ensures r.Err? ==> Within(failed, s) && Failed(r.error, lent, failed, mgr.Current())
  {
    var table, stack, first := Spawn(s);
    ghost var nodes := [Frame(s, "", 0, 0)] + stack;
    PopulatingStart(table, nodes, first, s);
    WiredStart(table, nodes, mgr.Current());
    ghost var at;
    r, at, lent := PopulateAll(mgr, table, stack, nodes, first, s);
    failed := if r.Err? then nodes[at].schematic else s;
    if r.Err? {
      NodeWithin(|table|, nodes, first, s, at);
    }
    if r.Ok? {
      PopulatedInstance(r.value, nodes, first, s, mgr.Current(), 1);
      PopulatedResolves(r.value, nodes, first, s, 1);
    }
  }
}

=== FILE: managers.dfy ===
/** The managers: the shared bank for wire bridges, one pool per gate kind and
    the socket controller, all over one arena of cells, ticked in a fixed
    order. */
module Managers {
  import opened Storage
  import opened DataBank
  import opened Sockets
  import opened Gates
  import WireBridge

  /** What one tick works on: every pool's blocks and the sockets. */
  datatype Net = Net(
    andBlocks: seq<seq<CellRef>>,
    notBlocks: seq<seq<CellRef>>,
    orBlocks: seq<seq<CellRef>>,
    xorBlocks: seq<seq<CellRef>>,
    sockets: seq<Socket>)

  predicate Shaped(blocks: seq<seq<CellRef>>, kind: GateKind) {
    forall k | 0 <= k < |blocks| :: |blocks[k]| == Arity(kind)
  }

  predicate NetOk(net: Net) {
    && Shaped(net.andBlocks, AndGate) && Shaped(net.notBlocks, NotGate)
    && Shaped(net.orBlocks, OrGate) && Shaped(net.xorBlocks, XorGate)
    && AllWellFormed(net.sockets)
  }

  predicate AllBlocksLive(cells: Cells, blocks: seq<seq<CellRef>>) {
    forall k | 0 <= k < |blocks| :: RefsLive(cells, blocks[k])
  }

  /** Every cell the net touches exists. */
  predicate NetLive(cells: Cells, net: Net) {
    && AllBlocksLive(cells, net.andBlocks) && AllBlocksLive(cells, net.notBlocks)
    && AllBlocksLive(cells, net.orBlocks) && AllBlocksLive(cells, net.xorBlocks)
    && AllLive(cells, net.sockets)
  }

  lemma BlocksLiveDependsOnKeys(c1: Cells, c2: Cells, blocks: seq<seq<CellRef>>)
    requires c1.Keys == c2.Keys
    ensures AllBlocksLive(c1, blocks) <==> AllBlocksLive(c2, blocks)
  {
    assert forall k | 0 <= k < |blocks| :: RefsLive(c1, blocks[k]) == RefsLive(c2, blocks[k]);
  }

  lemma NetLiveDependsOnKeys(c1: Cells, c2: Cells, net: Net)
    requires c1.Keys == c2.Keys
    ensures NetLive(c1, net) <==> NetLive(c2, net)
  {
    LiveDependsOnKeys(c1, c2, net.sockets);
    BlocksLiveDependsOnKeys(c1, c2, net.andBlocks);
    BlocksLiveDependsOnKeys(c1, c2, net.notBlocks);
    BlocksLiveDependsOnKeys(c1, c2, net.orBlocks);
    BlocksLiveDependsOnKeys(c1, c2, net.xorBlocks);
  }

  /** `Managers::tick`: the AND, NOT, OR and XOR pools, then the sockets; the
      first failure ends the tick with the earlier updates kept. */
  function NetTick(cells: Cells, net: Net): (r: Run)
    requires NetOk(net)
    ensures r.cells.Keys == cells.Keys
    ensures r.outcome.Pass? <==> NetLive(cells, net)
    ensures r.outcome.Fail? ==> r.outcome.error == DanglingReference
  {
    var a := PoolRun(cells, AndGate, net.andBlocks);
    if a.outcome.Fail? then a
    else
      var n := PoolRun(a.cells, NotGate, net.notBlocks);
      BlocksLiveDependsOnKeys(cells, a.cells, net.notBlocks);
      if n.outcome.Fail? then n
      else
        var o := PoolRun(n.cells, OrGate, net.orBlocks);
        BlocksLiveDependsOnKeys(cells, n.cells, net.orBlocks);
        if o.outcome.Fail? then o
        else
          var x := PoolRun(o.cells, XorGate, net.xorBlocks);
          BlocksLiveDependsOnKeys(cells, o.cells, net.xorBlocks);
          if x.outcome.Fail? then x
          else
            LiveDependsOnKeys(cells, x.cells, net.sockets);
            RunAll(x.cells, net.sockets)
  }

  /** `t` consecutive ticks; a failing tick ends the sequence. */
  function NetTicks(cells: Cells, net: Net, t: nat): (r: Run)
    requires NetOk(net)
    ensures r.cells.Keys == cells.Keys
    decreases t
  {
    if t == 0 then Run(cells, Pass)
    else
      var first := NetTick(cells, net);
      if first.outcome.Fail? then first
      else NetTicks(first.cells, net, t - 1)
  }

  /** Ticking never removes a cell, so a run of ticks passes exactly when
      the first tick does. */
  lemma {:induction false} NetTicksPass(cells: Cells, net: Net, t: nat)
    requires NetOk(net)
    ensures NetTicks(cells, net, t).outcome.Pass? <==> t == 0 || NetLive(cells, net)
    decreases t
  {
    if t > 0 {
      var first := NetTick(cells, net);
      if first.outcome.Pass? {
        NetLiveDependsOnKeys(cells, first.cells, net);
        NetTicksPass(first.cells, net, t - 1);
      }
    }
  }

  /** Everything the managers have lent, as a value: the net a tick runs,
      the blocks of the random-access bank, one bridge cell each, and every
      field each gate pool has lent, in lending order. */
  datatype Layout = Layout(
    net: Net,
    bridgeBlocks: seq<seq<CellRef>>,
    andLent: seq<Accessor>,
    notLent: seq<Accessor>,
    orLent: seq<Accessor>,
    xorLent: seq<Accessor>)

  /** The blocks of the pool of `kind`. */
  function Blocks(net: Net, kind: GateKind): seq<seq<CellRef>> {
    match kind
    case AndGate => net.andBlocks
    case NotGate => net.notBlocks
    case OrGate => net.orBlocks
    case XorGate => net.xorBlocks
  }

  /** The fields the pool of `kind` has lent. */
  function Lent(l: Layout, kind: GateKind): seq<Accessor> {
    match kind
    case AndGate => l.andLent
    case NotGate => l.notLent
    case OrGate => l.orLent
    case XorGate => l.xorLent
  }

  /** Every cell of a list of blocks. */
  function CellsOf(blocks: seq<seq<CellRef>>): set<CellRef> {
    set k, i | 0 <= k < |blocks| && 0 <= i < |blocks[k]| :: blocks[k][i]
  }

  /** Every cell the layout lists: the cells of every gate block and every
      bridge cell. */
  function LayoutCells(l: Layout): set<CellRef> {
    CellsOf(l.net.andBlocks) + CellsOf(l.net.notBlocks) + CellsOf(l.net.orBlocks)
      + CellsOf(l.net.xorBlocks) + CellsOf(l.bridgeBlocks)
  }

  /** `l2` still holds everything `l1` lent, where it was: every block list,
      the socket list and every pool's loans only grew at their ends. */
  predicate Grows(l1: Layout, l2: Layout) {
    && l1.net.andBlocks <= l2.net.andBlocks && l1.net.notBlocks <= l2.net.notBlocks
    && l1.net.orBlocks <= l2.net.orBlocks && l1.net.xorBlocks <= l2.net.xorBlocks
    && l1.net.sockets <= l2.net.sockets && l1.bridgeBlocks <= l2.bridgeBlocks
    && l1.andLent <= l2.andLent && l1.notLent <= l2.notLent
    && l1.orLent <= l2.orLent && l1.xorLent <= l2.xorLent
  }

  /** A field lent before is still lent. */
  lemma GrowsKeepsLent(l1: Layout, l2: Layout, kind: GateKind, f: Accessor)
    requires Grows(l1, l2) && f in Lent(l1, kind)
    ensures f in Lent(l2, kind)
  {
    var x :| 0 <= x < |Lent(l1, kind)| && Lent(l1, kind)[x] == f;
    assert Lent(l2, kind)[x] == f;
  }

  lemma CellsOfGrow(b1: seq<seq<CellRef>>, b2: seq<seq<CellRef>>)
    requires b1 <= b2
    ensures CellsOf(b1) <= CellsOf(b2)
  {
    forall c | c in CellsOf(b1) ensures c in CellsOf(b2) {
      var k, i :| 0 <= k < |b1| && 0 <= i < |b1[k]| && b1[k][i] == c;
      assert b2[k][i] == c;
    }
  }

  /** A cell listed before is still listed. */
  lemma GrowsKeepsCells(l1: Layout, l2: Layout)
    requires Grows(l1, l2)
    ensures LayoutCells(l1) <= LayoutCells(l2)
  {
    CellsOfGrow(l1.net.andBlocks, l2.net.andBlocks);
    CellsOfGrow(l1.net.notBlocks, l2.net.notBlocks);
    CellsOfGrow(l1.net.orBlocks, l2.net.orBlocks);
    CellsOfGrow(l1.net.xorBlocks, l2.net.xorBlocks);
    CellsOfGrow(l1.bridgeBlocks, l2.bridgeBlocks);
  }

  /** `l` with the blocks and the loans of the pool of `kind` replaced. */
  function WithPool(l: Layout, kind: GateKind, blocks: seq<seq<CellRef>>, lent: seq<Accessor>): Layout {
    match kind
    case AndGate => l.(net := l.net.(andBlocks := blocks), andLent := lent)
    case NotGate => l.(net := l.net.(notBlocks := blocks), notLent := lent)
    case OrGate => l.(net := l.net.(orBlocks := blocks), orLent := lent)
    case XorGate => l.(net := l.net.(xorBlocks := blocks), xorLent := lent)
  }

  /** Replacing one pool's blocks and loans leaves every other pool, the
      bridges and the sockets as they were; replacing them by longer ones is
      growing. */
  lemma WithPoolOnly(l: Layout, kind: GateKind, blocks: seq<seq<CellRef>>, lent: seq<Accessor>)
    ensures var r := WithPool(l, kind, blocks, lent);
      && Blocks(r.net, kind) == blocks && Lent(r, kind) == lent
      && r.bridgeBlocks == l.bridgeBlocks && r.net.sockets == l.net.sockets
      && forall other: GateKind | other != kind ::
           Blocks(r.net, other) == Blocks(l.net, other) && Lent(r, other) == Lent(l, other)
    ensures Blocks(l.net, kind) <= blocks && Lent(l, kind) <= lent ==> Grows(l, WithPool(l, kind, blocks, lent))
  {
  }

  /** `l2` is `l1` after the pool of `kind` lent one gate, whose terminals
      lie in block k of that pool: the layout grew, the pool's loans gained
      exactly the terminals, none of which shares a bit with a field the pool
      lent before, and every other pool is as it was. */
  predicate GateLent(l1: Layout, l2: Layout, kind: GateKind, terminals: seq<Accessor>, k: nat) {
    && Grows(l1, l2)
    && k < |Blocks(l2.net, kind)| && GateTerminals(terminals, kind, Blocks(l2.net, kind)[k])
    && Lent(l2, kind) == Lent(l1, kind) + terminals
    && (forall i, f | 0 <= i < |terminals| && f in Lent(l1, kind) :: Disjoint(terminals[i], f))
    && l2.bridgeBlocks == l1.bridgeBlocks && l2.net.sockets == l1.net.sockets
    && forall other: GateKind | other != kind ::
         Blocks(l2.net, other) == Blocks(l1.net, other) && Lent(l2, other) == Lent(l1, other)
  }

  /** A pool that lent `terminals` from block k, appending them to its loans,
      turns the layout into one `GateLent` relates to it. */
  lemma WithPoolLent(l: Layout, kind: GateKind, blocks: seq<seq<CellRef>>, lent: seq<Accessor>,
                     terminals: seq<Accessor>, k: nat)
    requires Blocks(l.net, kind) <= blocks && k < |blocks| && GateTerminals(terminals, kind, blocks[k])
    requires lent == Lent(l, kind) + terminals
    requires forall i, f | 0 <= i < |terminals| && f in Lent(l, kind) :: Disjoint(terminals[i], f)
    ensures GateLent(l, WithPool(l, kind, blocks, lent), kind, terminals, k)
  {
    WithPoolOnly(l, kind, blocks, lent);
  }

  /** A block lent before is still there, at the same index. */
  lemma GrowsKeepsBlock(l1: Layout, l2: Layout, kind: GateKind, k: nat)
    requires Grows(l1, l2) && k < |Blocks(l1.net, kind)|
    ensures k < |Blocks(l2.net, kind)| && Blocks(l2.net, kind)[k] == Blocks(l1.net, kind)[k]
  {
  }

  /** Lending is cumulative: growing twice is growing. */
  lemma GrowsTransitive(l1: Layout, l2: Layout, l3: Layout)
    requires Grows(l1, l2) && Grows(l2, l3)
    ensures Grows(l1, l3)
  {
  }

  /** Registering sockets is growing. */
  lemma SocketsGrow(l: Layout, sockets: seq<Socket>)
    requires l.net.sockets <= sockets
    ensures Grows(l, l.(net := l.net.(sockets := sockets)))
  {
  }

  /** Every cell of a valid bank's blocks was handed out below `bound`. */
  lemma BankCellsBelow(b: DataBank, bound: nat)
    requires b.ValidWith(bound)
    ensures forall c | c in CellsOf(b.GetStorage()) :: c.CellAt? && c.index < bound
  {
    var blocks := b.GetStorage();
    forall c | c in CellsOf(blocks) ensures c.CellAt? && c.index < bound {
      var k, i :| 0 <= k < |blocks| && 0 <= i < |blocks[k]| && blocks[k][i] == c;
      assert BlockOk(b.storage[k], b.lanes, bound);
    }
  }

  /** Lending appends the new fields to the bank's loans, and a field the
      bank lent before shares no bit with them. */
  lemma LentApart(before: seq<Loan>, after: seq<Loan>, k: nat, terminals: seq<Accessor>)
    requires after == before + LoansOf(k, terminals)
    requires forall x, y | 0 <= x < |after| && 0 <= y < |after| && x != y :: Disjoint(after[x].field, after[y].field)
    ensures LoanFields(after) == LoanFields(before) + terminals
    ensures forall i, f | 0 <= i < |terminals| && f in LoanFields(before) :: Disjoint(terminals[i], f)
  {
    var n := |before|;
    assert LoanFields(after) == LoanFields(before) + terminals;
    forall i, f | 0 <= i < |terminals| && f in LoanFields(before)
      ensures Disjoint(terminals[i], f)
    {
      var x :| 0 <= x < n && LoanFields(before)[x] == f;
      assert after[n + i].field == terminals[i] && after[x].field == f;
    }
  }

  class Managers {
    /** Where every cell of the simulation lives. */
    const arena: Arena
    /** The single-lane bank wire bridges take their cells from. */
    const randomAccessDataBank: DataBank
    const andGate: GatePool
    const notGate: GatePool
    const orGate: GatePool
    const xorGate: GatePool
    const socketController: SocketController

    ghost predicate Valid()
      reads this, arena, randomAccessDataBank, andGate, notGate, orGate, xorGate,
            andGate.bank, notGate.bank, orGate.bank, xorGate.bank, socketController
    {
      && arena.Valid()
      && randomAccessDataBank.arena == arena && randomAccessDataBank.lanes == 1 && randomAccessDataBank.Valid()
      && andGate.bank.arena == arena && andGate.kind == AndGate && andGate.Valid()
      && notGate.bank.arena == arena && notGate.kind == NotGate && notGate.Valid()
      && orGate.bank.arena == arena && orGate.kind == OrGate && orGate.Valid()
      && xorGate.bank.arena == arena && xorGate.kind == XorGate && xorGate.Valid()
      && socketController.arena == arena && socketController.Valid()
      && Distinct()
    }

    /** The five banks are five objects. */
    predicate Distinct()
      reads this
    {
      var r, a, n, o, x := randomAccessDataBank, andGate.bank, notGate.bank, orGate.bank, xorGate.bank;
      && r != a && r != n && r != o && r != x
      && a != n && a != o && a != x
      && n != o && n != x
      && o != x
    }

    /** The blocks of every pool and the sockets, as a tick sees them. */
    function Snapshot(): (net: Net)
      requires andGate.bank.Shaped() && notGate.bank.Shaped() && orGate.bank.Shaped() && xorGate.bank.Shaped()
      reads this, andGate.bank, notGate.bank, orGate.bank, xorGate.bank, socketController
      ensures net.sockets == socketController.sockets
    {
      Net(andGate.bank.GetStorage(), notGate.bank.GetStorage(), orGate.bank.GetStorage(),
          xorGate.bank.GetStorage(), socketController.sockets)
    }

    /** What the managers have lent so far. */
    ghost function Current(): (l: Layout)
      requires Valid()
      reads this, arena, randomAccessDataBank, andGate, notGate, orGate, xorGate,
            andGate.bank, notGate.bank, orGate.bank, xorGate.bank, socketController
      ensures l.net.sockets == socketController.sockets
    {
      Layout(Snapshot(), randomAccessDataBank.GetStorage(),
             LoanFields(andGate.bank.loans), LoanFields(notGate.bank.loans),
             LoanFields(orGate.bank.loans), LoanFields(xorGate.bank.loans))
    }

    constructor ()
      ensures Valid() && fresh(arena) && arena.cells == map[] && arena.next == 0
      ensures randomAccessDataBank.storage == [] && socketController.sockets == []
      ensures andGate.bank.storage == [] && notGate.bank.storage == []
      ensures orGate.bank.storage == [] && xorGate.bank.storage == []
    {
      var a := new Arena();
      var r := new DataBank(1, a);
      var p1 := new GatePool(AndGate, a);
      var p2 := new GatePool(NotGate, a);
      var p3 := new GatePool(OrGate, a);
      var p4 := new GatePool(XorGate, a);
      var sc := new SocketController(a);
      arena, randomAccessDataBank, socketController := a, r, sc;
      andGate, notGate, orGate, xorGate := p1, p2, p3, p4;
    }

    /** `tick`: AND, NOT, OR and XOR pools, then the socket controller. */
    method Tick() returns (o: Outcome)
      requires Valid()
      modifies arena
      ensures Valid() && arena.next == old(arena.next)
      ensures Run(arena.cells, o) == NetTick(old(arena.cells), Snapshot())
    {
      ghost var net := Snapshot();
      ghost var c0 := arena.cells;
      o := andGate.Tick();
      if o.Fail? { return; }
      ghost var c1 := arena.cells;
      assert notGate.Valid() && orGate.Valid() && xorGate.Valid() && randomAccessDataBank.Valid();
      o := notGate.Tick();
      if o.Fail? { return; }
      ghost var c2 := arena.cells;
      assert orGate.Valid() && xorGate.Valid() && andGate.Valid() && randomAccessDataBank.Valid();
      o := orGate.Tick();
      if o.Fail? { return; }
      assert xorGate.Valid() && andGate.Valid() && notGate.Valid() && randomAccessDataBank.Valid();
      o := xorGate.Tick();
      if o.Fail? { return; }
      assert andGate.Valid() && notGate.Valid() && orGate.Valid() && randomAccessDataBank.Valid();
      o := socketController.Tick();
    }

    /** `<kind>Gate->lendGate()` on the matching pool: a gate in block k of
        that pool, every other pool, the bridges and the sockets unchanged. */
    method LendGate(kind: GateKind) returns (terminals: seq<Accessor>, ghost k: nat)
      requires Valid()
      modifies andGate.bank, notGate.bank, orGate.bank, xorGate.bank, arena
      ensures Valid()
      ensures GateLent(old(Current()), Current(), kind, terminals, k)
      ensures socketController.sockets == old(socketController.sockets)
    {
      ghost var before := Current();
      var pool := match kind
        case AndGate => andGate
        case NotGate => notGate
        case OrGate => orGate
        case XorGate => xorGate;
      terminals, k := LendFrom(pool);
      LentApart(old(pool.bank.loans), pool.bank.loans, k, terminals);
      ghost var blocks, lent := pool.bank.GetStorage(), LoanFields(pool.bank.loans);
      assert Current() == WithPool(before, kind, blocks, lent);
      WithPoolLent(before, kind, blocks, lent, terminals, k);
    }

    /** `lendGate` on one of the four pools, every other bank valid still. */
    method LendFrom(pool: GatePool) returns (terminals: seq<Accessor>, ghost k: nat)
      requires Valid() && (pool == andGate || pool == notGate || pool == orGate || pool == xorGate)
      modifies pool.bank, arena
      ensures Valid()
      ensures k < |pool.bank.storage| && GateTerminals(terminals, pool.kind, pool.bank.GetStorage()[k])
      ensures pool.bank.loans == old(pool.bank.loans) + LoansOf(k, terminals)
      ensures old(pool.bank.GetStorage()) <= pool.bank.GetStorage()
    {
      ghost var bound := arena.next;
      terminals, k := pool.LendGate();
      forall b | b in {randomAccessDataBank, andGate.bank, notGate.bank, orGate.bank, xorGate.bank} && b != pool.bank
        ensures b.ValidWith(arena.next)
      {
        b.ValidLater(bound, arena.next);
      }
    }

    /** `wireBridge(*random_access_data_bank, ports)`: one new bridge cell,
        lent even when a port does not fit; every terminal sits in it at the
        running offset of its port. */
    method LendBridge(ports: seq<WireBridge.View>) returns (r: Result<seq<seq<Accessor>>>, ghost cell: CellRef)
      requires Valid()
      modifies randomAccessDataBank, arena
      ensures Valid()
      ensures Current() == old(Current()).(bridgeBlocks := old(Current().bridgeBlocks) + [[cell]])
      ensures cell !in LayoutCells(old(Current()))
      ensures r.Ok? <==> WireBridge.Fits(ports)
      ensures r.Err? ==> r.error == OutOfBounds
      ensures r.Ok? ==> |r.value| == |ports| && forall p | 0 <= p < |ports| ::
        |r.value[p]| == |ports[p]| && forall j | 0 <= j < |ports[p]| ::
          r.value[p][j] == WireBridge.Terminal(ports[p], j, cell) && r.value[p][j].InBounds()
      ensures socketController.sockets == old(socketController.sockets)
    {
      ghost var bridges := randomAccessDataBank.GetStorage();
      forall b | b in {randomAccessDataBank, andGate.bank, notGate.bank, orGate.bank, xorGate.bank}
        ensures forall c | c in CellsOf(b.GetStorage()) :: c.CellAt? && c.index < arena.next
      {
        BankCellsBelow(b, arena.next);
      }
      cell := CellAt(arena.next);
      r := WireBridge.Build(randomAccessDataBank, ports);
      assert andGate.Valid() && notGate.Valid() && orGate.Valid() && xorGate.Valid();
      assert randomAccessDataBank.storage == old(randomAccessDataBank.storage) + [FreshBlock(cell.index, 1, STORAGE_SIZE)];
      assert randomAccessDataBank.GetStorage() == bridges + [[cell]] by {
        var after := randomAccessDataBank.GetStorage();
        assert after[..|bridges|] == bridges;
        assert after[|bridges|] == [cell];
      }
      if r.Ok? {
        forall p | 0 <= p < |ports|
          ensures forall j | 0 <= j < |ports[p]| :: r.value[p][j].InBounds()
        {
          WireBridge.PortLayout(ports[p], cell);
        }
      }
    }
  }

  // ---------------------------------------------------------------------
  // A NAND gate from an AND gate, a NOT gate and a socket

  /** The net of a NAND gate: AND lanes x, y -> z and NOT lanes u -> w, gates
      at bit offsets p (AND) and q (NOT), and a socket from the AND output to
      the NOT input. */
  function NandNet(x: nat, y: nat, z: nat, u: nat, w: nat, p: nat, q: nat): Net {
    Net([[CellAt(x), CellAt(y), CellAt(z)]], [[CellAt(u), CellAt(w)]], [], [],
        [Socket(Accessor(p, 1, CellAt(z)), Accessor(q, 1, CellAt(u)))])
  }

  /** The NAND's cells: five distinct existing cells and in-range gates. */
  predicate NandCells(cells: Cells, x: nat, y: nat, z: nat, u: nat, w: nat, p: nat, q: nat) {
    && p < STORAGE_SIZE && q < STORAGE_SIZE
    && x in cells && y in cells && z in cells && u in cells && w in cells
    && x != y && x != z && x != u && x != w && y != z && y != u && y != w
    && z != u && z != w && u != w
  }

  /** The NAND net is well shaped once its gates sit at bits in range. */
  lemma NandNetOk(x: nat, y: nat, z: nat, u: nat, w: nat, p: nat, q: nat)
    requires p < STORAGE_SIZE && q < STORAGE_SIZE
    ensures NetOk(NandNet(x, y, z, u, w, p, q))
  {
    var net := NandNet(x, y, z, u, w, p, q);
    assert Shaped(net.andBlocks, AndGate) && Shaped(net.notBlocks, NotGate);
    assert WellFormed(net.sockets[0]);
  }

  /** The AND stage of the NAND tick writes `a AND b` to the AND output. */
  lemma NandAndStage(cells: Cells, x: nat, y: nat, z: nat, u: nat, w: nat, p: nat, q: nat)
    requires NandCells(cells, x, y, z, u, w, p, q)
    ensures PoolRun(cells, AndGate, NandNet(x, y, z, u, w, p, q).andBlocks)
         == Run(cells[z := Eval(AndGate, [cells[x], cells[y]])], Pass)
  {
    var refs := [CellAt(x), CellAt(y), CellAt(z)];
    SingleBlock(cells, AndGate, refs);
    assert RefsLive(cells, refs);
    assert Inputs(cells, refs) == [cells[x], cells[y]];
  }

  /** The NOT stage of the NAND tick writes the negated NOT input to the NOT
      output. */
  lemma NandNotStage(cells: Cells, x: nat, y: nat, z: nat, u: nat, w: nat, p: nat, q: nat)
    requires NandCells(cells, x, y, z, u, w, p, q)
    ensures PoolRun(cells, NotGate, NandNet(x, y, z, u, w, p, q).notBlocks)
         == Run(cells[w := Eval(NotGate, [cells[u]])], Pass)
  {
    var refs := [CellAt(u), CellAt(w)];
    SingleBlock(cells, NotGate, refs);
    assert RefsLive(cells, refs);
    assert Inputs(cells, refs) == [cells[u]];
  }

  /** The socket stage of the NAND tick copies bit p of the AND output to
      bit q of the NOT input and leaves every other cell alone. */
  lemma NandSocketStage(cells: Cells, x: nat, y: nat, z: nat, u: nat, w: nat, p: nat, q: nat)
    requires NandCells(cells, x, y, z, u, w, p, q)
    ensures var r := RunAll(cells, NandNet(x, y, z, u, w, p, q).sockets);
            && r.outcome.Pass?
            && r.cells[u][q] == cells[z][p]
            && r.cells[x] == cells[x] && r.cells[y] == cells[y]
            && r.cells[z] == cells[z] && r.cells[w] == cells[w]
  {
    var s := Socket(Accessor(p, 1, CellAt(z)), Accessor(q, 1, CellAt(u)));
    SingleSocket(cells, s);
    var r := Step(cells, s);
    var v := Read(cells, s.from).value;
    assert v[0] == cells[z][p];
    assert r.cells == WriteField(cells, s.to, v);
    assert Read(r.cells, s.to).value[0] == r.cells[u][q];
  }

  /** After one tick: the inputs are unchanged, the AND output and the NOT
      input hold `a AND b`, and the NOT output holds the negation of what the
      NOT input held before the tick. */
  lemma NandTick(cells: Cells, x: nat, y: nat, z: nat, u: nat, w: nat, p: nat, q: nat)
    requires NandCells(cells, x, y, z, u, w, p, q)
    ensures var r := NetTick(cells, NandNet(x, y, z, u, w, p, q));
            && r.outcome.Pass?
            && r.cells[x] == cells[x] && r.cells[y] == cells[y]
            && r.cells[z][p] == (cells[x][p] && cells[y][p])
            && r.cells[u][q] == (cells[x][p] && cells[y][p])
            && r.cells[w][q] == !cells[u][q]
  {
    var net := NandNet(x, y, z, u, w, p, q);
    NandAndStage(cells, x, y, z, u, w, p, q);
    var c1 := cells[z := Eval(AndGate, [cells[x], cells[y]])];
    assert NandCells(c1, x, y, z, u, w, p, q);
    NandNotStage(c1, x, y, z, u, w, p, q);
    var c2 := c1[w := Eval(NotGate, [c1[u]])];
    assert PoolRun(c2, OrGate, []) == Run(c2, Pass);
    assert PoolRun(c2, XorGate, []) == Run(c2, Pass);
    assert NandCells(c2, x, y, z, u, w, p, q);
    NandSocketStage(c2, x, y, z, u, w, p, q);
    NandNetOk(x, y, z, u, w, p, q);
    assert NetTick(cells, net) == RunAll(c2, net.sockets);
  }

  /** A passing first tick hands its cells to the remaining ticks. */
  lemma NetTicksUnfold(cells: Cells, net: Net, t: nat)
    requires NetOk(net) && t > 0 && NetTick(cells, net).outcome.Pass?
    ensures NetTicks(cells, net, t) == NetTicks(NetTick(cells, net).cells, net, t - 1)
  {
  }

  /** After at least one tick from `c0`: the inputs are as in `c0` and the
      NOT input holds their AND. */
  predicate AndFed(c0: Cells, c: Cells, x: nat, y: nat, z: nat, u: nat, w: nat, p: nat, q: nat)
    requires NandCells(c0, x, y, z, u, w, p, q)
  {
    && NandCells(c, x, y, z, u, w, p, q)
    && c[x] == c0[x] && c[y] == c0[y]
    && c[u][q] == (c0[x][p] && c0[y][p])
  }

  /** After at least two ticks from `c0`: also the NOT output holds the NAND. */
  predicate Settled(c0: Cells, c: Cells, x: nat, y: nat, z: nat, u: nat, w: nat, p: nat, q: nat)
    requires NandCells(c0, x, y, z, u, w, p, q)
  {
    AndFed(c0, c, x, y, z, u, w, p, q) && c[w][q] == !(c0[x][p] && c0[y][p])
  }

  /** The first tick feeds the AND into the NOT input. */
  lemma NandFirstTick(c: Cells, x: nat, y: nat, z: nat, u: nat, w: nat, p: nat, q: nat)
    requires NandCells(c, x, y, z, u, w, p, q)
    ensures NetTick(c, NandNet(x, y, z, u, w, p, q)).outcome.Pass?
    ensures AndFed(c, NetTick(c, NandNet(x, y, z, u, w, p, q)).cells, x, y, z, u, w, p, q)
  {
    NandTick(c, x, y, z, u, w, p, q);
  }

  /** Every later tick settles the NOT output and keeps the rest. */
  lemma NandLaterTick(c0: Cells, c: Cells, x: nat, y: nat, z: nat, u: nat, w: nat, p: nat, q: nat)
    requires NandCells(c0, x, y, z, u, w, p, q) && AndFed(c0, c, x, y, z, u, w, p, q)
    ensures NetTick(c, NandNet(x, y, z, u, w, p, q)).outcome.Pass?
    ensures Settled(c0, NetTick(c, NandNet(x, y, z, u, w, p, q)).cells, x, y, z, u, w, p, q)
  {
    NandTick(c, x, y, z, u, w, p, q);
  }

  /** `t` ticks after the first: all pass and leave the circuit settled. */
  lemma {:induction false} NandRuns(c0: Cells, c: Cells, x: nat, y: nat, z: nat, u: nat, w: nat, p: nat, q: nat, t: nat)
    requires NandCells(c0, x, y, z, u, w, p, q) && AndFed(c0, c, x, y, z, u, w, p, q) && t >= 1
    ensures NetTicks(c, NandNet(x, y, z, u, w, p, q), t).outcome.Pass?
    ensures Settled(c0, NetTicks(c, NandNet(x, y, z, u, w, p, q), t).cells, x, y, z, u, w, p, q)
    decreases t
  {
    var net := NandNet(x, y, z, u, w, p, q);
    NandLaterTick(c0, c, x, y, z, u, w, p, q);
    NetTicksUnfold(c, net, t);
    var c1 := NetTick(c, net).cells;
    if t > 1 {
      NandRuns(c0, c1, x, y, z, u, w, p, q, t - 1);
    } else {
      assert NetTicks(c1, net, 0) == Run(c1, Pass);
    }
  }

  /** From the second tick on, the NOT output holds NOT (a AND b) for the
      inputs a, b of the AND gate, which no tick changes. */
  lemma NandSettles(cells: Cells, x: nat, y: nat, z: nat, u: nat, w: nat, p: nat, q: nat, t: nat)
    requires NandCells(cells, x, y, z, u, w, p, q) && t >= 2
    ensures NetTicks(cells, NandNet(x, y, z, u, w, p, q), t).outcome.Pass?
    ensures NetTicks(cells, NandNet(x, y, z, u, w, p, q), t).cells[x] == cells[x]
    ensures NetTicks(cells, NandNet(x, y, z, u, w, p, q), t).cells[y] == cells[y]
    ensures NetTicks(cells, NandNet(x, y, z, u, w, p, q), t).cells[w][q] == !(cells[x][p] && cells[y][p])
  {
    var net := NandNet(x, y, z, u, w, p, q);
    NandFirstTick(cells, x, y, z, u, w, p, q);
    NetTicksUnfold(cells, net, t);
    NandRuns(cells, NetTick(cells, net).cells, x, y, z, u, w, p, q, t - 1);
  }
}

=== FILE: names.dfy ===
/** Port names are built by string concatenation; bridge fields carry their
    index in decimal (`std::to_string`). */
module Names {
  /** The decimal digit character for 0..9. */
  function Digit(d: nat): (c: char)
    requires d < 10
    ensures '0' <= c <= '9' && c as int - '0' as int == d
  {
    (d + '0' as int) as char
  }

  /** `std::to_string` on a non-negative index: the decimal digits, most
      significant first, without leading zeros. */
  function NatToString(n: nat): (s: string)
    ensures |s| >= 1
    ensures forall i | 0 <= i < |s| :: '0' <= s[i] <= '9'
    ensures n < 10 <==> |s| == 1
    decreases n
  {
    if n < 10 then [Digit(n)] else NatToString(n / 10) + [Digit(n % 10)]
  }

  /** Different indices print differently. */
  lemma {:induction false} NatToStringInjective(m: nat, n: nat)
    requires NatToString(m) == NatToString(n)
    ensures m == n
    decreases m
  {
    var s := NatToString(m);
    if m >= 10 {
      assert n >= 10;
      assert Digit(m % 10) == s[|s| - 1] == Digit(n % 10);
      assert NatToString(m / 10) == s[..|s| - 1] == NatToString(n / 10);
      NatToStringInjective(m / 10, n / 10);
    }
  }

  /** Two strings with a common prefix are equal only if what follows it is. */
  lemma SamePrefix(p: string, a: string, b: string)
    requires p + a == p + b
    ensures a == b
  {
    assert a == (p + a)[|p|..];
    assert b == (p + b)[|p|..];
  }
}

=== FILE: nand.dfy ===
/** The NAND the schematic tests build: an AND gate `and1`, a NOT gate
    `not1`, the AND output wired to the NOT input, and the two AND inputs
    and the NOT output exposed. A built instance of it holds, in what the
    managers lent, the very pieces of the AND-NOT net whose ticks compute
    NAND. */
module Nand {
  import opened Storage
  import opened Gates
  import opened Sockets
  import opened Schematic
  import opened Circuits
  import opened Populate
  import opened Instantiate
  import M = Managers

  /** The schematic `b` of the NAND test: one AND gate, one NOT gate, one
      connection and three exposed ports, no bridges and no sub-circuits. */
  function NandSchematic(): SchematicData {
    SchematicData("b", ["and1"], ["not1"], [], [], [], [], [Connection("and1_c", "not1_a")],
                  ["and1_a", "and1_b", "not1_b"])
  }

  /** The instance `c` sits in layout `l` as the net `NandNet(x, y, z, u, w,
      p, q)`: its AND block, its NOT block and its socket are lent, and the
      three exposed ports are the AND inputs and the NOT output. */
  predicate NandIn(c: Circuit, l: M.Layout, x: nat, y: nat, z: nat, u: nat, w: nat, p: nat, q: nat) {
    var net := M.NandNet(x, y, z, u, w, p, q);
    && net.andBlocks[0] in l.net.andBlocks
    && net.notBlocks[0] in l.net.notBlocks
    && net.sockets[0] in l.net.sockets
    && "and1_a" in c.exposedPorts && c.exposedPorts["and1_a"] == Accessor(p, 1, CellAt(x))
    && "and1_b" in c.exposedPorts && c.exposedPorts["and1_b"] == Accessor(p, 1, CellAt(y))
    && "not1_b" in c.exposedPorts && c.exposedPorts["not1_b"] == Accessor(q, 1, CellAt(w))
  }

  /** The terminal names of the two gates. */
  lemma NandLanes()
    ensures Lane("and1", 0) == "and1_a" && Lane("and1", 1) == "and1_b" && Lane("and1", 2) == "and1_c"
    ensures Lane("not1", 0) == "not1_a" && Lane("not1", 1) == "not1_b"
  {
  }

  /** Both gates of the NAND are declared once, so both are bound. */
  lemma NandGatesBound(names: map<string, Accessor>, l: M.Layout)
    requires GatesBound(names, GateDecls(NandSchematic()), l)
    ensures GateAt(names, "and1", AndGate, l) && GateAt(names, "not1", NotGate, l)
  {
    var d := GateDecls(NandSchematic());
    assert d == [GateDecl("and1", AndGate), GateDecl("not1", NotGate)];
    assert LastGate(d, 0) && LastGate(d, 1);
  }

  /** The AND gate lent in block `ka` at bit p and the NOT gate lent in
      block `kn` at bit q, wired as the NAND's connection and exposed as its
      ports, make the net of a NAND over their cells. */
  lemma NandFromGates(c: Circuit, l: M.Layout, ka: nat, p: nat, kn: nat, q: nat)
    requires ka < |l.net.andBlocks| && GateIn(c.names, "and1", AndGate, l.net.andBlocks[ka], p)
    requires kn < |l.net.notBlocks| && GateIn(c.names, "not1", NotGate, l.net.notBlocks[kn], q)
    requires "and1_c" in c.names && "not1_a" in c.names && Socket(c.names["and1_c"], c.names["not1_a"]) in l.net.sockets
    requires forall port | port in ["and1_a", "and1_b", "not1_b"] ::
               port in c.exposedPorts && port in c.names && c.exposedPorts[port] == c.names[port]
    ensures var a, n := l.net.andBlocks[ka], l.net.notBlocks[kn];
            NandIn(c, l, a[0].index, a[1].index, a[2].index, n[0].index, n[1].index, p, q)
  {
    var a, n := l.net.andBlocks[ka], l.net.notBlocks[kn];
    NandLanes();
    assert c.names[Lane("and1", 0)] == Accessor(p, 1, a[0]) && c.names[Lane("and1", 1)] == Accessor(p, 1, a[1]);
    assert c.names[Lane("and1", 2)] == Accessor(p, 1, a[2]);
    assert c.names[Lane("not1", 0)] == Accessor(q, 1, n[0]) && c.names[Lane("not1", 1)] == Accessor(q, 1, n[1]);
    assert a == [CellAt(a[0].index), CellAt(a[1].index), CellAt(a[2].index)];
    assert n == [CellAt(n[0].index), CellAt(n[1].index)];
  }

  /** A built NAND: its AND gate, its NOT gate and the socket between them
      are in the layout, over cells x, y, z (AND) and u, w (NOT), and its
      ports are the AND inputs x, y and the NOT output w. */
  lemma BuiltNand(table: seq<Circuit>, l: M.Layout)
    requires Instance(table, 1, NandSchematic(), l)
    ensures table[1].exposedPorts.Keys == {"and1_a", "and1_b", "not1_b"}
    ensures exists x, y, z, u, w, p, q :: NandIn(table[1], l, x, y, z, u, w, p, q)
  {
    var s := NandSchematic();
    var c := table[1];
    assert Instantiate.Holds(c, s) && Wired(c.names, s, l);
    NandGatesBound(c.names, l);
    var ka, p :| 0 <= ka < |M.Blocks(l.net, AndGate)| && GateIn(c.names, "and1", AndGate, M.Blocks(l.net, AndGate)[ka], p);
    var kn, q :| 0 <= kn < |M.Blocks(l.net, NotGate)| && GateIn(c.names, "not1", NotGate, M.Blocks(l.net, NotGate)[kn], q);
    assert s.connections[0] == Connection("and1_c", "not1_a");
    forall port | port in ["and1_a", "and1_b", "not1_b"]
      ensures port in c.exposedPorts && port in c.names && c.exposedPorts[port] == c.names[port]
    {
      assert port == s.exposedPorts[0] || port == s.exposedPorts[1] || port == s.exposedPorts[2];
    }
    NandFromGates(c, l, ka, p, kn, q);
  }
}

=== FILE: populate.dfy ===
/** Turning a schematic into instances over a `Managers`: `LateGenerate`
    populates one instance, `Build` creates the instance tree and populates
    every instance after all of its descendants. */
module Populate {
  import opened Storage
  import opened Names
  import opened Gates
  import opened Sockets
  import opened Schematic
  import opened Circuits
  import WireBridge
  import M = Managers

  /** The set of ports in a list. */
  function PortSet(ports: seq<string>): set<string> {
    set i | 0 <= i < |ports| :: ports[i]
  }

  // ---------------------------------------------------------------------
  // Gates

  /** Stores a lent gate's terminals under the gate's lane names: `<g>_a`
      and `<g>_b` hold lanes 0 and 1 and, but for a NOT gate, `<g>_c` lane 2. */
  function BindGate(m: map<string, Accessor>, g: string, kind: GateKind, t: seq<Accessor>): (r: map<string, Accessor>)
    requires |t| == Arity(kind)
    requires forall i | 0 <= i < |t| :: t[i].width == 1 && t[i].InBounds()
    ensures r.Keys == m.Keys + TerminalKeys(g, kind)
    ensures r[g + "_a"] == t[0] && r[g + "_b"] == t[1]
    ensures kind != NotGate ==> r[g + "_c"] == t[2]
    ensures forall k | k in m && k !in TerminalKeys(g, kind) :: r[k] == m[k]
    ensures forall k | k in TerminalKeys(g, kind) :: r[k].width == 1 && r[k].InBounds()
  {
    var a, b, c := g + "_a", g + "_b", g + "_c";
    assert a[|g| + 1] == 'a' && b[|g| + 1] == 'b' && c[|g| + 1] == 'c';
    if kind == NotGate then m[a := t[0]][b := t[1]]
    else m[a := t[0]][b := t[1]][c := t[2]]
  }

  /** Every name in `keys` holds a valid one-bit field. */
  predicate OneBitFields(r: map<string, Accessor>, keys: set<string>) {
    forall k | k in keys :: k in r && r[k].width == 1 && r[k].InBounds()
  }

  /** Every name of `m` outside `keys` is unchanged in `r`. */
  predicate KeptOutside(r: map<string, Accessor>, m: map<string, Accessor>, keys: set<string>) {
    forall k | k in m && k !in keys :: k in r && r[k] == m[k]
  }

  /** A gate declaration: the gate's name and the pool it is lent from. */
  datatype GateDecl = GateDecl(name: string, kind: GateKind)

  /** The declarations of a list of gates of one kind. */
  function Decls(gates: seq<string>, kind: GateKind): (d: seq<GateDecl>)
    ensures |d| == |gates| && forall i | 0 <= i < |gates| :: d[i] == GateDecl(gates[i], kind)
  {
    seq(|gates|, i requires 0 <= i < |gates| => GateDecl(gates[i], kind))
  }

  /** The gates of `s` in the order `lateGenerate` lends them: the AND, NOT,
      OR and XOR gates, each kind in declaration order. */
  function GateDecls(s: SchematicData): seq<GateDecl> {
    Decls(s.andGates, AndGate) + Decls(s.notGates, NotGate) + Decls(s.orGates, OrGate) + Decls(s.xorGates, XorGate)
  }

  /** No later declaration reuses the name of declaration i, so nothing is
      stored over its terminals. */
  predicate LastGate(d: seq<GateDecl>, i: nat)
    requires i < |d|
  {
    forall j | i < j < |d| :: d[j].name != d[i].name
  }

  /** Gate `g` holds the gate of `kind` lent at bit `offset` of `block`: the
      name of lane i is the one-bit field at `offset` of cell i. */
  predicate GateIn(names: map<string, Accessor>, g: string, kind: GateKind, block: seq<CellRef>, offset: nat) {
    && |block| == Arity(kind) && offset < STORAGE_SIZE
    && forall lane | 0 <= lane < Arity(kind) ::
         block[lane].CellAt? && Lane(g, lane) in names && names[Lane(g, lane)] == Accessor(offset, 1, block[lane])
  }

  /** Gate `g` holds a gate lent from some block of its kind's pool. */
  ghost predicate GateAt(names: map<string, Accessor>, g: string, kind: GateKind, l: M.Layout) {
    exists k, offset | 0 <= k < |M.Blocks(l.net, kind)| :: GateIn(names, g, kind, M.Blocks(l.net, kind)[k], offset)
  }

  /** Every gate of `d` that is not declared again later holds a lent gate. */
  ghost predicate GatesBound(names: map<string, Accessor>, d: seq<GateDecl>, l: M.Layout) {
    forall i | 0 <= i < |d| && LastGate(d, i) :: GateAt(names, d[i].name, d[i].kind, l)
  }

  /** What is lent stays where it is, so bound gates stay bound. */
  lemma GatesBoundGrows(names: map<string, Accessor>, d: seq<GateDecl>, l1: M.Layout, l2: M.Layout)
    requires GatesBound(names, d, l1) && M.Grows(l1, l2)
    ensures GatesBound(names, d, l2)
  {
    forall i | 0 <= i < |d| && LastGate(d, i)
      ensures GateAt(names, d[i].name, d[i].kind, l2)
    {
      var k, offset :| 0 <= k < |M.Blocks(l1.net, d[i].kind)|
                       && GateIn(names, d[i].name, d[i].kind, M.Blocks(l1.net, d[i].kind)[k], offset);
      M.GrowsKeepsBlock(l1, l2, d[i].kind, k);
    }
  }

  /** A gate whose lane names are all kept stays bound. */
  lemma GateInKept(m: map<string, Accessor>, r: map<string, Accessor>, g: string, kind: GateKind,
                   block: seq<CellRef>, offset: nat, keys: set<string>)
    requires GateIn(m, g, kind, block, offset) && KeptOutside(r, m, keys)
    requires forall lane | 0 <= lane < Arity(kind) :: Lane(g, lane) !in keys
    ensures GateIn(r, g, kind, block, offset)
  {
  }

  /** The gate just bound holds the gate lent in `block`. */
  lemma BoundGateIn(r0: map<string, Accessor>, g: string, kind: GateKind, t: seq<Accessor>, block: seq<CellRef>)
    requires GateTerminals(t, kind, block)
    ensures GateIn(BindGate(r0, g, kind, t), g, kind, block, t[0].offset)
  {
    var r := BindGate(r0, g, kind, t);
    forall lane | 0 <= lane < Arity(kind)
      ensures Lane(g, lane) in r && r[Lane(g, lane)] == Accessor(t[0].offset, 1, block[lane])
    {
      assert r[Lane(g, lane)] == t[lane];
    }
  }

  /** A lane of another gate is no terminal name of `g`. */
  lemma OtherLane(g: string, kind: GateKind, h: string, lane: nat)
    requires lane < 3 && h != g
    ensures Lane(h, lane) !in TerminalKeys(g, kind)
  {
  }

  /** A bound gate whose lane names are all kept stays bound. */
  lemma GateAtKept(m: map<string, Accessor>, r: map<string, Accessor>, h: string, kind: GateKind, l: M.Layout,
                   keys: set<string>)
    requires GateAt(m, h, kind, l) && KeptOutside(r, m, keys)
    requires forall lane | 0 <= lane < Arity(kind) :: Lane(h, lane) !in keys
    ensures GateAt(r, h, kind, l)
  {
    var k, offset :| 0 <= k < |M.Blocks(l.net, kind)| && GateIn(m, h, kind, M.Blocks(l.net, kind)[k], offset);
    GateInKept(m, r, h, kind, M.Blocks(l.net, kind)[k], offset, keys);
  }

  /** Binding gate `g` to a gate lent in block k of its pool extends the
      bound declarations by one. */
  lemma BindGateBound(r0: map<string, Accessor>, d: seq<GateDecl>, g: string, kind: GateKind, t: seq<Accessor>,
                      l: M.Layout, k: nat)
    requires k < |M.Blocks(l.net, kind)| && GateTerminals(t, kind, M.Blocks(l.net, kind)[k])
    requires GatesBound(r0, d, l)
    ensures GatesBound(BindGate(r0, g, kind, t), d + [GateDecl(g, kind)], l)
  {
    var r := BindGate(r0, g, kind, t);
    var d' := d + [GateDecl(g, kind)];
    BoundGateIn(r0, g, kind, t, M.Blocks(l.net, kind)[k]);
    assert KeptOutside(r, r0, TerminalKeys(g, kind));
    forall j | 0 <= j < |d| && LastGate(d', j)
      ensures GateAt(r, d[j].name, d[j].kind, l)
    {
      var h := d[j].name;
      assert d'[j] == d[j] && d'[|d|].name == g;
      assert LastGate(d, j) by {
        forall j2 | j < j2 < |d| ensures d[j2].name != h { assert d'[j2] == d[j2]; }
      }
      forall lane | 0 <= lane < Arity(d[j].kind)
        ensures Lane(h, lane) !in TerminalKeys(g, kind)
      {
        OtherLane(g, kind, h, lane);
      }
      GateAtKept(r0, r, h, d[j].kind, l, TerminalKeys(g, kind));
    }
    assert d'[|d|] == GateDecl(g, kind);
  }

  /** The declarations of a prefix one longer. */
  lemma DeclsSnoc(gates: seq<string>, i: nat, kind: GateKind)
    requires i < |gates|
    ensures Decls(gates[..i + 1], kind) == Decls(gates[..i], kind) + [GateDecl(gates[i], kind)]
  {
  }

  /** Binding the gates of one more kind, under names none of the gates
      bound before reuses, keeps those bound. */
  lemma GatesBoundThen(n1: map<string, Accessor>, r: map<string, Accessor>, d1: seq<GateDecl>,
                       gates: seq<string>, kind: GateKind, l1: M.Layout, l2: M.Layout)
    requires GatesBound(n1, d1, l1) && M.Grows(l1, l2)
    requires GatesBound(r, Decls(gates, kind), l2) && KeptOutside(r, n1, GateKeys(gates, kind))
    ensures GatesBound(r, d1 + Decls(gates, kind), l2)
  {
    GatesBoundGrows(n1, d1, l1, l2);
    var d := d1 + Decls(gates, kind);
    forall i | 0 <= i < |d| && LastGate(d, i)
      ensures GateAt(r, d[i].name, d[i].kind, l2)
    {
      BoundAt(n1, r, d1, gates, kind, l2, i);
    }
  }

  /** One gate of the combined declarations is bound. */
  lemma BoundAt(n1: map<string, Accessor>, r: map<string, Accessor>, d1: seq<GateDecl>,
                gates: seq<string>, kind: GateKind, l: M.Layout, i: nat)
    requires GatesBound(n1, d1, l) && GatesBound(r, Decls(gates, kind), l) && KeptOutside(r, n1, GateKeys(gates, kind))
    requires var d := d1 + Decls(gates, kind); i < |d| && LastGate(d, i)
    ensures var d := d1 + Decls(gates, kind); GateAt(r, d[i].name, d[i].kind, l)
  {
    if i < |d1| {
      EarlierGateKept(n1, r, d1, gates, kind, l, i);
    } else {
      LaterGateBound(r, d1, Decls(gates, kind), l, i);
    }
  }

  /** A gate bound before the gates of `kind` and not declared again among
      them stays bound. */
  lemma EarlierGateKept(n1: map<string, Accessor>, r: map<string, Accessor>, d1: seq<GateDecl>,
                        gates: seq<string>, kind: GateKind, l: M.Layout, i: nat)
    requires GatesBound(n1, d1, l) && KeptOutside(r, n1, GateKeys(gates, kind))
    requires i < |d1| && LastGate(d1 + Decls(gates, kind), i)
    ensures GateAt(r, (d1 + Decls(gates, kind))[i].name, (d1 + Decls(gates, kind))[i].kind, l)
  {
    var d2 := Decls(gates, kind);
    var d := d1 + d2;
    var g := d1[i].name;
    assert d[i] == d1[i];
    assert LastGate(d1, i) by {
      forall j | i < j < |d1| ensures d1[j].name != g { assert d[j] == d1[j]; }
    }
    forall j | 0 <= j < |gates| ensures gates[j] != g { assert d[|d1| + j] == d2[j]; }
    forall lane | 0 <= lane < Arity(d1[i].kind) ensures Lane(g, lane) !in GateKeys(gates, kind) {
      LaneNotInGateKeys(gates, kind, g, lane);
    }
    GateAtKept(n1, r, g, d1[i].kind, l, GateKeys(gates, kind));
  }

  /** The last declaration of a name among the later gates is bound. */
  lemma LaterGateBound(r: map<string, Accessor>, d1: seq<GateDecl>, d2: seq<GateDecl>, l: M.Layout, i: nat)
    requires GatesBound(r, d2, l)
    requires |d1| <= i < |d1| + |d2| && LastGate(d1 + d2, i)
    ensures GateAt(r, (d1 + d2)[i].name, (d1 + d2)[i].kind, l)
  {
    LaterLast(d1, d2, i);
    var i2 := i - |d1|;
    assert GateAt(r, d2[i2].name, d2[i2].kind, l);
  }

  /** A gate declared before the gates of `kind` and not declared again
      among them keeps its lanes. */
  lemma EarlierLanesKept(n1: map<string, Accessor>, r: map<string, Accessor>, d1: seq<GateDecl>,
                         gates: seq<string>, kind: GateKind, i: nat)
    requires KeptOutside(r, n1, GateKeys(gates, kind))
    requires i < |d1| && LastGate(d1 + Decls(gates, kind), i)
    ensures (d1 + Decls(gates, kind))[i] == d1[i] && LastGate(d1, i)
    ensures LanesKept(r, n1, d1[i].name, d1[i].kind)
  {
    var d2 := Decls(gates, kind);
    var d := d1 + d2;
    var g := d1[i].name;
    assert d[i] == d1[i];
    assert LastGate(d1, i) by {
      forall j | i < j < |d1| ensures d1[j].name != g { assert d[j] == d1[j]; }
    }
    forall j | 0 <= j < |gates| ensures gates[j] != g { assert d[|d1| + j] == d2[j]; }
    forall lane | 0 <= lane < Arity(d1[i].kind) ensures Lane(g, lane) !in GateKeys(gates, kind) {
      LaneNotInGateKeys(gates, kind, g, lane);
    }
  }

  /** The last declaration of a name among the later gates is the last among
      those gates alone. */
  lemma LaterLast(d1: seq<GateDecl>, d2: seq<GateDecl>, i: nat)
    requires |d1| <= i < |d1| + |d2| && LastGate(d1 + d2, i)
    ensures (d1 + d2)[i] == d2[i - |d1|] && LastGate(d2, i - |d1|)
  {
    var d := d1 + d2;
    var i2 := i - |d1|;
    assert d[i] == d2[i2];
    forall j | i2 < j < |d2| ensures d2[j].name != d2[i2].name { assert d[|d1| + j] == d2[j]; }
  }

  /** Binding the gates of one more kind, under names that keep the earlier
      gates' lanes, keeps gates of one kind apart. */
  lemma GatesApartThen(n1: map<string, Accessor>, r: map<string, Accessor>, d1: seq<GateDecl>,
                       gates: seq<string>, kind: GateKind)
    requires GatesApart(n1, d1) && GatesApart(r, Decls(gates, kind)) && KeptOutside(r, n1, GateKeys(gates, kind))
    requires forall x | 0 <= x < |d1| :: d1[x].kind != kind
    ensures GatesApart(r, d1 + Decls(gates, kind))
  {
    var d2 := Decls(gates, kind);
    var d := d1 + d2;
    forall i, j | 0 <= i < j < |d| && LastGate(d, i) && LastGate(d, j) && d[i].kind == d[j].kind
      ensures GatesDisjoint(r, d[i].name, d[i].kind, d[j].name, d[j].kind)
    {
      PairApart(n1, r, d1, gates, kind, i, j);
    }
  }

  /** One pair of gates of the combined declarations is apart. */
  lemma PairApart(n1: map<string, Accessor>, r: map<string, Accessor>, d1: seq<GateDecl>,
                  gates: seq<string>, kind: GateKind, i: nat, j: nat)
    requires GatesApart(n1, d1) && GatesApart(r, Decls(gates, kind)) && KeptOutside(r, n1, GateKeys(gates, kind))
    requires forall x | 0 <= x < |d1| :: d1[x].kind != kind
    requires var d := d1 + Decls(gates, kind);
      i < j < |d| && LastGate(d, i) && LastGate(d, j) && d[i].kind == d[j].kind
    ensures var d := d1 + Decls(gates, kind);
      GatesDisjoint(r, d[i].name, d[i].kind, d[j].name, d[j].kind)
  {
    var d2 := Decls(gates, kind);
    KindSplit(d1, d2, kind, i);
    KindSplit(d1, d2, kind, j);
    if j < |d1| {
      EarlierPairApart(n1, r, d1, gates, kind, i, j);
    } else {
      LaterPairApart(r, d1, d2, kind, i, j);
    }
  }

  /** In the declarations of the earlier kinds followed by those of `kind`,
      exactly the later ones are of `kind`. */
  lemma KindSplit(d1: seq<GateDecl>, d2: seq<GateDecl>, kind: GateKind, i: nat)
    requires forall x | 0 <= x < |d1| :: d1[x].kind != kind
    requires forall x | 0 <= x < |d2| :: d2[x].kind == kind
    requires i < |d1| + |d2|
    ensures (d1 + d2)[i].kind == kind <==> |d1| <= i
  {
    if i < |d1| { assert (d1 + d2)[i] == d1[i]; } else { assert (d1 + d2)[i] == d2[i - |d1|]; }
  }

  /** Two earlier gates of one kind whose names the later gates do not
      reuse stay apart. */
  lemma EarlierPairApart(n1: map<string, Accessor>, r: map<string, Accessor>, d1: seq<GateDecl>,
                         gates: seq<string>, kind: GateKind, i: nat, j: nat)
    requires GatesApart(n1, d1) && KeptOutside(r, n1, GateKeys(gates, kind))
    requires i < j < |d1| && d1[i].kind == d1[j].kind
    requires LastGate(d1 + Decls(gates, kind), i) && LastGate(d1 + Decls(gates, kind), j)
    ensures (d1 + Decls(gates, kind))[i] == d1[i] && (d1 + Decls(gates, kind))[j] == d1[j]
    ensures GatesDisjoint(r, d1[i].name, d1[i].kind, d1[j].name, d1[j].kind)
  {
    EarlierLanesKept(n1, r, d1, gates, kind, i);
    EarlierLanesKept(n1, r, d1, gates, kind, j);
    DisjointKept(n1, r, d1[i].name, d1[i].kind, d1[j].name, d1[j].kind);
  }

  /** Two later gates, the last declarations of their names, of one kind
      are apart when they are apart among the later gates alone. */
  lemma LaterPairApart(r: map<string, Accessor>, d1: seq<GateDecl>, d2: seq<GateDecl>, kind: GateKind, i: nat, j: nat)
    requires GatesApart(r, d2) && forall x | 0 <= x < |d2| :: d2[x].kind == kind
    requires |d1| <= i < j < |d1| + |d2| && LastGate(d1 + d2, i) && LastGate(d1 + d2, j)
    ensures var d := d1 + d2; GatesDisjoint(r, d[i].name, d[i].kind, d[j].name, d[j].kind)
  {
    LaterLast(d1, d2, i);
    LaterLast(d1, d2, j);
    var i2, j2 := i - |d1|, j - |d1|;
    assert d2[i2].kind == kind && d2[j2].kind == kind;
    ApartPair(r, d2, i2, j2);
  }

  /** One pair of gates kept apart by `GatesApart`. */
  lemma ApartPair(names: map<string, Accessor>, d: seq<GateDecl>, i: nat, j: nat)
    requires GatesApart(names, d)
    requires i < j < |d| && LastGate(d, i) && LastGate(d, j) && d[i].kind == d[j].kind
    ensures GatesDisjoint(names, d[i].name, d[i].kind, d[j].name, d[j].kind)
  {
  }

  /** Binding the gates of one more kind, each new since `l1`, under names
      that keep the earlier gates' lanes, keeps every gate new since `l0`. */
  lemma GatesNewThen(n1: map<string, Accessor>, r: map<string, Accessor>, d1: seq<GateDecl>,
                     gates: seq<string>, kind: GateKind, l0: M.Layout, l1: M.Layout)
    requires GatesNew(n1, d1, l0) && GatesNew(r, Decls(gates, kind), l1) && M.Grows(l0, l1)
    requires KeptOutside(r, n1, GateKeys(gates, kind))
    ensures GatesNew(r, d1 + Decls(gates, kind), l0)
  {
    var d2 := Decls(gates, kind);
    var d := d1 + d2;
    GatesNewEarlier(r, d2, l0, l1);
    forall i | 0 <= i < |d| && LastGate(d, i)
      ensures GateApartFrom(r, d[i].name, d[i].kind, M.Lent(l0, d[i].kind))
    {
      NewAt(n1, r, d1, gates, kind, l0, i);
    }
  }

  /** One gate of the combined declarations is new. */
  lemma NewAt(n1: map<string, Accessor>, r: map<string, Accessor>, d1: seq<GateDecl>,
              gates: seq<string>, kind: GateKind, l0: M.Layout, i: nat)
    requires GatesNew(n1, d1, l0) && GatesNew(r, Decls(gates, kind), l0)
    requires KeptOutside(r, n1, GateKeys(gates, kind))
    requires var d := d1 + Decls(gates, kind); i < |d| && LastGate(d, i)
    ensures var d := d1 + Decls(gates, kind); GateApartFrom(r, d[i].name, d[i].kind, M.Lent(l0, d[i].kind))
  {
    if i < |d1| {
      EarlierLanesKept(n1, r, d1, gates, kind, i);
      ApartFromKept(n1, r, d1[i].name, d1[i].kind, M.Lent(l0, d1[i].kind));
    } else {
      LaterNew(r, d1, Decls(gates, kind), l0, i);
    }
  }

  /** A later gate, the last declaration of its name, is new when it is new
      among the later gates alone. */
  lemma LaterNew(r: map<string, Accessor>, d1: seq<GateDecl>, d2: seq<GateDecl>, l0: M.Layout, i: nat)
    requires GatesNew(r, d2, l0) && |d1| <= i < |d1| + |d2| && LastGate(d1 + d2, i)
    ensures var d := d1 + d2; GateApartFrom(r, d[i].name, d[i].kind, M.Lent(l0, d[i].kind))
  {
    LaterLast(d1, d2, i);
    var i2 := i - |d1|;
    assert GateApartFrom(r, d2[i2].name, d2[i2].kind, M.Lent(l0, d2[i2].kind));
  }

  /** Gates new since `l1` are new since an earlier `l0`. */
  lemma GatesNewEarlier(names: map<string, Accessor>, d: seq<GateDecl>, l0: M.Layout, l1: M.Layout)
    requires GatesNew(names, d, l1) && M.Grows(l0, l1)
    ensures GatesNew(names, d, l0)
  {
    forall i | 0 <= i < |d| && LastGate(d, i)
      ensures GateApartFrom(names, d[i].name, d[i].kind, M.Lent(l0, d[i].kind))
    {
      ApartFromEarlier(names, d[i].name, d[i].kind, l0, l1);
    }
  }

  /** A gate's lanes are no bridge terminal names, so storing bridge
      terminals keeps them. */
  lemma LanesKeptByBridges(n: map<string, Accessor>, r: map<string, Accessor>, bridges: seq<Bridge>,
                           h: string, kind: GateKind)
    requires KeptOutside(r, n, BridgeKeys(bridges))
    ensures LanesKept(r, n, h, kind)
  {
    forall lane | 0 <= lane < Arity(kind) { LaneNotInBridgeKeys(bridges, h, lane); }
  }

  /** Storing bridge terminals keeps gates apart and new. */
  lemma GatesOwnKeptByBridges(n: map<string, Accessor>, r: map<string, Accessor>, d: seq<GateDecl>,
                              bridges: seq<Bridge>, l0: M.Layout)
    requires KeptOutside(r, n, BridgeKeys(bridges))
    requires GatesApart(n, d) && GatesNew(n, d, l0)
    ensures GatesApart(r, d) && GatesNew(r, d, l0)
  {
    forall i, j | 0 <= i < j < |d| && LastGate(d, i) && LastGate(d, j) && d[i].kind == d[j].kind
      ensures GatesDisjoint(r, d[i].name, d[i].kind, d[j].name, d[j].kind)
    {
      LanesKeptByBridges(n, r, bridges, d[i].name, d[i].kind);
      LanesKeptByBridges(n, r, bridges, d[j].name, d[j].kind);
      DisjointKept(n, r, d[i].name, d[i].kind, d[j].name, d[j].kind);
    }
    forall i | 0 <= i < |d| && LastGate(d, i)
      ensures GateApartFrom(r, d[i].name, d[i].kind, M.Lent(l0, d[i].kind))
    {
      LanesKeptByBridges(n, r, bridges, d[i].name, d[i].kind);
      ApartFromKept(n, r, d[i].name, d[i].kind, M.Lent(l0, d[i].kind));
    }
  }

  /** Storing bridge terminals never stores over a gate's terminal. */
  lemma GatesBoundKeptByBridges(n: map<string, Accessor>, r: map<string, Accessor>, d: seq<GateDecl>,
                                bridges: seq<Bridge>, l: M.Layout)
    requires GatesBound(n, d, l) && KeptOutside(r, n, BridgeKeys(bridges))
    ensures GatesBound(r, d, l)
  {
    forall i | 0 <= i < |d| && LastGate(d, i)
      ensures GateAt(r, d[i].name, d[i].kind, l)
    {
      var k, offset :| 0 <= k < |M.Blocks(l.net, d[i].kind)|
                       && GateIn(n, d[i].name, d[i].kind, M.Blocks(l.net, d[i].kind)[k], offset);
      forall lane | 0 <= lane < Arity(d[i].kind) ensures Lane(d[i].name, lane) !in BridgeKeys(bridges) {
        LaneNotInBridgeKeys(bridges, d[i].name, lane);
      }
      GateInKept(n, r, d[i].name, d[i].kind, M.Blocks(l.net, d[i].kind)[k], offset, BridgeKeys(bridges));
    }
  }

  /** Binding the gate `gates[i]` extends what holds of `gates[..i]`. */
  lemma BindGateStep(names: map<string, Accessor>, r0: map<string, Accessor>, gates: seq<string>, i: nat,
                     kind: GateKind, t: seq<Accessor>)
    requires i < |gates| && |t| == Arity(kind)
    requires forall j | 0 <= j < |t| :: t[j].width == 1 && t[j].InBounds()
    requires r0.Keys == names.Keys + GateKeys(gates[..i], kind)
    requires OneBitFields(r0, GateKeys(gates[..i], kind)) && KeptOutside(r0, names, GateKeys(gates[..i], kind))
    ensures var r := BindGate(r0, gates[i], kind, t);
            && r.Keys == names.Keys + GateKeys(gates[..i + 1], kind)
            && OneBitFields(r, GateKeys(gates[..i + 1], kind))
            && KeptOutside(r, names, GateKeys(gates[..i + 1], kind))
  {
    assert gates[..i + 1][..i] == gates[..i];
    assert GateKeys(gates[..i + 1], kind) == GateKeys(gates[..i], kind) + TerminalKeys(gates[i], kind);
  }

  // ---------------------------------------------------------------------
  // Gates of their own

  /** Gates `g1` (of `kind1`) and `g2` (of `kind2`) hold fields that share no
      bit, lane by lane. */
  predicate GatesDisjoint(names: map<string, Accessor>, g1: string, kind1: GateKind, g2: string, kind2: GateKind) {
    && LanesNamed(names, g1, kind1) && LanesNamed(names, g2, kind2)
    && forall a, b | 0 <= a < Arity(kind1) && 0 <= b < Arity(kind2) ::
         Disjoint(names[Lane(g1, a)], names[Lane(g2, b)])
  }

  /** Every lane of gate `g` has a name. */
  predicate LanesNamed(names: map<string, Accessor>, g: string, kind: GateKind) {
    forall lane | 0 <= lane < Arity(kind) :: Lane(g, lane) in names
  }

  /** Two gates of one kind that are the last declarations of their names
      hold fields that share no bit. */
  predicate GatesApart(names: map<string, Accessor>, d: seq<GateDecl>) {
    forall i, j | 0 <= i < j < |d| && LastGate(d, i) && LastGate(d, j) && d[i].kind == d[j].kind ::
      GatesDisjoint(names, d[i].name, d[i].kind, d[j].name, d[j].kind)
  }

  /** Gate `g` holds, lane by lane, fields that share no bit with any of
      `fields`. */
  predicate GateApartFrom(names: map<string, Accessor>, g: string, kind: GateKind, fields: seq<Accessor>) {
    && LanesNamed(names, g, kind)
    && forall lane, f | 0 <= lane < Arity(kind) && f in fields :: Disjoint(names[Lane(g, lane)], f)
  }

  /** Every gate of `d` not declared again later holds fields that share no
      bit with anything its kind's pool had lent in `l0`. */
  predicate GatesNew(names: map<string, Accessor>, d: seq<GateDecl>, l0: M.Layout) {
    forall i | 0 <= i < |d| && LastGate(d, i) :: GateApartFrom(names, d[i].name, d[i].kind, M.Lent(l0, d[i].kind))
  }

  /** Gate `g` holds, lane by lane, fields among `fields`. */
  predicate GateFrom(names: map<string, Accessor>, g: string, kind: GateKind, fields: seq<Accessor>) {
    forall lane | 0 <= lane < Arity(kind) :: Lane(g, lane) in names && names[Lane(g, lane)] in fields
  }

  /** Every gate of `d` not declared again later holds fields its kind's
      pool has lent. */
  predicate GatesLent(names: map<string, Accessor>, d: seq<GateDecl>, l: M.Layout) {
    forall i | 0 <= i < |d| && LastGate(d, i) :: GateFrom(names, d[i].name, d[i].kind, M.Lent(l, d[i].kind))
  }

  /** Every lane of gate `h` that `n` names holds in `r` what it holds in `n`. */
  predicate LanesKept(r: map<string, Accessor>, n: map<string, Accessor>, h: string, kind: GateKind) {
    forall lane | 0 <= lane < Arity(kind) && Lane(h, lane) in n ::
      Lane(h, lane) in r && r[Lane(h, lane)] == n[Lane(h, lane)]
  }

  /** Two gates whose lanes are kept stay disjoint. */
  lemma DisjointKept(n: map<string, Accessor>, r: map<string, Accessor>, h1: string, kind1: GateKind,
                     h2: string, kind2: GateKind)
    requires GatesDisjoint(n, h1, kind1, h2, kind2) && LanesKept(r, n, h1, kind1) && LanesKept(r, n, h2, kind2)
    ensures GatesDisjoint(r, h1, kind1, h2, kind2)
  {
    forall a, b | 0 <= a < Arity(kind1) && 0 <= b < Arity(kind2)
      ensures Lane(h1, a) in r && Lane(h2, b) in r && Disjoint(r[Lane(h1, a)], r[Lane(h2, b)])
    {
      assert Lane(h1, a) in n && Lane(h2, b) in n;
    }
    assert GatesDisjoint(r, h1, kind1, h2, kind2);
  }

  /** A gate whose lanes are kept stays apart from the same fields. */
  lemma ApartFromKept(n: map<string, Accessor>, r: map<string, Accessor>, h: string, kind: GateKind,
                      fields: seq<Accessor>)
    requires GateApartFrom(n, h, kind, fields) && LanesKept(r, n, h, kind)
    ensures GateApartFrom(r, h, kind, fields)
  {
    forall lane, f | 0 <= lane < Arity(kind) && f in fields
      ensures Lane(h, lane) in r && Disjoint(r[Lane(h, lane)], f)
    {
      assert Lane(h, lane) in n;
    }
  }

  /** A gate apart from everything its pool had lent in `l1` is apart from
      everything it had lent in an earlier `l0`. */
  lemma ApartFromEarlier(names: map<string, Accessor>, h: string, kind: GateKind, l0: M.Layout, l1: M.Layout)
    requires GateApartFrom(names, h, kind, M.Lent(l1, kind)) && M.Grows(l0, l1)
    ensures GateApartFrom(names, h, kind, M.Lent(l0, kind))
  {
    forall lane, f | 0 <= lane < Arity(kind) && f in M.Lent(l0, kind)
      ensures Lane(h, lane) in names && Disjoint(names[Lane(h, lane)], f)
    {
      M.GrowsKeepsLent(l0, l1, kind, f);
    }
  }

  /** A declaration still last after one more was last before, under a name
      other than the new one's. */
  lemma LastBefore(d: seq<GateDecl>, decl: GateDecl, j: nat)
    requires j < |d| && LastGate(d + [decl], j)
    ensures LastGate(d, j) && d[j].name != decl.name
  {
    var d' := d + [decl];
    assert d'[j] == d[j] && d'[|d|] == decl;
    forall j2 | j < j2 < |d| ensures d[j2].name != d[j].name { assert d'[j2] == d[j2]; }
  }

  /** Binding `g` keeps the lanes of every other gate. */
  lemma BindKeeps(r0: map<string, Accessor>, g: string, kind: GateKind, t: seq<Accessor>, h: string, kindH: GateKind)
    requires |t| == Arity(kind) && forall i | 0 <= i < |t| :: t[i].width == 1 && t[i].InBounds()
    requires h != g
    ensures LanesKept(BindGate(r0, g, kind, t), r0, h, kindH)
  {
    forall lane | 0 <= lane < Arity(kindH) { OtherLane(g, kind, h, lane); }
  }

  /** Binding `g` to fields the pool has just lent extends the declarations
      whose gates hold lent fields. */
  lemma BindGateLent(r0: map<string, Accessor>, d: seq<GateDecl>, g: string, kind: GateKind, t: seq<Accessor>,
                     l: M.Layout, l': M.Layout)
    requires |t| == Arity(kind) && forall i | 0 <= i < |t| :: t[i].width == 1 && t[i].InBounds()
    requires forall x | 0 <= x < |d| :: d[x].kind == kind
    requires GatesLent(r0, d, l) && M.Lent(l', kind) == M.Lent(l, kind) + t
    ensures GatesLent(BindGate(r0, g, kind, t), d + [GateDecl(g, kind)], l')
  {
    var r, d' := BindGate(r0, g, kind, t), d + [GateDecl(g, kind)];
    var lent, lent' := M.Lent(l, kind), M.Lent(l', kind);
    forall j | 0 <= j < |d'| && LastGate(d', j)
      ensures GateFrom(r, d'[j].name, d'[j].kind, M.Lent(l', d'[j].kind))
    {
      if j < |d| {
        LastBefore(d, GateDecl(g, kind), j);
        var h := d[j].name;
        assert d'[j] == d[j] && GateFrom(r0, h, kind, lent);
        BindKeeps(r0, g, kind, t, h, kind);
        forall lane | 0 <= lane < Arity(kind) ensures r[Lane(h, lane)] in lent' {
          var x :| 0 <= x < |lent| && lent[x] == r0[Lane(h, lane)];
          assert lent'[x] == lent[x];
        }
      } else {
        assert d'[j] == GateDecl(g, kind);
        forall lane | 0 <= lane < Arity(kind) ensures r[Lane(g, lane)] in lent' {
          assert r[Lane(g, lane)] == t[lane] == lent'[|lent| + lane];
        }
      }
    }
  }

  /** Binding `g` to fields that share no bit with anything the pool lent
      before extends the declarations whose gates are new since `l0`. */
  lemma BindGateNew(r0: map<string, Accessor>, d: seq<GateDecl>, g: string, kind: GateKind, t: seq<Accessor>,
                    l0: M.Layout, l: M.Layout)
    requires |t| == Arity(kind) && forall i | 0 <= i < |t| :: t[i].width == 1 && t[i].InBounds()
    requires forall x | 0 <= x < |d| :: d[x].kind == kind
    requires GatesNew(r0, d, l0) && M.Lent(l0, kind) <= M.Lent(l, kind)
    requires forall i, f | 0 <= i < |t| && f in M.Lent(l, kind) :: Disjoint(t[i], f)
    ensures GatesNew(BindGate(r0, g, kind, t), d + [GateDecl(g, kind)], l0)
  {
    var r, d' := BindGate(r0, g, kind, t), d + [GateDecl(g, kind)];
    var lent0, lent := M.Lent(l0, kind), M.Lent(l, kind);
    forall j | 0 <= j < |d'| && LastGate(d', j)
      ensures GateApartFrom(r, d'[j].name, d'[j].kind, M.Lent(l0, d'[j].kind))
    {
      if j < |d| {
        LastBefore(d, GateDecl(g, kind), j);
        var h := d[j].name;
        assert d'[j] == d[j] && GateApartFrom(r0, h, kind, lent0);
        BindKeeps(r0, g, kind, t, h, kind);
      } else {
        assert d'[j] == GateDecl(g, kind);
        forall lane, f | 0 <= lane < Arity(kind) && f in lent0
          ensures Lane(g, lane) in r && Disjoint(r[Lane(g, lane)], f)
        {
          var x :| 0 <= x < |lent0| && lent0[x] == f;
          assert lent[x] == f && f in lent;
          assert r[Lane(g, lane)] == t[lane] && Disjoint(t[lane], f);
        }
      }
    }
  }

  /** Binding `g` to fields that share no bit with anything the pool lent
      before, where every earlier gate holds lent fields, keeps the gates
      of the kind apart. */
  lemma BindGateApart(r0: map<string, Accessor>, d: seq<GateDecl>, g: string, kind: GateKind, t: seq<Accessor>,
                      l: M.Layout)
    requires |t| == Arity(kind) && forall i | 0 <= i < |t| :: t[i].width == 1 && t[i].InBounds()
    requires forall x | 0 <= x < |d| :: d[x].kind == kind
    requires GatesApart(r0, d) && GatesLent(r0, d, l)
    requires forall i, f | 0 <= i < |t| && f in M.Lent(l, kind) :: Disjoint(t[i], f)
    ensures GatesApart(BindGate(r0, g, kind, t), d + [GateDecl(g, kind)])
  {
    var r, d' := BindGate(r0, g, kind, t), d + [GateDecl(g, kind)];
    forall i, j | 0 <= i < j < |d| && LastGate(d', i) && LastGate(d', j)
      ensures GatesDisjoint(r, d'[i].name, d'[i].kind, d'[j].name, d'[j].kind)
    {
      LastBefore(d, GateDecl(g, kind), i);
      LastBefore(d, GateDecl(g, kind), j);
      assert d'[i] == d[i] && d'[j] == d[j];
      assert GatesDisjoint(r0, d[i].name, kind, d[j].name, kind);
      BindKeeps(r0, g, kind, t, d[i].name, kind);
      BindKeeps(r0, g, kind, t, d[j].name, kind);
    }
    forall i | 0 <= i < |d| && LastGate(d', i)
      ensures GatesDisjoint(r, d'[i].name, d'[i].kind, g, kind)
    {
      LastBefore(d, GateDecl(g, kind), i);
      assert d'[i] == d[i];
      NewGateApart(r0, g, kind, t, d[i].name, M.Lent(l, kind));
    }
    assert d'[|d|] == GateDecl(g, kind);
  }

  /** A gate holding lent fields and a gate just bound to fields that share
      no bit with anything lent before hold disjoint fields. */
  lemma NewGateApart(r0: map<string, Accessor>, g: string, kind: GateKind, t: seq<Accessor>, h: string,
                     lent: seq<Accessor>)
    requires |t| == Arity(kind) && forall i | 0 <= i < |t| :: t[i].width == 1 && t[i].InBounds()
    requires h != g && GateFrom(r0, h, kind, lent)
    requires forall i, f | 0 <= i < |t| && f in lent :: Disjoint(t[i], f)
    ensures GatesDisjoint(BindGate(r0, g, kind, t), h, kind, g, kind)
  {
    var r := BindGate(r0, g, kind, t);
    BindKeeps(r0, g, kind, t, h, kind);
    forall a, b | 0 <= a < Arity(kind) && 0 <= b < Arity(kind)
      ensures Lane(h, a) in r && Lane(g, b) in r && Disjoint(r[Lane(h, a)], r[Lane(g, b)])
    {
      assert Lane(g, b) in TerminalKeys(g, kind);
      assert r[Lane(g, b)] == t[b] && Disjoint(t[b], r0[Lane(h, a)]);
    }
    assert GatesDisjoint(r, h, kind, g, kind);
  }

  /** What binding the gates `d` of `kind`, one lent gate each since `l0`,
      has made of `r` and of layout `l`: every gate bound, apart from the
      others and new since `l0`, its fields lent by the pool; the pool lent
      one gate per declaration and no other pool lent anything. */
  ghost predicate KindAdded(r: map<string, Accessor>, d: seq<GateDecl>, kind: GateKind, l0: M.Layout, l: M.Layout) {
    && GatesBound(r, d, l) && GatesApart(r, d) && GatesNew(r, d, l0) && GatesLent(r, d, l)
    && |M.Lent(l, kind)| == |M.Lent(l0, kind)| + Arity(kind) * |d|
    && forall other: GateKind | other != kind :: M.Lent(l, other) == M.Lent(l0, other)
  }

  /** Binding the gate the pool has just lent extends `KindAdded` by one
      declaration. */
  lemma KindAddedStep(r: map<string, Accessor>, d: seq<GateDecl>, g: string, kind: GateKind, t: seq<Accessor>,
                      k: nat, l0: M.Layout, l: M.Layout, l': M.Layout)
    requires forall x | 0 <= x < |d| :: d[x].kind == kind
    requires KindAdded(r, d, kind, l0, l) && M.Grows(l0, l) && M.GateLent(l, l', kind, t, k)
    ensures |t| == Arity(kind) && forall i | 0 <= i < |t| :: t[i].width == 1 && t[i].InBounds()
    ensures KindAdded(BindGate(r, g, kind, t), d + [GateDecl(g, kind)], kind, l0, l') && M.Grows(l0, l')
  {
    GatesBoundGrows(r, d, l, l');
    M.GrowsTransitive(l0, l, l');
    BindGateBound(r, d, g, kind, t, l', k);
    BindGateLent(r, d, g, kind, t, l, l');
    BindGateNew(r, d, g, kind, t, l0, l);
    BindGateApart(r, d, g, kind, t, l);
  }

  /** Lends one gate per declared name from the pool of `kind` and stores its
      terminals as `<g>_a`, `<g>_b` (and `<g>_c`). */
  method AddGates(mgr: M.Managers, kind: GateKind, gates: seq<string>, names: map<string, Accessor>)
    returns (r: map<string, Accessor>)
    requires mgr.Valid()
    modifies mgr.andGate.bank, mgr.notGate.bank, mgr.orGate.bank, mgr.xorGate.bank, mgr.arena
    ensures mgr.Valid()
    ensures M.Grows(old(mgr.Current()), mgr.Current())
    ensures r.Keys == names.Keys + GateKeys(gates, kind)
    ensures KindAdded(r, Decls(gates, kind), kind, old(mgr.Current()), mgr.Current())
    ensures OneBitFields(r, GateKeys(gates, kind))
    ensures KeptOutside(r, names, GateKeys(gates, kind))
    ensures (forall k | k in names :: names[k].InBounds()) ==> forall k | k in r :: r[k].InBounds()
    ensures mgr.socketController.sockets == old(mgr.socketController.sockets)
  {
    r := names;
    ghost var l0 := mgr.Current();
    for i := 0 to |gates|
      invariant mgr.Valid()
      invariant M.Grows(l0, mgr.Current())
      invariant r.Keys == names.Keys + GateKeys(gates[..i], kind)
      invariant KindAdded(r, Decls(gates[..i], kind), kind, l0, mgr.Current())
      invariant OneBitFields(r, GateKeys(gates[..i], kind))
      invariant KeptOutside(r, names, GateKeys(gates[..i], kind))
      invariant mgr.socketController.sockets == old(mgr.socketController.sockets)
    {
      ghost var before := mgr.Current();
      var t, k := mgr.LendGate(kind);
      ghost var after := mgr.Current();
      BindGateStep(names, r, gates, i, kind, t);
      KindAddedStep(r, Decls(gates[..i], kind), gates[i], kind, t, k, l0, before, after);
      DeclsSnoc(gates, i, kind);
      r := BindGate(r, gates[i], kind, t);
    }
    assert gates[..|gates|] == gates;
  }

  // ---------------------------------------------------------------------
  // Wire bridges

  /** `cell` is the cell of a lent bridge. */
  predicate BridgeCell(l: M.Layout, cell: CellRef) {
    [cell] in l.bridgeBlocks
  }

  /** Each of `cells` is the cell of a lent bridge. */
  predicate CellsLent(l: M.Layout, cells: seq<CellRef>) {
    forall b | 0 <= b < |cells| :: BridgeCell(l, cells[b])
  }

  /** No cell appears twice in `cells`. */
  predicate NoRepeats(cells: seq<CellRef>) {
    forall a, b | 0 <= a < b < |cells| :: cells[a] != cells[b]
  }

  /** `cells` are pairwise distinct, and none of them was a cell of `l0`. */
  predicate CellsNew(cells: seq<CellRef>, l0: M.Layout) {
    NoRepeats(cells) && forall b | 0 <= b < |cells| :: cells[b] !in M.LayoutCells(l0)
  }

  /** One single-cell block per cell, in order. */
  function Singletons(cells: seq<CellRef>): (r: seq<seq<CellRef>>)
    ensures |r| == |cells| && forall b | 0 <= b < |cells| :: r[b] == [cells[b]]
  {
    seq(|cells|, b requires 0 <= b < |cells| => [cells[b]])
  }

  /** `l` is `l0` with one more bridge block per cell of `cells`, in order,
      and nothing else changed; the cells are distinct and new. */
  predicate BridgesLentSince(l0: M.Layout, l: M.Layout, cells: seq<CellRef>) {
    l == l0.(bridgeBlocks := l0.bridgeBlocks + Singletons(cells)) && CellsNew(cells, l0)
  }

  /** A lent bridge cell is a cell of the layout. */
  lemma BridgeCellListed(l: M.Layout, cell: CellRef)
    requires BridgeCell(l, cell)
    ensures cell in M.LayoutCells(l)
  {
    var x :| 0 <= x < |l.bridgeBlocks| && l.bridgeBlocks[x] == [cell];
    assert l.bridgeBlocks[x][0] == cell;
    assert cell in M.CellsOf(l.bridgeBlocks);
  }

  /** A cell new to the layout is none of the bridge cells lent in it. */
  lemma FreshNotLent(l: M.Layout, cells: seq<CellRef>, cell: CellRef)
    requires CellsLent(l, cells) && cell !in M.LayoutCells(l)
    ensures forall b | 0 <= b < |cells| :: cells[b] != cell
  {
    forall b | 0 <= b < |cells| ensures cells[b] != cell {
      BridgeCellListed(l, cells[b]);
    }
  }

  /** Lending bridges only adds bridge blocks. */
  lemma SinceGrows(l0: M.Layout, l: M.Layout, cells: seq<CellRef>)
    requires BridgesLentSince(l0, l, cells)
    ensures M.Grows(l0, l) && l.net == l0.net
  {
  }

  /** One more bridge over a cell new to the layout keeps the bridges lent
      since `l0` distinct and new. */
  lemma SinceSnoc(l0: M.Layout, l: M.Layout, l2: M.Layout, cells: seq<CellRef>, cell: CellRef)
    requires BridgesLentSince(l0, l, cells) && CellsLent(l, cells)
    requires l2 == l.(bridgeBlocks := l.bridgeBlocks + [[cell]]) && cell !in M.LayoutCells(l)
    ensures BridgesLentSince(l0, l2, cells + [cell])
  {
    M.GrowsKeepsCells(l0, l);
    FreshNotLent(l, cells, cell);
    var c2 := cells + [cell];
    assert Singletons(c2) == Singletons(cells) + [[cell]];
    assert l0.bridgeBlocks + Singletons(c2) == l0.bridgeBlocks + Singletons(cells) + [[cell]];
    assert NoRepeats(c2) by {
      forall a, b | 0 <= a < b < |c2| ensures c2[a] != c2[b] {
        if b < |cells| {
          assert c2[a] == cells[a] && c2[b] == cells[b];
        }
      }
    }
  }

  /** `fields[j][k]` is terminal k of view j of `bridge`: in `cell`, right
      after the terminals before it in its view. */
  predicate LentForBridge(fields: seq<seq<Accessor>>, bridge: Bridge, cell: CellRef) {
    && |fields| == |bridge|
    && forall j | 0 <= j < |bridge| ::
         && |fields[j]| == |bridge[j].portSizes|
         && forall k | 0 <= k < |fields[j]| ::
              fields[j][k] == WireBridge.Terminal(bridge[j].portSizes, k, cell) && fields[j][k].InBounds()
  }

  /** `lent[i]` holds the terminals of bridge i, all in `cells[i]`. */
  predicate LentFor(lent: seq<seq<seq<Accessor>>>, bridges: seq<Bridge>, cells: seq<CellRef>) {
    && |lent| == |bridges| && |cells| == |bridges|
    && forall i | 0 <= i < |bridges| :: LentForBridge(lent[i], bridges[i], cells[i])
  }

  /** `viewNames[j]` lists the terminal names of view j of `bridge`. */
  predicate NamedFor(viewNames: seq<seq<string>>, bridge: Bridge) {
    |viewNames| == |bridge| && forall j | 0 <= j < |bridge| :: viewNames[j] == ViewNames(bridge[j])
  }

  /** View `v` holds the terminals of a bridge over `cell`: its terminal
      names are the running-offset fields of its widths. */
  predicate ViewAt(m: map<string, Accessor>, v: BridgeView, cell: CellRef) {
    forall i | 0 <= i < |v.portSizes| ::
      ViewNames(v)[i] in m && m[ViewNames(v)[i]] == WireBridge.Terminal(v.portSizes, i, cell)
  }

  /** No later view of the bridge reuses the name of view j. */
  predicate LastView(bridge: Bridge, j: nat)
    requires j < |bridge|
  {
    forall j2 | j < j2 < |bridge| :: bridge[j2].name != bridge[j].name
  }

  /** Every view of `bridge` not named again later in it holds the
      terminals over `cell`. */
  predicate ViewsBound(m: map<string, Accessor>, bridge: Bridge, cell: CellRef) {
    forall j | 0 <= j < |bridge| && LastView(bridge, j) :: ViewAt(m, bridge[j], cell)
  }

  /** No view of `bridge` is named `name`. */
  predicate Unnamed(bridge: Bridge, name: string) {
    forall j | 0 <= j < |bridge| :: bridge[j].name != name
  }

  /** View j of bridge b is named again neither later in its bridge nor in a
      later bridge. */
  predicate LastViewIn(bridges: seq<Bridge>, b: nat, j: nat)
    requires b < |bridges| && j < |bridges[b]|
  {
    LastView(bridges[b], j) && forall b2 | b < b2 < |bridges| :: Unnamed(bridges[b2], bridges[b][j].name)
  }

  /** Every view of bridge b not named again later holds its terminals over
      `cell`. */
  predicate BridgeBound(m: map<string, Accessor>, bridges: seq<Bridge>, b: nat, cell: CellRef)
    requires b < |bridges|
  {
    forall j | 0 <= j < |bridges[b]| && LastViewIn(bridges, b, j) :: ViewAt(m, bridges[b][j], cell)
  }

  /** Every bridge's last-named views hold their terminals over the bridge's
      own cell in `cells`. */
  predicate BridgesBound(m: map<string, Accessor>, bridges: seq<Bridge>, cells: seq<CellRef>) {
    forall b | 0 <= b < |bridges| && b < |cells| :: BridgeBound(m, bridges, b, cells[b])
  }

  /** The bridges of a schematic sit over one lent bridge cell each. */
  ghost predicate BridgesWired(m: map<string, Accessor>, bridges: seq<Bridge>, l: M.Layout) {
    exists cells: seq<CellRef> | |cells| == |bridges| && CellsLent(l, cells) && NoRepeats(cells) ::
      BridgesBound(m, bridges, cells)
  }

  /** The bridges of a schematic sit over one bridge cell each, lent since
      `l0`, distinct and new. */
  ghost predicate BridgesNew(m: map<string, Accessor>, bridges: seq<Bridge>, l0: M.Layout, l: M.Layout) {
    exists cells: seq<CellRef> | |cells| == |bridges| && CellsLent(l, cells) && CellsNew(cells, l0) ::
      BridgesBound(m, bridges, cells)
  }

  /** Bridges new since `l0` are wired. */
  lemma BridgesNewWired(m: map<string, Accessor>, bridges: seq<Bridge>, cells: seq<CellRef>, l0: M.Layout, l: M.Layout)
    requires |cells| == |bridges| && CellsLent(l, cells) && CellsNew(cells, l0) && BridgesBound(m, bridges, cells)
    ensures BridgesNew(m, bridges, l0, l) && BridgesWired(m, bridges, l)
  {
  }

  /** Bridges new since `l1` are new since any earlier `l0`, and stay so as
      the layout grows. */
  lemma BridgesNewGrows(m: map<string, Accessor>, bridges: seq<Bridge>, l0: M.Layout, l1: M.Layout,
                        l2: M.Layout, l3: M.Layout)
    requires BridgesNew(m, bridges, l1, l2) && M.Grows(l0, l1) && M.Grows(l2, l3)
    ensures BridgesNew(m, bridges, l0, l3)
  {
    var cells :| |cells| == |bridges| && CellsLent(l2, cells) && CellsNew(cells, l1) && BridgesBound(m, bridges, cells);
    M.GrowsKeepsCells(l0, l1);
    assert CellsLent(l3, cells) by {
      forall b | 0 <= b < |cells| ensures BridgeCell(l3, cells[b]) {
        assert BridgeCell(l2, cells[b]);
        var x :| 0 <= x < |l2.bridgeBlocks| && l2.bridgeBlocks[x] == [cells[b]];
        assert l3.bridgeBlocks[x] == [cells[b]];
      }
    }
    assert CellsNew(cells, l0);
  }

  /** What is lent stays where it is, so wired bridges stay wired. */
  lemma BridgesWiredGrows(m: map<string, Accessor>, bridges: seq<Bridge>, l1: M.Layout, l2: M.Layout)
    requires BridgesWired(m, bridges, l1) && M.Grows(l1, l2)
    ensures BridgesWired(m, bridges, l2)
  {
    var cells :| |cells| == |bridges| && CellsLent(l1, cells) && NoRepeats(cells) && BridgesBound(m, bridges, cells);
    assert CellsLent(l2, cells) by {
      forall b | 0 <= b < |cells| ensures BridgeCell(l2, cells[b]) {
        assert BridgeCell(l1, cells[b]);
        var x :| 0 <= x < |l1.bridgeBlocks| && l1.bridgeBlocks[x] == [cells[b]];
        assert l2.bridgeBlocks[x] == [cells[b]];
      }
    }
  }

  /** Lends one bridge per declared bridge, all before naming any, then
      stores every terminal as `<view>_<i>`. A view that does not fit in a
      cell aborts with the bridges lent so far kept. */
  method AddBridges(mgr: M.Managers, bridges: seq<Bridge>, names: map<string, Accessor>)
    returns (r: Result<map<string, Accessor>>)
    requires mgr.Valid()
    requires forall k | k in names :: names[k].InBounds()
    modifies mgr.randomAccessDataBank, mgr.arena
    ensures mgr.Valid()
    ensures M.Grows(old(mgr.Current()), mgr.Current())
    ensures r.Ok? <==> BridgesFit(bridges)
    ensures r.Err? ==> r.error == OutOfBounds
    ensures r.Ok? ==> r.value.Keys == names.Keys + BridgeKeys(bridges)
    ensures r.Ok? ==> forall k | k in r.value :: r.value[k].InBounds()
    ensures r.Ok? ==> BridgesNew(r.value, bridges, old(mgr.Current()), mgr.Current())
    ensures r.Ok? ==> BridgesWired(r.value, bridges, mgr.Current())
    ensures r.Ok? ==> KeptOutside(r.value, names, BridgeKeys(bridges))
    ensures mgr.socketController.sockets == old(mgr.socketController.sockets)
  {
    var data, bridgeNames := GenerateWireBridgeData(bridges);
    ghost var l0 := mgr.Current();
    var lent, cells := LendBridges(mgr, bridges, data);
    SinceGrows(l0, mgr.Current(), cells);
    if lent.Err? {
      return Err(lent.error);
    }
    var m := NameLent(bridges, bridgeNames, lent.value, names, cells, l0, mgr.Current());
    return Ok(m);
  }

  /** Names the terminals of bridges lent over `cells` since `l0`. */
  method NameLent(bridges: seq<Bridge>, bridgeNames: seq<seq<seq<string>>>, lent: seq<seq<seq<Accessor>>>,
                  names: map<string, Accessor>, ghost cells: seq<CellRef>, ghost l0: M.Layout, ghost l: M.Layout)
    returns (m: map<string, Accessor>)
    requires LentFor(lent, bridges, cells) && CellsLent(l, cells) && CellsNew(cells, l0)
    requires |bridgeNames| == |bridges| && forall i | 0 <= i < |bridges| ::
      && |bridgeNames[i]| == |bridges[i]|
      && forall j | 0 <= j < |bridges[i]| :: bridgeNames[i][j] == ViewNames(bridges[i][j])
    requires forall k | k in names :: names[k].InBounds()
    ensures m.Keys == names.Keys + BridgeKeys(bridges)
    ensures forall k | k in m :: m[k].InBounds()
    ensures BridgesNew(m, bridges, l0, l) && BridgesWired(m, bridges, l)
    ensures KeptOutside(m, names, BridgeKeys(bridges))
  {
    assert forall i | 0 <= i < |bridges| :: NamedFor(bridgeNames[i], bridges[i]);
    m := NameBridges(bridges, bridgeNames, lent, names, cells);
    BridgesNewWired(m, bridges, cells, l0, l);
  }

  /** The lending loop of `lateGenerate`: one bridge per declared bridge,
      in order; the first that does not fit aborts. Bridge i sits over
      `cells[i]`, a cell of the bank's new blocks. */
  method LendBridges(mgr: M.Managers, bridges: seq<Bridge>, data: seq<seq<WireBridge.View>>)
    returns (r: Result<seq<seq<seq<Accessor>>>>, ghost cells: seq<CellRef>)
    requires mgr.Valid()
    requires |data| == |bridges| && forall i | 0 <= i < |bridges| :: data[i] == Sizes(bridges[i])
    modifies mgr.randomAccessDataBank, mgr.arena
    ensures mgr.Valid()
    ensures BridgesLentSince(old(mgr.Current()), mgr.Current(), cells)
    ensures r.Ok? <==> BridgesFit(bridges)
    ensures r.Err? ==> r.error == OutOfBounds
    ensures r.Ok? ==> LentFor(r.value, bridges, cells) && CellsLent(mgr.Current(), cells)
    ensures mgr.socketController.sockets == old(mgr.socketController.sockets)
  {
    var lent: seq<seq<seq<Accessor>>> := [];
    cells := [];
    ghost var l0 := mgr.Current();
    assert l0.bridgeBlocks + Singletons(cells) == l0.bridgeBlocks;
    for i := 0 to |data|
      invariant mgr.Valid()
      invariant BridgesLentTo(l0, mgr.Current(), bridges, data, lent, cells, i)
      invariant mgr.socketController.sockets == old(mgr.socketController.sockets)
    {
      ghost var before := mgr.Current();
      var a, cell := LendNextBridge(mgr, bridges[i], data[i], cells);
      if a.Err? {
        SinceSnoc(l0, before, mgr.Current(), cells, cell);
        return Err(a.error), cells + [cell];
      }
      LentToSnoc(l0, before, mgr.Current(), bridges, data, lent, cells, i, a.value, cell);
      lent, cells := lent + [a.value], cells + [cell];
    }
    assert bridges[..|bridges|] == bridges;
    return Ok(lent), cells;
  }

  /** Bridges 0..i-1 are lent since `l0`: `l` is `l0` with their cells
      added, distinct and new; each fit and holds its terminals in `lent`. */
  ghost predicate BridgesLentTo(l0: M.Layout, l: M.Layout, bridges: seq<Bridge>, data: seq<seq<WireBridge.View>>,
                                lent: seq<seq<seq<Accessor>>>, cells: seq<CellRef>, i: nat) {
    && i <= |bridges| && i <= |data|
    && BridgesLentSince(l0, l, cells) && CellsLent(l, cells)
    && (forall i2 | 0 <= i2 < i :: WireBridge.Fits(data[i2]))
    && LentFor(lent, bridges[..i], cells)
  }

  /** Lending bridge i over a new cell extends what is lent since `l0`. */
  lemma LentToSnoc(l0: M.Layout, l: M.Layout, l2: M.Layout, bridges: seq<Bridge>, data: seq<seq<WireBridge.View>>,
                   lent: seq<seq<seq<Accessor>>>, cells: seq<CellRef>, i: nat, a: seq<seq<Accessor>>, cell: CellRef)
    requires BridgesLentTo(l0, l, bridges, data, lent, cells, i) && i < |bridges| && i < |data|
    requires l2 == l.(bridgeBlocks := l.bridgeBlocks + [[cell]]) && cell !in M.LayoutCells(l)
    requires WireBridge.Fits(data[i]) && LentForBridge(a, bridges[i], cell)
    ensures BridgesLentTo(l0, l2, bridges, data, lent + [a], cells + [cell], i + 1)
  {
    SinceSnoc(l0, l, l2, cells, cell);
    CellsLentSnoc(l.bridgeBlocks, l2, cells, cell);
    assert bridges[..i + 1] == bridges[..i] + [bridges[i]];
  }

  /** Lends one bridge over a cell new to the layout, apart from the bridge
      cells `cells` lent before. */
  method LendNextBridge(mgr: M.Managers, bridge: Bridge, data: seq<WireBridge.View>, ghost cells: seq<CellRef>)
    returns (a: Result<seq<seq<Accessor>>>, ghost cell: CellRef)
    requires mgr.Valid()
    requires data == Sizes(bridge) && CellsLent(mgr.Current(), cells)
    modifies mgr.randomAccessDataBank, mgr.arena
    ensures mgr.Valid()
    ensures mgr.Current() == old(mgr.Current()).(bridgeBlocks := old(mgr.Current().bridgeBlocks) + [[cell]])
    ensures cell !in M.LayoutCells(old(mgr.Current()))
    ensures forall b | 0 <= b < |cells| :: cells[b] != cell
    ensures a.Ok? <==> WireBridge.Fits(data)
    ensures a.Err? ==> a.error == OutOfBounds
    ensures a.Ok? ==> LentForBridge(a.value, bridge, cell)
    ensures mgr.socketController.sockets == old(mgr.socketController.sockets)
  {
    ghost var l := mgr.Current();
    a, cell := mgr.LendBridge(data);
    FreshNotLent(l, cells, cell);
  }

  /** Lending one more bridge keeps the cells lent before. */
  lemma CellsLentSnoc(before: seq<seq<CellRef>>, l: M.Layout, cells: seq<CellRef>, cell: CellRef)
    requires l.bridgeBlocks == before + [[cell]]
    requires forall b | 0 <= b < |cells| :: [cells[b]] in before
    ensures CellsLent(l, cells + [cell])
  {
    forall b | 0 <= b < |cells| + 1 ensures BridgeCell(l, (cells + [cell])[b]) {
      if b < |cells| {
        var x :| 0 <= x < |before| && before[x] == [cells[b]];
        assert l.bridgeBlocks[x] == [cells[b]];
      } else {
        assert l.bridgeBlocks[|before|] == [cell];
      }
    }
  }

  /** Stores every lent bridge terminal under its name. */
  method NameBridges(bridges: seq<Bridge>, bridgeNames: seq<seq<seq<string>>>, lent: seq<seq<seq<Accessor>>>,
                     names: map<string, Accessor>, ghost cells: seq<CellRef>)
    returns (m: map<string, Accessor>)
    requires LentFor(lent, bridges, cells)
    requires |bridgeNames| == |bridges| && forall i | 0 <= i < |bridges| :: NamedFor(bridgeNames[i], bridges[i])
    requires forall k | k in names :: names[k].InBounds()
    ensures m.Keys == names.Keys + BridgeKeys(bridges)
    ensures forall k | k in m :: m[k].InBounds()
    ensures BridgesBound(m, bridges, cells)
    ensures KeptOutside(m, names, BridgeKeys(bridges))
  {
    m := names;
    for i := 0 to |lent|
      invariant m.Keys == names.Keys + BridgeKeys(bridges[..i])
      invariant forall k | k in m :: m[k].InBounds()
      invariant BridgesBound(m, bridges[..i], cells)
      invariant KeptOutside(m, names, BridgeKeys(bridges[..i]))
    {
      BridgeKeysSnoc(bridges, i);
      var m' := NameBridge(bridges[i], bridgeNames[i], lent[i], m, cells[i]);
      NameBridgeStep(m, m', bridges, i, cells);
      m := m';
    }
    assert bridges[..|bridges|] == bridges;
  }

  /** Naming bridge i keeps the views of earlier bridges that it does not
      name again. */
  lemma NameBridgeStep(m: map<string, Accessor>, m': map<string, Accessor>, bridges: seq<Bridge>, i: nat,
                       cells: seq<CellRef>)
    requires i < |bridges| && i < |cells|
    requires BridgesBound(m, bridges[..i], cells)
    requires ViewsBound(m', bridges[i], cells[i]) && KeptOutside(m', m, ViewKeys(bridges[i]))
    ensures BridgesBound(m', bridges[..i + 1], cells)
  {
    var pre, pre' := bridges[..i], bridges[..i + 1];
    forall b | 0 <= b < |pre'| && b < |cells|
      ensures BridgeBound(m', pre', b, cells[b])
    {
      forall j | 0 <= j < |pre'[b]| && LastViewIn(pre', b, j)
        ensures ViewAt(m', pre'[b][j], cells[b])
      {
        var v := pre'[b][j];
        if b < i {
          assert pre[b] == pre'[b];
          assert LastViewIn(pre, b, j) by {
            forall b2 | b < b2 < |pre| ensures Unnamed(pre[b2], v.name) { assert pre[b2] == pre'[b2]; }
          }
          assert BridgeBound(m, pre, b, cells[b]);
          assert Unnamed(pre'[i], v.name);
          forall k | 0 <= k < |v.portSizes| ensures ViewNames(v)[k] !in ViewKeys(bridges[i]) {
            ViewNotInViewKeys(bridges[i], v, k);
          }
        }
      }
    }
  }

  /** Stores the lent terminals of one bridge, view by view. */
  method NameBridge(bridge: Bridge, viewNames: seq<seq<string>>, fields: seq<seq<Accessor>>,
                    names: map<string, Accessor>, ghost cell: CellRef)
    returns (m: map<string, Accessor>)
    requires LentForBridge(fields, bridge, cell) && NamedFor(viewNames, bridge)
    requires forall k | k in names :: names[k].InBounds()
    ensures m.Keys == names.Keys + ViewKeys(bridge)
    ensures forall k | k in m :: m[k].InBounds()
    ensures ViewsBound(m, bridge, cell)
    ensures KeptOutside(m, names, ViewKeys(bridge))
  {
    m := names;
    for j := 0 to |fields|
      invariant m.Keys == names.Keys + ViewKeys(bridge[..j])
      invariant forall k | k in m :: m[k].InBounds()
      invariant ViewsBound(m, bridge[..j], cell)
      invariant KeptOutside(m, names, ViewKeys(bridge[..j]))
    {
      var m' := NameView(bridge[j], viewNames[j], fields[j], m);
      NamedView(names, m, m', bridge, fields, j, cell);
      m := m';
    }
    assert bridge[..|bridge|] == bridge;
  }

  /** Naming view j after the views before it: the names of views 0..j are
      added, the views not named again are bound, and nothing else moved. */
  lemma NamedView(names: map<string, Accessor>, m: map<string, Accessor>, m': map<string, Accessor>,
                  bridge: Bridge, fields: seq<seq<Accessor>>, j: nat, cell: CellRef)
    requires j < |bridge| && LentForBridge(fields, bridge, cell)
    requires m.Keys == names.Keys + ViewKeys(bridge[..j]) && ViewsBound(m, bridge[..j], cell)
    requires KeptOutside(m, names, ViewKeys(bridge[..j]))
    requires m'.Keys == m.Keys + FirstViewNames(bridge[j], |bridge[j].portSizes|)
    requires forall k | 0 <= k < |fields[j]| :: ViewNames(bridge[j])[k] in m' && m'[ViewNames(bridge[j])[k]] == fields[j][k]
    requires KeptOutside(m', m, FirstViewNames(bridge[j], |bridge[j].portSizes|))
    ensures m'.Keys == names.Keys + ViewKeys(bridge[..j + 1])
    ensures ViewsBound(m', bridge[..j + 1], cell)
    ensures KeptOutside(m', names, ViewKeys(bridge[..j + 1]))
  {
    ViewKeysSnoc(bridge, j);
    assert ViewAt(m', bridge[j], cell);
    NameViewStep(m, m', bridge, j, cell);
  }

  /** Naming view j keeps the earlier views of the bridge that it does not
      name again. */
  lemma NameViewStep(m: map<string, Accessor>, m': map<string, Accessor>, bridge: Bridge, j: nat, cell: CellRef)
    requires j < |bridge| && ViewsBound(m, bridge[..j], cell)
    requires ViewAt(m', bridge[j], cell)
    requires KeptOutside(m', m, FirstViewNames(bridge[j], |bridge[j].portSizes|))
    ensures ViewsBound(m', bridge[..j + 1], cell)
  {
    var pre, pre' := bridge[..j], bridge[..j + 1];
    forall j2 | 0 <= j2 < |pre'| && LastView(pre', j2)
      ensures ViewAt(m', pre'[j2], cell)
    {
      if j2 < j {
        var v := pre[j2];
        assert pre'[j2] == v && pre'[j] == bridge[j];
        assert LastView(pre, j2) by {
          forall j3 | j2 < j3 < |pre| ensures pre[j3].name != v.name { assert pre'[j3] == pre[j3]; }
        }
        forall k | 0 <= k < |v.portSizes|
          ensures ViewNames(v)[k] !in FirstViewNames(bridge[j], |bridge[j].portSizes|)
        {
          if ViewNames(v)[k] in FirstViewNames(bridge[j], |bridge[j].portSizes|) {
            var k' :| 0 <= k' < |bridge[j].portSizes| && ViewNames(bridge[j])[k'] == ViewNames(v)[k];
            ViewNameInjective(bridge[j].name, k', v.name, k);
          }
        }
      }
    }
  }

  lemma BridgeKeysSnoc(bridges: seq<Bridge>, i: nat)
    requires i < |bridges|
    ensures BridgeKeys(bridges[..i + 1]) == BridgeKeys(bridges[..i]) + ViewKeys(bridges[i])
  {
    assert bridges[..i + 1][..i] == bridges[..i];
  }

  lemma ViewKeysSnoc(bridge: Bridge, j: nat)
    requires j < |bridge|
    ensures ViewKeys(bridge[..j + 1]) == ViewKeys(bridge[..j]) + FirstViewNames(bridge[j], |bridge[j].portSizes|)
  {
    assert bridge[..j + 1][..j] == bridge[..j];
  }

  lemma FirstViewNamesStep(view: BridgeView, k: nat)
    requires k < |view.portSizes|
    ensures FirstViewNames(view, k + 1) == FirstViewNames(view, k) + {ViewNames(view)[k]}
  {
  }

  /** Stores one field under a name, keeping every stored field valid. */
  function StoreField(m: map<string, Accessor>, name: string, field: Accessor): (r: map<string, Accessor>)
    requires field.InBounds() && forall k | k in m :: m[k].InBounds()
    ensures r.Keys == m.Keys + {name} && r[name] == field
    ensures forall k | k in r :: r[k].InBounds()
  {
    m[name := field]
  }

  /** Stores the lent terminals of one view as `<view>_<i>`: terminal i under
      the i-th name, every other name kept. */
  method NameView(view: BridgeView, viewNames: seq<string>, fields: seq<Accessor>, names: map<string, Accessor>)
    returns (m: map<string, Accessor>)
    requires viewNames == ViewNames(view) && |fields| == |view.portSizes|
    requires forall k | 0 <= k < |fields| :: fields[k].InBounds()
    requires forall k | k in names :: names[k].InBounds()
    ensures m.Keys == names.Keys + FirstViewNames(view, |view.portSizes|)
    ensures forall k | 0 <= k < |fields| :: viewNames[k] in m && m[viewNames[k]] == fields[k]
    ensures KeptOutside(m, names, FirstViewNames(view, |view.portSizes|))
    ensures forall k | k in m :: m[k].InBounds()
  {
    m := names;
    for k := 0 to |fields|
      invariant m.Keys == names.Keys + FirstViewNames(view, k)
      invariant forall k2 | 0 <= k2 < k :: viewNames[k2] in m && m[viewNames[k2]] == fields[k2]
      invariant KeptOutside(m, names, FirstViewNames(view, k))
      invariant forall k | k in m :: m[k].InBounds()
    {
      FirstViewNamesStep(view, k);
      forall k2 | 0 <= k2 < k ensures viewNames[k2] != viewNames[k] {
        ViewNamesDistinct(view, k2, k);
      }
      m := StoreField(m, viewNames[k], fields[k]);
    }
  }

  // ---------------------------------------------------------------------
  // Connections

  /** Both ends of `c` are known and have one width. */
  predicate ConnectionOk(m: map<string, Accessor>, c: Connection) {
    c.from in m && c.to in m && m[c.from].width == m[c.to].width
  }

  /** Both ends of `c` are known but differ in width. */
  predicate Mismatch(m: map<string, Accessor>, c: Connection) {
    c.from in m && c.to in m && m[c.from].width != m[c.to].width
  }

  /** Some connection of `s` joins two known ports of different widths. */
  predicate Mismatched(m: map<string, Accessor>, s: SchematicData) {
    exists i | 0 <= i < |s.connections| :: Mismatch(m, s.connections[i])
  }

  /** Some connection of `s` names a port `m` does not know. */
  predicate Dangling(m: map<string, Accessor>, s: SchematicData) {
    exists i | 0 <= i < |s.connections| :: s.connections[i].from !in m || s.connections[i].to !in m
  }

  /** The sockets a list of sound connections registers, in order. */
  function SocketsFor(m: map<string, Accessor>, conns: seq<Connection>): (r: seq<Socket>)
    requires forall i | 0 <= i < |conns| :: conns[i].from in m && conns[i].to in m
    ensures |r| == |conns|
    ensures forall i | 0 <= i < |conns| :: r[i] == Socket(m[conns[i].from], m[conns[i].to])
  {
    if conns == [] then []
    else
      var c := conns[|conns| - 1];
      SocketsFor(m, conns[..|conns| - 1]) + [Socket(m[c.from], m[c.to])]
  }

  lemma SocketsForSnoc(m: map<string, Accessor>, conns: seq<Connection>, i: nat)
    requires i < |conns| && forall i2 | 0 <= i2 <= i :: conns[i2].from in m && conns[i2].to in m
    ensures SocketsFor(m, conns[..i + 1]) == SocketsFor(m, conns[..i]) + [Socket(m[conns[i].from], m[conns[i].to])]
  {
    assert conns[..i + 1][..i] == conns[..i];
  }

  /** Registers the socket of one connection: an unknown end fails with
      `PortNotFound` and registers nothing. */
  method AddConnection(sc: SocketController, c: Connection, m: map<string, Accessor>) returns (o: Outcome)
    requires sc.Valid()
    requires forall k | k in m :: m[k].InBounds()
    modifies sc
    ensures sc.Valid()
    ensures o.Pass? <==> ConnectionOk(m, c)
    ensures o.Fail? ==> (o.error == PortNotFound <==> !(c.from in m && c.to in m))
    ensures o.Fail? ==> o.error == PortNotFound || o.error == SocketSizeMismatch
    ensures sc.sockets == if o.Pass? then old(sc.sockets) + [Socket(m[c.from], m[c.to])] else old(sc.sockets)
  {
    if c.from !in m || c.to !in m {
      return Fail(PortNotFound);
    }
    o := sc.AddSocket(m[c.from], m[c.to]);
  }

  /** Registers one socket per connection, in order. An unknown end aborts
      with `PortNotFound`, a width mismatch with `SocketSizeMismatch`; the
      sockets registered before stay. */
  method AddConnections(sc: SocketController, conns: seq<Connection>, m: map<string, Accessor>)
    returns (o: Outcome)
    requires sc.Valid()
    requires forall k | k in m :: m[k].InBounds()
    modifies sc
    ensures sc.Valid()
    ensures old(sc.sockets) <= sc.sockets
    ensures o.Pass? <==> forall i | 0 <= i < |conns| :: ConnectionOk(m, conns[i])
    ensures o.Pass? ==> sc.sockets == old(sc.sockets) + SocketsFor(m, conns)
    ensures o.Fail? ==> o.error == PortNotFound || o.error == SocketSizeMismatch
    ensures o.Fail? && (forall i | 0 <= i < |conns| :: conns[i].from in m && conns[i].to in m) ==> o.error == SocketSizeMismatch
    ensures o.Fail? && (forall i | 0 <= i < |conns| :: conns[i].from in m && conns[i].to in m ==> ConnectionOk(m, conns[i]))
            ==> o.error == PortNotFound
  {
    for i := 0 to |conns|
      invariant sc.Valid()
      invariant forall i2 | 0 <= i2 < i :: ConnectionOk(m, conns[i2])
      invariant sc.sockets == old(sc.sockets) + SocketsFor(m, conns[..i])
    {
      o := AddConnection(sc, conns[i], m);
      if o.Fail? {
        return;
      }
      SocketsForSnoc(m, conns, i);
    }
    assert conns[..|conns|] == conns;
    return Pass;
  }

  /** The connections registered on the managers' socket controller:
      nothing but the sockets changes. */
  method Connect(mgr: M.Managers, conns: seq<Connection>, m: map<string, Accessor>) returns (o: Outcome)
    requires mgr.Valid()
    requires forall k | k in m :: m[k].InBounds()
    modifies mgr.socketController
    ensures mgr.Valid()
    ensures mgr.Current() == old(mgr.Current()).(net := old(mgr.Current().net).(sockets := mgr.socketController.sockets))
    ensures old(mgr.socketController.sockets) <= mgr.socketController.sockets
    ensures o.Pass? <==> forall i | 0 <= i < |conns| :: ConnectionOk(m, conns[i])
    ensures o.Pass? ==> mgr.socketController.sockets == old(mgr.socketController.sockets) + SocketsFor(m, conns)
    ensures o.Fail? ==> o.error == PortNotFound || o.error == SocketSizeMismatch
    ensures o.Fail? && (forall i | 0 <= i < |conns| :: conns[i].from in m && conns[i].to in m) ==> o.error == SocketSizeMismatch
    ensures o.Fail? && (forall i | 0 <= i < |conns| :: conns[i].from in m && conns[i].to in m ==> ConnectionOk(m, conns[i]))
            ==> o.error == PortNotFound
  {
    o := AddConnections(mgr.socketController, conns, m);
  }

  // ---------------------------------------------------------------------
  // Exposed ports

  /** The maps after the first n exposed ports have been copied: each such
      port is known, sits in `e` under its own name and in `pn` under
      `<instance>_<port>`, and every other entry is as it was. */
  predicate ExposedUpTo(ports: seq<string>, m: map<string, Accessor>, exposed: map<string, Accessor>,
                        parentNames: map<string, Accessor>, instanceName: string, n: nat,
                        e: map<string, Accessor>, pn: map<string, Accessor>)
    requires n <= |ports|
  {
    && e.Keys == exposed.Keys + PortSet(ports[..n])
    && pn.Keys == parentNames.Keys + ExportKeys(instanceName, ports[..n])
    && CopiedUpTo(ports, m, instanceName, n, e, pn)
    && KeptOutsidePorts(ports[..n], exposed, instanceName, parentNames, e, pn)
  }

  /** The first n ports are known and copied under both names. */
  predicate CopiedUpTo(ports: seq<string>, m: map<string, Accessor>, instanceName: string, n: nat,
                       e: map<string, Accessor>, pn: map<string, Accessor>)
    requires n <= |ports|
  {
    forall i | 0 <= i < n ::
      && ports[i] in m && ports[i] in e && instanceName + "_" + ports[i] in pn
      && e[ports[i]] == m[ports[i]] && pn[instanceName + "_" + ports[i]] == m[ports[i]]
  }

  /** Entries not named by the copied ports are as they were. */
  predicate KeptOutsidePorts(done: seq<string>, exposed: map<string, Accessor>, instanceName: string,
                             parentNames: map<string, Accessor>, e: map<string, Accessor>, pn: map<string, Accessor>)
  {
    && (forall k | k in exposed && k !in PortSet(done) :: k in e && e[k] == exposed[k])
    && (forall k | k in parentNames && k !in ExportKeys(instanceName, done) :: k in pn && pn[k] == parentNames[k])
  }

  lemma PortSetSnoc(ports: seq<string>, instanceName: string, n: nat)
    requires n < |ports|
    ensures PortSet(ports[..n + 1]) == PortSet(ports[..n]) + {ports[n]}
    ensures ExportKeys(instanceName, ports[..n + 1]) == ExportKeys(instanceName, ports[..n]) + {instanceName + "_" + ports[n]}
  {
    assert ports[..n + 1] == ports[..n] + [ports[n]];
  }

  lemma CopiedStep(ports: seq<string>, m: map<string, Accessor>, instanceName: string, n: nat,
                   e: map<string, Accessor>, pn: map<string, Accessor>)
    requires n < |ports| && ports[n] in m && CopiedUpTo(ports, m, instanceName, n, e, pn)
    ensures CopiedUpTo(ports, m, instanceName, n + 1,
                       e[ports[n] := m[ports[n]]], pn[instanceName + "_" + ports[n] := m[ports[n]]])
  {
    var p := ports[n];
    forall i | 0 <= i < n && instanceName + "_" + ports[i] == instanceName + "_" + p
      ensures ports[i] == p
    {
      SamePrefix(instanceName + "_", ports[i], p);
    }
  }

  lemma KeptStep(ports: seq<string>, m: map<string, Accessor>, exposed: map<string, Accessor>,
                 parentNames: map<string, Accessor>, instanceName: string, n: nat,
                 e: map<string, Accessor>, pn: map<string, Accessor>)
    requires n < |ports| && ports[n] in m
    requires KeptOutsidePorts(ports[..n], exposed, instanceName, parentNames, e, pn)
    ensures KeptOutsidePorts(ports[..n + 1], exposed, instanceName, parentNames,
                             e[ports[n] := m[ports[n]]], pn[instanceName + "_" + ports[n] := m[ports[n]]])
  {
    PortSetSnoc(ports, instanceName, n);
  }

  /** Copying one more known port extends the copied prefix by one. */
  lemma ExposeStep(ports: seq<string>, m: map<string, Accessor>, exposed: map<string, Accessor>,
                   parentNames: map<string, Accessor>, instanceName: string, n: nat,
                   e: map<string, Accessor>, pn: map<string, Accessor>)
    requires n < |ports| && ports[n] in m
    requires ExposedUpTo(ports, m, exposed, parentNames, instanceName, n, e, pn)
    ensures ExposedUpTo(ports, m, exposed, parentNames, instanceName, n + 1,
                        e[ports[n] := m[ports[n]]], pn[instanceName + "_" + ports[n] := m[ports[n]]])
  {
    PortSetSnoc(ports, instanceName, n);
    CopiedStep(ports, m, instanceName, n, e, pn);
    KeptStep(ports, m, exposed, parentNames, instanceName, n, e, pn);
  }

  /** Copies every exposed port's accessor into the instance's exposed-port
      map and, as `<instance>_<port>`, into the parent's name map. An unknown
      port aborts with `PortNotFound`, keeping the copies made so far. */
  method AddExposedPorts(ports: seq<string>, m: map<string, Accessor>, exposed: map<string, Accessor>,
                         parentNames: map<string, Accessor>, instanceName: string)
    returns (o: Outcome, exposed': map<string, Accessor>, parentNames': map<string, Accessor>)
    ensures o.Pass? <==> forall i | 0 <= i < |ports| :: ports[i] in m
    ensures o.Fail? ==> o.error == PortNotFound
    ensures o.Pass? ==> exposed'.Keys == exposed.Keys + PortSet(ports)
    ensures o.Pass? ==> parentNames'.Keys == parentNames.Keys + ExportKeys(instanceName, ports)
    ensures o.Pass? ==> forall i | 0 <= i < |ports| ::
      exposed'[ports[i]] == m[ports[i]] && parentNames'[instanceName + "_" + ports[i]] == m[ports[i]]
    ensures o.Pass? ==> forall k | k in exposed && k !in PortSet(ports) :: exposed'[k] == exposed[k]
    ensures o.Pass? ==> forall k | k in parentNames && k !in ExportKeys(instanceName, ports) ::
      parentNames'[k] == parentNames[k]
  {
    exposed', parentNames' := exposed, parentNames;
    assert ports[..0] == [];
    for i := 0 to |ports|
      invariant ExposedUpTo(ports, m, exposed, parentNames, instanceName, i, exposed', parentNames')
    {
      var p := ports[i];
      if p !in m {
        return Fail(PortNotFound), exposed', parentNames';
      }
      ExposeStep(ports, m, exposed, parentNames, instanceName, i, exposed', parentNames');
      exposed' := exposed'[p := m[p]];
      parentNames' := parentNames'[instanceName + "_" + p := m[p]];
    }
    assert ports[..|ports|] == ports;
    o := Pass;
  }

  // ---------------------------------------------------------------------
  // Populating one instance

  /** What populating instance `c` of `table` (child `n` of instance `p`)
      with schematic `s` leaves: `c` gains the names `s` defines and its
      exposed ports, `p` gains the re-exported ports, nothing else changes. */
  predicate Populated(table: seq<Circuit>, t: seq<Circuit>, s: SchematicData, c: nat, p: nat, n: string)
    requires c < |table| && p < |table|
  {
    && |t| == |table|
    && (forall h | 0 <= h < |table| && h != c && h != p :: t[h] == table[h])
    && t[c].subCircuits == table[c].subCircuits
    && t[c].names.Keys == table[c].names.Keys + LocalKeys(s)
    && t[c].exposedPorts.Keys == table[c].exposedPorts.Keys + PortSet(s.exposedPorts)
    && (forall i | 0 <= i < |s.exposedPorts| ::
          s.exposedPorts[i] in t[c].names && t[c].exposedPorts[s.exposedPorts[i]] == t[c].names[s.exposedPorts[i]])
    && t[p].subCircuits == table[p].subCircuits
    && t[p].exposedPorts == table[p].exposedPorts
    && t[p].names.Keys == table[p].names.Keys + ExportKeys(n, s.exposedPorts)
  }

  /** `Populated`, with every field in bounds and each exposed port's
      accessor re-exported under `<n>_<port>` in the parent. */
  predicate Generated(table: seq<Circuit>, t: seq<Circuit>, s: SchematicData, c: nat, p: nat, n: string)
    requires c < |table| && p < |table|
  {
    && Populated(table, t, s, c, p, n)
    && AllInBounds(t)
    && (forall i | 0 <= i < |s.exposedPorts| ::
          t[c].names[s.exposedPorts[i]] == t[p].names[n + "_" + s.exposedPorts[i]])
  }

  /** Writes back the maps of instance `c` and of its parent `p`. */
  function Store(table: seq<Circuit>, c: nat, p: nat, names: map<string, Accessor>, exposed: map<string, Accessor>,
                 parentNames: map<string, Accessor>): seq<Circuit>
    requires c < |table| && p < |table|
  {
    table[c := Circuit(table[c].subCircuits, names, exposed)]
         [p := Circuit(table[p].subCircuits, parentNames, table[p].exposedPorts)]
  }

  lemma StorePopulates(table: seq<Circuit>, s: SchematicData, c: nat, p: nat, n: string,
                       names: map<string, Accessor>, exposed: map<string, Accessor>, parentNames: map<string, Accessor>)
    requires c < |table| && p < |table| && c != p && AllInBounds(table)
    requires names.Keys == table[c].names.Keys + LocalKeys(s)
    requires forall k | k in names :: names[k].InBounds()
    requires forall i | 0 <= i < |s.exposedPorts| :: s.exposedPorts[i] in names
    requires exposed.Keys == table[c].exposedPorts.Keys + PortSet(s.exposedPorts)
    requires parentNames.Keys == table[p].names.Keys + ExportKeys(n, s.exposedPorts)
    requires forall i | 0 <= i < |s.exposedPorts| ::
      exposed[s.exposedPorts[i]] == names[s.exposedPorts[i]] && parentNames[n + "_" + s.exposedPorts[i]] == names[s.exposedPorts[i]]
    requires forall k | k in table[c].exposedPorts && k !in PortSet(s.exposedPorts) :: exposed[k] == table[c].exposedPorts[k]
    requires forall k | k in table[p].names && k !in ExportKeys(n, s.exposedPorts) :: parentNames[k] == table[p].names[k]
    ensures var t := Store(table, c, p, names, exposed, parentNames);
            && Generated(table, t, s, c, p, n) && t[c].names == names
  {
    var t := Store(table, c, p, names, exposed, parentNames);
    assert FieldsInBounds(table[c]) && FieldsInBounds(table[p]);
    forall k | k in exposed
      ensures exposed[k].InBounds()
    {
      if k !in table[c].exposedPorts {
        var i :| 0 <= i < |s.exposedPorts| && s.exposedPorts[i] == k;
      }
    }
    forall k | k in parentNames
      ensures parentNames[k].InBounds()
    {
      if k !in table[p].names {
        var i :| 0 <= i < |s.exposedPorts| && n + "_" + s.exposedPorts[i] == k;
      }
    }
    assert FieldsInBounds(t[c]) && FieldsInBounds(t[p]);
  }

  /** Every connection is a registered socket from the field its first end
      names to the field its second end names. */
  predicate Socketed(names: map<string, Accessor>, conns: seq<Connection>, l: M.Layout) {
    forall i | 0 <= i < |conns| ::
      conns[i].from in names && conns[i].to in names
      && Socket(names[conns[i].from], names[conns[i].to]) in l.net.sockets
  }

  /** Where the names of an instance of `s` point in what the managers lent:
      every gate not declared again later holds a gate of its kind's pool,
      lane by lane; every view not declared again later holds the
      running-offset fields of its bridge's own cell; every connection is a
      registered socket between the fields its ends name. */
  ghost predicate Wired(names: map<string, Accessor>, s: SchematicData, l: M.Layout) {
    && GatesBound(names, GateDecls(s), l)
    && GatesApart(names, GateDecls(s))
    && BridgesWired(names, s.wireBridges, l)
    && Socketed(names, s.connections, l)
  }

  /** What is lent stays where it is, so a wired instance stays wired. */
  lemma WiredGrows(names: map<string, Accessor>, s: SchematicData, l1: M.Layout, l2: M.Layout)
    requires Wired(names, s, l1) && M.Grows(l1, l2)
    ensures Wired(names, s, l2)
  {
    GatesBoundGrows(names, GateDecls(s), l1, l2);
    BridgesWiredGrows(names, s.wireBridges, l1, l2);
    forall i | 0 <= i < |s.connections|
      ensures Socket(names[s.connections[i].from], names[s.connections[i].to]) in l2.net.sockets
    {
      var c := s.connections[i];
      var x :| 0 <= x < |l1.net.sockets| && l1.net.sockets[x] == Socket(names[c.from], names[c.to]);
      assert l2.net.sockets[x] == l1.net.sockets[x];
    }
  }

  /** Registering the sockets of every connection makes each one a socket. */
  lemma SocketedAfter(names: map<string, Accessor>, conns: seq<Connection>, l: M.Layout, before: seq<Socket>)
    requires forall i | 0 <= i < |conns| :: conns[i].from in names && conns[i].to in names
    requires l.net.sockets == before + SocketsFor(names, conns)
    ensures Socketed(names, conns, l)
  {
    forall i | 0 <= i < |conns|
      ensures Socket(names[conns[i].from], names[conns[i].to]) in l.net.sockets
    {
      assert l.net.sockets[|before| + i] == SocketsFor(names, conns)[i];
    }
  }

  /** Lent terminals, then the connections' sockets registered after what
      was there before: the instance is wired. */
  lemma WiredAfter(names: map<string, Accessor>, s: SchematicData, l: M.Layout, l': M.Layout, before: seq<Socket>)
    requires GatesBound(names, GateDecls(s), l) && GatesApart(names, GateDecls(s))
    requires BridgesWired(names, s.wireBridges, l) && M.Grows(l, l')
    requires forall i | 0 <= i < |s.connections| :: s.connections[i].from in names && s.connections[i].to in names
    requires l'.net.sockets == before + SocketsFor(names, s.connections)
    ensures Wired(names, s, l')
  {
    GatesBoundGrows(names, GateDecls(s), l, l');
    BridgesWiredGrows(names, s.wireBridges, l, l');
    SocketedAfter(names, s.connections, l', before);
  }

  /** Every gate of `d` not declared again later is bound in `l`, shares no
      bit with another such gate of its kind, and shares no bit with what its
      kind's pool had lent in `l0`. */
  ghost predicate GatesOwn(names: map<string, Accessor>, d: seq<GateDecl>, l0: M.Layout, l: M.Layout) {
    GatesBound(names, d, l) && GatesApart(names, d) && GatesNew(names, d, l0)
  }

  /** No declaration of `d` is of `kind`. */
  predicate NoneOf(d: seq<GateDecl>, kind: GateKind) {
    forall x | 0 <= x < |d| :: d[x].kind != kind
  }

  /** The kinds come in turn: none of the gates lent before a kind is of
      that kind. */
  lemma KindOrder(s: SchematicData)
    ensures NoneOf(Decls(s.andGates, AndGate), NotGate)
    ensures NoneOf(Decls(s.andGates, AndGate) + Decls(s.notGates, NotGate), OrGate)
    ensures NoneOf(Decls(s.andGates, AndGate) + Decls(s.notGates, NotGate) + Decls(s.orGates, OrGate), XorGate)
  {
    var d1 := Decls(s.andGates, AndGate);
    var d2 := d1 + Decls(s.notGates, NotGate);
    var d3 := d2 + Decls(s.orGates, OrGate);
    forall x | 0 <= x < |d3| ensures d3[x].kind != XorGate {
      if x < |d2| {
        if x >= |d1| { assert d2[x] == Decls(s.notGates, NotGate)[x - |d1|]; }
      } else {
        assert d3[x] == Decls(s.orGates, OrGate)[x - |d2|];
      }
    }
    forall x | 0 <= x < |d2| ensures d2[x].kind != OrGate {
      if x >= |d1| { assert d2[x] == Decls(s.notGates, NotGate)[x - |d1|]; }
    }
  }

  /** The first kind's gates, added since `l0`, own their fields. */
  lemma GatesOwnFirst(r: map<string, Accessor>, gates: seq<string>, kind: GateKind, l0: M.Layout, l1: M.Layout)
    requires KindAdded(r, Decls(gates, kind), kind, l0, l1)
    ensures GatesOwn(r, Decls(gates, kind), l0, l1)
  {
  }

  /** Adding the gates of a kind not lent before, under names that keep the
      earlier gates' lanes, keeps every gate its own. */
  lemma GatesOwnThen(n1: map<string, Accessor>, r: map<string, Accessor>, d1: seq<GateDecl>,
                     gates: seq<string>, kind: GateKind, l0: M.Layout, l1: M.Layout, l2: M.Layout)
    requires GatesOwn(n1, d1, l0, l1) && NoneOf(d1, kind)
    requires KindAdded(r, Decls(gates, kind), kind, l1, l2) && KeptOutside(r, n1, GateKeys(gates, kind))
    requires M.Grows(l0, l1) && M.Grows(l1, l2)
    ensures GatesOwn(r, d1 + Decls(gates, kind), l0, l2)
  {
    GatesBoundThen(n1, r, d1, gates, kind, l1, l2);
    GatesApartThen(n1, r, d1, gates, kind);
    GatesNewThen(n1, r, d1, gates, kind, l0, l1);
  }

  /** Everything the instance holds was lent since `l0`: every gate its own
      fields, apart from the others of its kind and new, and every bridge its
      own new cell. */
  ghost predicate LentSince(names: map<string, Accessor>, s: SchematicData, l0: M.Layout, l: M.Layout) {
    GatesOwn(names, GateDecls(s), l0, l) && BridgesNew(names, s.wireBridges, l0, l)
  }

  /** Naming the bridges lent after the gates keeps the gates' fields; the
      instance then holds only what was lent since `l0`. */
  lemma LentSinceAfterBridges(m: map<string, Accessor>, r: map<string, Accessor>, s: SchematicData,
                              l0: M.Layout, l1: M.Layout, l2: M.Layout)
    requires GatesOwn(m, GateDecls(s), l0, l1) && KeptOutside(r, m, BridgeKeys(s.wireBridges))
    requires BridgesNew(r, s.wireBridges, l1, l2) && M.Grows(l0, l1) && M.Grows(l1, l2)
    ensures LentSince(r, s, l0, l2)
  {
    GatesBoundKeptByBridges(m, r, GateDecls(s), s.wireBridges, l1);
    GatesBoundGrows(r, GateDecls(s), l1, l2);
    GatesOwnKeptByBridges(m, r, GateDecls(s), s.wireBridges, l0);
    BridgesNewGrows(r, s.wireBridges, l0, l1, l2, l2);
  }

  /** What was lent since `l0` stays so as the layout grows. */
  lemma LentSinceGrows(names: map<string, Accessor>, s: SchematicData, l0: M.Layout, l1: M.Layout, l2: M.Layout)
    requires LentSince(names, s, l0, l1) && M.Grows(l1, l2)
    ensures LentSince(names, s, l0, l2)
  {
    GatesBoundGrows(names, GateDecls(s), l1, l2);
    BridgesNewGrows(names, s.wireBridges, l0, l0, l1, l2);
  }

  /** The lending half of `lateGenerate`: the gates of each kind in turn,
      then the bridges, with their terminals stored by name. */
  method LendTerminals(mgr: M.Managers, s: SchematicData, names: map<string, Accessor>)
    returns (r: Result<map<string, Accessor>>)
    requires mgr.Valid()
    requires forall k | k in names :: names[k].InBounds()
    modifies mgr.andGate.bank, mgr.notGate.bank, mgr.orGate.bank, mgr.xorGate.bank, mgr.arena,
             mgr.randomAccessDataBank
    ensures mgr.Valid()
    ensures M.Grows(old(mgr.Current()), mgr.Current())
    ensures r.Ok? <==> BridgesFit(s.wireBridges)
    ensures r.Err? ==> r.error == OutOfBounds
    ensures r.Ok? ==> r.value.Keys == names.Keys + LocalKeys(s)
    ensures r.Ok? ==> KeptOutside(r.value, names, LocalKeys(s))
    ensures r.Ok? ==> forall k | k in r.value :: r.value[k].InBounds()
    ensures r.Ok? ==> GatesBound(r.value, GateDecls(s), mgr.Current())
    ensures r.Ok? ==> BridgesWired(r.value, s.wireBridges, mgr.Current())
    ensures r.Ok? ==> LentSince(r.value, s, old(mgr.Current()), mgr.Current())
    ensures mgr.socketController.sockets == old(mgr.socketController.sockets)
  {
    ghost var l0 := mgr.Current();
    KindOrder(s);
    var m1 := AddGates(mgr, AndGate, s.andGates, names);
    ghost var l1 := mgr.Current();
    GatesOwnFirst(m1, s.andGates, AndGate, l0, l1);
    var m2 := AddGates(mgr, NotGate, s.notGates, m1);
    ghost var l2 := mgr.Current();
    GatesOwnThen(m1, m2, Decls(s.andGates, AndGate), s.notGates, NotGate, l0, l1, l2);
    M.GrowsTransitive(l0, l1, l2);
    var m3 := AddGates(mgr, OrGate, s.orGates, m2);
    ghost var l3 := mgr.Current();
    GatesOwnThen(m2, m3, Decls(s.andGates, AndGate) + Decls(s.notGates, NotGate), s.orGates, OrGate, l0, l2, l3);
    M.GrowsTransitive(l0, l2, l3);
    var m4 := AddGates(mgr, XorGate, s.xorGates, m3);
    ghost var l4 := mgr.Current();
    GatesOwnThen(m3, m4, Decls(s.andGates, AndGate) + Decls(s.notGates, NotGate) + Decls(s.orGates, OrGate),
                 s.xorGates, XorGate, l0, l3, l4);
    M.GrowsTransitive(l0, l3, l4);
    r := AddBridges(mgr, s.wireBridges, m4);
    M.GrowsTransitive(l0, l4, mgr.Current());
    if r.Ok? {
      LocalKeysInOrder(s, names.Keys, m1.Keys, m2.Keys, m3.Keys, m4.Keys, r.value.Keys);
      KeptInOrder(s, names, m1, m2, m3, m4, r.value);
      LentSinceAfterBridges(m4, r.value, s, l0, l4, mgr.Current());
    }
  }

  /** Adding the gate names kind by kind and then the bridge names adds the
      schematic's local names. */
  lemma LocalKeysInOrder(s: SchematicData, k0: set<string>, k1: set<string>, k2: set<string>,
                         k3: set<string>, k4: set<string>, k5: set<string>)
    requires k1 == k0 + GateKeys(s.andGates, AndGate) && k2 == k1 + GateKeys(s.notGates, NotGate)
    requires k3 == k2 + GateKeys(s.orGates, OrGate) && k4 == k3 + GateKeys(s.xorGates, XorGate)
    requires k5 == k4 + BridgeKeys(s.wireBridges)
    ensures k5 == k0 + LocalKeys(s)
  {
  }

  /** A name no step defines keeps its accessor through all of them. */
  lemma KeptInOrder(s: SchematicData, m0: map<string, Accessor>, m1: map<string, Accessor>, m2: map<string, Accessor>,
                    m3: map<string, Accessor>, m4: map<string, Accessor>, m5: map<string, Accessor>)
    requires KeptOutside(m1, m0, GateKeys(s.andGates, AndGate)) && KeptOutside(m2, m1, GateKeys(s.notGates, NotGate))
    requires KeptOutside(m3, m2, GateKeys(s.orGates, OrGate)) && KeptOutside(m4, m3, GateKeys(s.xorGates, XorGate))
    requires KeptOutside(m5, m4, BridgeKeys(s.wireBridges))
    ensures KeptOutside(m5, m0, LocalKeys(s))
  {
    forall k | k in m0 && k !in LocalKeys(s)
      ensures k in m5 && m5[k] == m0[k]
    {
      assert m1[k] == m0[k];
      assert m2[k] == m1[k];
      assert m3[k] == m2[k];
      assert m4[k] == m3[k];
    }
  }

  /** The heap half of `lateGenerate`: lends the terminals, then registers
      one socket per connection. */
  method Wire(mgr: M.Managers, s: SchematicData, names: map<string, Accessor>)
    returns (r: Result<map<string, Accessor>>, ghost lent: map<string, Accessor>)
    requires mgr.Valid()
    requires forall k | k in names :: names[k].InBounds()
    modifies mgr.andGate.bank, mgr.notGate.bank, mgr.orGate.bank, mgr.xorGate.bank, mgr.arena,
             mgr.randomAccessDataBank, mgr.socketController
    ensures mgr.Valid()
    ensures M.Grows(old(mgr.Current()), mgr.Current())
    ensures !BridgesFit(s.wireBridges) ==> r.Err? && r.error == OutOfBounds
    ensures r.Err? ==> r.error == OutOfBounds || r.error == PortNotFound || r.error == SocketSizeMismatch
    ensures r.Err? && BridgesFit(s.wireBridges)
            && (forall i | 0 <= i < |s.connections| ::
                  s.connections[i].from in names.Keys + LocalKeys(s) && s.connections[i].to in names.Keys + LocalKeys(s))
            ==> r.error == SocketSizeMismatch
    ensures r.Ok? ==> && BridgesFit(s.wireBridges)
                      && r.value.Keys == names.Keys + LocalKeys(s)
                      && (forall k | k in r.value :: r.value[k].InBounds())
                      && (forall i | 0 <= i < |s.connections| :: ConnectionOk(r.value, s.connections[i]))
    ensures r.Ok? ==> mgr.socketController.sockets
                      == old(mgr.socketController.sockets) + SocketsFor(r.value, s.connections)
    ensures r.Ok? ==> Wired(r.value, s, mgr.Current())
    ensures r.Ok? ==> LentSince(r.value, s, old(mgr.Current()), mgr.Current())
    ensures BridgesFit(s.wireBridges) ==> LentOver(lent, names, s, old(mgr.Current()), mgr.Current())
    ensures BridgesFit(s.wireBridges) ==> forall k | k in lent :: lent[k].InBounds()
    ensures r.Ok? <==> BridgesFit(s.wireBridges) && forall i | 0 <= i < |s.connections| :: ConnectionOk(lent, s.connections[i])
    ensures r.Ok? ==> r.value == lent
    ensures r.Err? && r.error == OutOfBounds ==> !BridgesFit(s.wireBridges)
    ensures r.Err? && r.error == PortNotFound ==> BridgesFit(s.wireBridges) && Dangling(lent, s)
    ensures r.Err? && r.error == SocketSizeMismatch ==> BridgesFit(s.wireBridges) && Mismatched(lent, s)
  {
    r := LendTerminals(mgr, s, names);
    if r.Err? {
      lent := names;
      return;
    }
    lent := r.value;
    ghost var l := mgr.Current();
    var o := Connect(mgr, s.connections, r.value);
    M.SocketsGrow(l, mgr.socketController.sockets);
    M.GrowsTransitive(old(mgr.Current()), l, mgr.Current());
    LentSinceGrows(r.value, s, old(mgr.Current()), l, mgr.Current());
    if o.Fail? {
      if o.error == SocketSizeMismatch {
        assert !forall i | 0 <= i < |s.connections| ::
          s.connections[i].from in lent && s.connections[i].to in lent ==> ConnectionOk(lent, s.connections[i]);
      }
      r := Err(o.error);
      return;
    }
    assert forall i | 0 <= i < |s.connections| :: s.connections[i].from in r.value && s.connections[i].to in r.value by {
      forall i | 0 <= i < |s.connections| ensures s.connections[i].from in r.value && s.connections[i].to in r.value {
        assert ConnectionOk(r.value, s.connections[i]);
      }
    }
    WiredAfter(r.value, s, l, mgr.Current(), old(mgr.socketController.sockets));
  }

  /** `lateGenerate`: lends the gates (AND, NOT, OR, XOR) and the bridges,
      registers the connections, then exposes the ports, here and in the
      parent as `<name in parent>_<port>`. A failure aborts; what was lent
      or registered before it stays. */
  method LateGenerate(mgr: M.Managers, s: SchematicData, table: seq<Circuit>, circuit: nat, parent: nat,
                      nameInParent: string)
    returns (r: Result<seq<Circuit>>, ghost lent: map<string, Accessor>)
    requires mgr.Valid()
    requires circuit < |table| && parent < |table| && circuit != parent
    requires AllInBounds(table)
    modifies mgr.andGate.bank, mgr.notGate.bank, mgr.orGate.bank, mgr.xorGate.bank, mgr.arena,
             mgr.randomAccessDataBank, mgr.socketController
    ensures mgr.Valid()
    ensures r.Ok? ==> BridgesFit(s.wireBridges) && Resolved(table[circuit].names.Keys + LocalKeys(s), s)
    ensures !BridgesFit(s.wireBridges) ==> r.Err? && r.error == OutOfBounds
    ensures r.Err? ==> r.error == OutOfBounds || r.error == PortNotFound || r.error == SocketSizeMismatch
    ensures r.Err? && BridgesFit(s.wireBridges) && Resolved(table[circuit].names.Keys + LocalKeys(s), s)
            ==> r.error == SocketSizeMismatch
    ensures r.Ok? ==> Generated(table, r.value, s, circuit, parent, nameInParent)
    ensures r.Ok? ==> mgr.socketController.sockets
                      == old(mgr.socketController.sockets) + SocketsFor(r.value[circuit].names, s.connections)
    ensures M.Grows(old(mgr.Current()), mgr.Current())
    ensures r.Ok? ==> Wired(r.value[circuit].names, s, mgr.Current())
    ensures r.Ok? ==> LentSince(r.value[circuit].names, s, old(mgr.Current()), mgr.Current())
    ensures BridgesFit(s.wireBridges) ==> LentOver(lent, table[circuit].names, s, old(mgr.Current()), mgr.Current())
    ensures r.Ok? <==> Generates(lent, s)
    ensures r.Ok? ==> r.value[circuit].names == lent
    ensures r.Err? ==> FailsWith(r.error, lent, s)
  {
    var w;
    w, lent := Wire(mgr, s, table[circuit].names);
    if w.Err? {
      assert !Generates(lent, s);
      r := Err(w.error);
      return;
    }
    var names := w.value;
    var o, exposed, parentNames :=
      AddExposedPorts(s.exposedPorts, names, table[circuit].exposedPorts, table[parent].names, nameInParent);
    if o.Fail? {
      assert !Resolved(names.Keys, s);
      assert !Generates(names, s);
      r := Err(o.error);
      return;
    }
    assert Resolved(names.Keys, s);
    assert Generates(names, s);
    StorePopulates(table, s, circuit, parent, nameInParent, names, exposed, parentNames);
    r := Ok(Store(table, circuit, parent, names, exposed, parentNames));
  }

  /** What the names after lending must hold for `lateGenerate` to succeed:
      the bridges fit, every connection joins two known ports of one width
      and every exposed port is known. */
  predicate Generates(m: map<string, Accessor>, s: SchematicData) {
    && BridgesFit(s.wireBridges)
    && (forall i | 0 <= i < |s.connections| :: ConnectionOk(m, s.connections[i]))
    && (forall i | 0 <= i < |s.exposedPorts| :: s.exposedPorts[i] in m)
  }

  /** The failure `e` of `lateGenerate` on `s`, told by `lent`, the names
      after lending: a bridge that does not fit, a port it does not know, or
      a connection whose two known ends differ in width. */
  predicate FailsWith(e: Error, lent: map<string, Accessor>, s: SchematicData) {
    match e
    case OutOfBounds => !BridgesFit(s.wireBridges)
    case PortNotFound => BridgesFit(s.wireBridges) && !Resolved(lent.Keys, s)
    case SocketSizeMismatch => BridgesFit(s.wireBridges) && Mismatched(lent, s)
    case _ => false
  }

  /** The instance of `t` failed with `e`, told by `lent`, its names after
      lending: when the bridges fit, `lent` holds every name of `t` and
      its gates and bridges are lent in `l`. */
  ghost predicate Failed(e: Error, lent: map<string, Accessor>, t: SchematicData, l: M.Layout) {
    && FailsWith(e, lent, t)
    && (BridgesFit(t.wireBridges) ==> lent.Keys == Keys(t) && Lent(lent, t, l))
  }

  /** A failure leaves names that do not generate; one other than a size
      mismatch means the schematic fails its own checks. */
  lemma FailedTells(e: Error, lent: map<string, Accessor>, t: SchematicData, l: M.Layout)
    requires Failed(e, lent, t, l)
    ensures !Generates(lent, t)
    ensures e != SocketSizeMismatch ==> !LocalResolves(t)
  {
    if e == SocketSizeMismatch {
      var i :| 0 <= i < |t.connections| && Mismatch(lent, t.connections[i]);
      assert !ConnectionOk(lent, t.connections[i]);
    }
  }

  /** A failure of `lateGenerate` on the next instance, whose names after
      lending hold every name of `t` lent since `l0`, is a failure of `t`. */
  lemma FailedFrom(e: Error, lent: map<string, Accessor>, names: map<string, Accessor>, t: SchematicData,
                   l0: M.Layout, l: M.Layout)
    requires FailsWith(e, lent, t)
    requires BridgesFit(t.wireBridges) ==> lent.Keys == Keys(t) && LentOver(lent, names, t, l0, l)
    ensures Failed(e, lent, t, l)
  {
    if BridgesFit(t.wireBridges) {
      LentSinceLent(lent, t, l0, l);
    }
  }

  /** `lent` is `names` with the local names of `s` added, over gates and
      bridge cells lent between `l0` and `l`. */
  ghost predicate LentOver(lent: map<string, Accessor>, names: map<string, Accessor>, s: SchematicData,
                           l0: M.Layout, l: M.Layout)
  {
    && lent.Keys == names.Keys + LocalKeys(s)
    && KeptOutside(lent, names, LocalKeys(s))
    && LentSince(lent, s, l0, l)
  }

  /** An instance's names hold its gates, each apart from the others of its
      kind, and its bridges over distinct cells, all lent in `l`. */
  ghost predicate Lent(names: map<string, Accessor>, s: SchematicData, l: M.Layout) {
    GatesBound(names, GateDecls(s), l) && GatesApart(names, GateDecls(s)) && BridgesWired(names, s.wireBridges, l)
  }

  /** What was lent since some layout is lent. */
  lemma LentSinceLent(names: map<string, Accessor>, s: SchematicData, l0: M.Layout, l: M.Layout)
    requires LentSince(names, s, l0, l)
    ensures Lent(names, s, l)
  {
    var cells: seq<CellRef> :| |cells| == |s.wireBridges| && CellsLent(l, cells) && CellsNew(cells, l0)
                               && BridgesBound(names, s.wireBridges, cells);
    BridgesNewWired(names, s.wireBridges, cells, l0, l);
  }
}

=== FILE: schematic.dfy ===
/** The building instructions of a circuit: declared gates, wire bridges,
    sub-circuits, connections and exposed ports, all by name. A schematic
    holds no storage; `Build` (in module Instantiate) turns one into instances. */
module Schematic {
  import opened Storage
  import opened Names
  import opened Gates
  import WireBridge

  /** A named port view: the widths of its terminals, in order. */
  datatype BridgeView = BridgeView(name: string, portSizes: seq<nat>)

  /** A wire bridge: unnamed, a list of views over one bus. */
  type Bridge = seq<BridgeView>

  /** A declared connection, from one port name to another. */
  datatype Connection = Connection(from: string, to: string)

  /** A declared sub-circuit: its instance name and the schematic it builds. */
  datatype SubCircuit = SubCircuit(name: string, schematic: SchematicData)

  /** The declarations of a schematic, as a value. */
  datatype SchematicData = SchematicData(
    name: string,
    andGates: seq<string>,
    notGates: seq<string>,
    orGates: seq<string>,
    xorGates: seq<string>,
    wireBridges: seq<Bridge>,
    subCircuits: seq<SubCircuit>,
    connections: seq<Connection>,
    exposedPorts: seq<string>)

  // ---------------------------------------------------------------------
  // Names below a schematic

  /** The schematic names of every sub-circuit, at any depth. */
  function NamesBelow(subs: seq<SubCircuit>): set<string>
    decreases subs
  {
    if subs == [] then {}
    else
      var last := subs[|subs| - 1];
      NamesBelow(subs[..|subs| - 1]) + {last.schematic.name} + NamesBelow(last.schematic.subCircuits)
  }

  /** Appending a sub-circuit adds its name and the names below it. */
  lemma NamesBelowAppend(subs: seq<SubCircuit>, sub: SubCircuit)
    ensures NamesBelow(subs + [sub]) == NamesBelow(subs) + {sub.schematic.name} + NamesBelow(sub.schematic.subCircuits)
  {
    assert (subs + [sub])[..|subs|] == subs;
  }

  // ---------------------------------------------------------------------
  // The port names an instance defines

  /** The names of one gate's terminals: `_a`, `_b` (and `_c`). */
  function TerminalKeys(g: string, kind: GateKind): set<string> {
    if kind == NotGate then {g + "_a", g + "_b"} else {g + "_a", g + "_b", g + "_c"}
  }

  /** A gate's terminal names are as many as its lanes. */
  lemma TerminalKeysCount(g: string, kind: GateKind)
    ensures |TerminalKeys(g, kind)| == Arity(kind)
  {
    var a, b, c := g + "_a", g + "_b", g + "_c";
    assert a[|g| + 1] == 'a' && b[|g| + 1] == 'b' && c[|g| + 1] == 'c';
  }

  /** The name of lane `lane` of gate `g`: `_a`, `_b`, then `_c`. */
  function Lane(g: string, lane: nat): (x: string)
    requires lane < 3
    ensures |x| == |g| + 2 && x[..|g|] == g && x[|g|] == '_'
    ensures x[|g| + 1] == (if lane == 0 then 'a' else if lane == 1 then 'b' else 'c')
  {
    if lane == 0 then g + "_a" else if lane == 1 then g + "_b" else g + "_c"
  }

  /** A gate's terminal names are the names of its lanes. */
  lemma TerminalKeysAreLanes(g: string, kind: GateKind)
    ensures forall lane | 0 <= lane < Arity(kind) :: Lane(g, lane) in TerminalKeys(g, kind)
    ensures forall x | x in TerminalKeys(g, kind) :: exists lane | 0 <= lane < Arity(kind) :: x == Lane(g, lane)
  {
    assert Lane(g, 0) == g + "_a" && Lane(g, 1) == g + "_b" && Lane(g, 2) == g + "_c";
  }

  /** A lane name tells its gate and its lane. */
  lemma LaneInjective(g1: string, lane1: nat, g2: string, lane2: nat)
    requires lane1 < 3 && lane2 < 3 && Lane(g1, lane1) == Lane(g2, lane2)
    ensures g1 == g2 && lane1 == lane2
  {
    var x := Lane(g1, lane1);
    assert g1 == x[..|g1|] && g2 == x[..|g2|];
  }

  /** A lane name ends in a letter, a bridge terminal's name in a digit: a
      gate terminal and a bridge terminal never share a name. */
  lemma LaneIsNoViewName(g: string, lane: nat, v: string, i: nat)
    requires lane < 3
    ensures Lane(g, lane) != v + "_" + NatToString(i)
  {
    var d := NatToString(i);
    var x := v + "_" + d;
    assert x[|x| - 1] == d[|d| - 1];
  }

  /** The character at position i of `v + "_" + d`, past `v`. */
  lemma JoinedAt(v: string, d: string, i: nat)
    ensures i == |v| ==> (v + "_" + d)[i] == '_'
    ensures |v| < i < |v| + 1 + |d| ==> (v + "_" + d)[i] == d[i - |v| - 1]
  {
  }

  /** A bridge terminal's name tells its view and its index: the index is the
      digits after the last `_`. */
  lemma ViewNameInjective(v1: string, i1: nat, v2: string, i2: nat)
    requires v1 + "_" + NatToString(i1) == v2 + "_" + NatToString(i2)
    ensures v1 == v2 && i1 == i2
  {
    var d1, d2 := NatToString(i1), NatToString(i2);
    var x := v1 + "_" + d1;
    if |v1| < |v2| {
      JoinedAt(v1, d1, |v2|);
      assert false;
    } else if |v2| < |v1| {
      JoinedAt(v2, d2, |v1|);
      assert false;
    }
    assert v1 == x[..|v1|] && v2 == x[..|v2|];
    SamePrefix(v1 + "_", d1, d2);
    NatToStringInjective(i1, i2);
  }

  /** The lanes of a gate declared under no name of `gates` are no terminal
      name of theirs. */
  lemma {:induction false} LaneNotInGateKeys(gates: seq<string>, kind: GateKind, g: string, lane: nat)
    requires lane < 3 && forall j | 0 <= j < |gates| :: gates[j] != g
    ensures Lane(g, lane) !in GateKeys(gates, kind)
    decreases |gates|
  {
    if gates != [] {
      var last := gates[|gates| - 1];
      LaneNotInGateKeys(gates[..|gates| - 1], kind, g, lane);
    }
  }

  /** No lane name is the name of a bridge terminal. */
  lemma {:induction false} LaneNotInViewKeys(bridge: Bridge, g: string, lane: nat)
    requires lane < 3
    ensures Lane(g, lane) !in ViewKeys(bridge)
    decreases |bridge|
  {
    if bridge != [] {
      var v := bridge[|bridge| - 1];
      LaneNotInViewKeys(bridge[..|bridge| - 1], g, lane);
      forall i | 0 <= i < |v.portSizes|
        ensures ViewNames(v)[i] != Lane(g, lane)
      {
        LaneIsNoViewName(g, lane, v.name, i);
      }
    }
  }

  /** No lane name is the name of a terminal of any bridge. */
  lemma {:induction false} LaneNotInBridgeKeys(bridges: seq<Bridge>, g: string, lane: nat)
    requires lane < 3
    ensures Lane(g, lane) !in BridgeKeys(bridges)
    decreases |bridges|
  {
    if bridges != [] {
      LaneNotInBridgeKeys(bridges[..|bridges| - 1], g, lane);
      LaneNotInViewKeys(bridges[|bridges| - 1], g, lane);
    }
  }

  /** The terminal names of a view are no terminal name of a bridge whose
      views are all named otherwise. */
  lemma {:induction false} ViewNotInViewKeys(bridge: Bridge, v: BridgeView, i: nat)
    requires i < |v.portSizes| && forall j | 0 <= j < |bridge| :: bridge[j].name != v.name
    ensures ViewNames(v)[i] !in ViewKeys(bridge)
    decreases |bridge|
  {
    if bridge != [] {
      var last := bridge[|bridge| - 1];
      ViewNotInViewKeys(bridge[..|bridge| - 1], v, i);
      forall i' | 0 <= i' < |last.portSizes|
        ensures ViewNames(last)[i'] != ViewNames(v)[i]
      {
        if ViewNames(last)[i'] == ViewNames(v)[i] {
          ViewNameInjective(last.name, i', v.name, i);
        }
      }
    }
  }

  /** The terminal names of every gate of one kind. */
  function GateKeys(gates: seq<string>, kind: GateKind): set<string> {
    if gates == [] then {}
    else GateKeys(gates[..|gates| - 1], kind) + TerminalKeys(gates[|gates| - 1], kind)
  }

  /** The names of a view's terminals: the view name, `_` and the index. */
  function ViewNames(v: BridgeView): seq<string> {
    seq(|v.portSizes|, i requires 0 <= i < |v.portSizes| => v.name + "_" + NatToString(i))
  }

  /** The terminals of a view have different names. */
  lemma ViewNamesDistinct(v: BridgeView, i: nat, j: nat)
    requires i < |v.portSizes| && j < |v.portSizes|
    ensures ViewNames(v)[i] == ViewNames(v)[j] <==> i == j
  {
    if ViewNames(v)[i] == ViewNames(v)[j] {
      SamePrefix(v.name + "_", NatToString(i), NatToString(j));
      NatToStringInjective(i, j);
    }
  }

  /** The names of every terminal of every view of a bridge. */
  function ViewKeys(b: Bridge): set<string> {
    if b == [] then {}
    else
      var v := b[|b| - 1];
      ViewKeys(b[..|b| - 1]) + FirstViewNames(v, |v.portSizes|)
  }

  /** The names of the first `k` terminals of a view. */
  function FirstViewNames(v: BridgeView, k: nat): set<string>
    requires k <= |v.portSizes|
  {
    set i | 0 <= i < k :: ViewNames(v)[i]
  }

  /** The names of the terminals of every bridge. */
  function BridgeKeys(bridges: seq<Bridge>): set<string> {
    if bridges == [] then {}
    else BridgeKeys(bridges[..|bridges| - 1]) + ViewKeys(bridges[|bridges| - 1])
  }

  /** The names an instance defines itself: gate terminals and bridge
      terminals. */
  function LocalKeys(s: SchematicData): set<string> {
    GateKeys(s.andGates, AndGate) + GateKeys(s.notGates, NotGate)
    + GateKeys(s.orGates, OrGate) + GateKeys(s.xorGates, XorGate)
    + BridgeKeys(s.wireBridges)
  }

  /** The names a sub-circuit instance re-exports into its parent. */
  function ExportKeys(instanceName: string, ports: seq<string>): set<string> {
    set i | 0 <= i < |ports| :: instanceName + "_" + ports[i]
  }

  /** The names every declared sub-circuit re-exports. */
  function ChildExports(subs: seq<SubCircuit>): set<string> {
    if subs == [] then {}
    else ExportKeys(subs[0].name, subs[0].schematic.exposedPorts) + ChildExports(subs[1..])
  }

  /** Every name an instance of `s` holds once built. */
  function Keys(s: SchematicData): set<string> {
    ChildExports(s.subCircuits) + LocalKeys(s)
  }

  // ---------------------------------------------------------------------
  // What makes a schematic buildable

  /** The terminal widths of every view of a bridge. */
  function Sizes(b: Bridge): seq<WireBridge.View> {
    seq(|b|, j requires 0 <= j < |b| => b[j].portSizes)
  }

  /** Every view of every bridge fits in one cell. */
  predicate BridgesFit(bridges: seq<Bridge>) {
    forall i | 0 <= i < |bridges| :: WireBridge.Fits(Sizes(bridges[i]))
  }

  /** Every connection end and every exposed port names a known port. */
  predicate Resolved(keys: set<string>, s: SchematicData) {
    && (forall i | 0 <= i < |s.connections| :: s.connections[i].from in keys && s.connections[i].to in keys)
    && (forall i | 0 <= i < |s.exposedPorts| :: s.exposedPorts[i] in keys)
  }

  /** The instance of `s` passes its own checks. */
  predicate LocalResolves(s: SchematicData) {
    BridgesFit(s.wireBridges) && Resolved(Keys(s), s)
  }

  /** Every instance in the tree of `s` passes its own checks. */
  predicate Resolves(s: SchematicData)
    decreases s
  {
    LocalResolves(s) && forall i | 0 <= i < |s.subCircuits| :: Resolves(s.subCircuits[i].schematic)
  }

  /** `t` is `s` or a schematic some sub-circuit of `s` uses, at any depth. */
  predicate Within(t: SchematicData, s: SchematicData)
    decreases s
  {
    t == s || exists i | 0 <= i < |s.subCircuits| :: Within(t, s.subCircuits[i].schematic)
  }

  /** A sub-circuit of a schematic within `s` is within `s`. */
  lemma {:induction false} WithinChild(t: SchematicData, s: SchematicData, i: nat)
    requires Within(t, s) && i < |t.subCircuits|
    ensures Within(t.subCircuits[i].schematic, s)
    decreases s
  {
    if t == s {
      assert Within(t.subCircuits[i].schematic, s.subCircuits[i].schematic);
    } else {
      var j :| 0 <= j < |s.subCircuits| && Within(t, s.subCircuits[j].schematic);
      WithinChild(t, s.subCircuits[j].schematic, i);
    }
  }

  /** Every schematic within a buildable one passes its own checks. */
  lemma {:induction false} ResolvesWithin(t: SchematicData, s: SchematicData)
    requires Resolves(s) && Within(t, s)
    ensures LocalResolves(t)
    decreases s
  {
    if t != s {
      var j :| 0 <= j < |s.subCircuits| && Within(t, s.subCircuits[j].schematic);
      ResolvesWithin(t, s.subCircuits[j].schematic);
    }
  }

  // ---------------------------------------------------------------------
  // Instance count

  /** The number of instances a list of sub-circuits builds, at any depth. */
  function SubsSize(subs: seq<SubCircuit>): nat
    decreases subs
  {
    if subs == [] then 0
    else SubsSize(subs[..|subs| - 1]) + 1 + SubsSize(subs[|subs| - 1].schematic.subCircuits)
  }

  // ---------------------------------------------------------------------
  // The schematic builder

  /** `CircuitSchematic`: declarations are appended; nothing is checked until
      `Build`, except the dependency check of `AddSubCircuit`. A sub-circuit
      is recorded as the value the child schematic has when it is added. */
  class CircuitSchematic {
    const name: string
    var andGates: seq<string>
    var notGates: seq<string>
    var orGates: seq<string>
    var xorGates: seq<string>
    var wireBridges: seq<Bridge>
    var subCircuits: seq<SubCircuit>
    var connections: seq<Connection>
    var exposedPorts: seq<string>
    /** The names of every schematic below this one. */
    var dependencies: set<string>

    /** The dependency set is exactly the names below. */
    ghost predicate Valid()
      reads this
    {
      dependencies == NamesBelow(subCircuits)
    }

    /** The declarations, as a value. */
    function Data(): (d: SchematicData)
      reads this
      ensures d.name == name && d.subCircuits == subCircuits
    {
      SchematicData(name, andGates, notGates, orGates, xorGates, wireBridges,
                    subCircuits, connections, exposedPorts)
    }

    /** `create`: a schematic with the given name and no declarations. */
    constructor Create(name: string)
      ensures Valid() && this.name == name && dependencies == {}
      ensures Data() == SchematicData(name, [], [], [], [], [], [], [], [])
    {
      this.name := name;
      andGates, notGates, orGates, xorGates := [], [], [], [];
      wireBridges, subCircuits, connections, exposedPorts := [], [], [], [];
      dependencies := {};
    }

    method AddAndGate(g: string)
      requires Valid()
      modifies this
      ensures Valid() && dependencies == old(dependencies)
      ensures Data() == old(Data()).(andGates := old(andGates) + [g])
    {
      andGates := andGates + [g];
    }

    method AddNotGate(g: string)
      requires Valid()
      modifies this
      ensures Valid() && dependencies == old(dependencies)
      ensures Data() == old(Data()).(notGates := old(notGates) + [g])
    {
      notGates := notGates + [g];
    }

    method AddOrGate(g: string)
      requires Valid()
      modifies this
      ensures Valid() && dependencies == old(dependencies)
      ensures Data() == old(Data()).(orGates := old(orGates) + [g])
    {
      orGates := orGates + [g];
    }

    method AddXorGate(g: string)
      requires Valid()
      modifies this
      ensures Valid() && dependencies == old(dependencies)
      ensures Data() == old(Data()).(xorGates := old(xorGates) + [g])
    {
      xorGates := xorGates + [g];
    }

    method AddWireBridge(b: Bridge)
      requires Valid()
      modifies this
      ensures Valid() && dependencies == old(dependencies)
      ensures Data() == old(Data()).(wireBridges := old(wireBridges) + [b])
    {
      wireBridges := wireBridges + [b];
    }

    method AddConnection(from: string, to: string)
      requires Valid()
      modifies this
      ensures Valid() && dependencies == old(dependencies)
      ensures Data() == old(Data()).(connections := old(connections) + [Connection(from, to)])
    {
      connections := connections + [Connection(from, to)];
    }

    method AddExposedPort(port: string)
      requires Valid()
      modifies this
      ensures Valid() && dependencies == old(dependencies)
      ensures Data() == old(Data()).(exposedPorts := old(exposedPorts) + [port])
    {
      exposedPorts := exposedPorts + [port];
    }

    /** The copy loop of `addSubCircuit`: inserts the given names into the
        dependency set one at a time. */
    method InsertAll(names: set<string>)
      modifies this
      ensures dependencies == old(dependencies) + names
      ensures Data() == old(Data())
    {
      var rest := names;
      while rest != {}
        invariant rest <= names
        invariant dependencies == old(dependencies) + (names - rest)
        invariant Data() == old(Data())
        decreases rest
      {
        var d :| d in rest;
        dependencies := dependencies + {d};
        rest := rest - {d};
      }
    }

    /** `addSubCircuit`: refuses the schematic itself and a child that has
        this schematic's name among its dependencies; otherwise records the
        child's name and dependencies and appends the child. */
    method AddSubCircuit(instanceName: string, child: CircuitSchematic) returns (o: Outcome)
      requires Valid() && child.Valid()
      modifies this
      ensures Valid()
      ensures o.Fail? <==> !Accepts(name, child == this, old(child.dependencies))
      ensures child == this ==> o.Fail?
      ensures child != this && name !in old(child.dependencies) ==> o.Pass?
      ensures o.Fail? ==> o.error == CircularDependency && Data() == old(Data())
                          && dependencies == old(dependencies)
      ensures o.Pass? ==> dependencies == old(dependencies) + {child.name} + old(child.dependencies)
      ensures o.Pass? ==> Data() == old(Data()).(subCircuits := old(subCircuits) + [SubCircuit(instanceName, old(child.Data()))])
    {
      if !Accepts(name, child == this, child.dependencies) {
        return Fail(CircularDependency);
      }
      var childData := child.Data();
      dependencies := dependencies + {child.name};
      InsertAll(child.dependencies);
      subCircuits := subCircuits + [SubCircuit(instanceName, childData)];
      NamesBelowAppend(old(subCircuits), SubCircuit(instanceName, childData));
      return Pass;
    }
  }

  /** The dependency check as corrected: the child must not be the parent
      itself, nor depend on a schematic named like the parent. */
  predicate Accepts(parentName: string, isSelf: bool, childDependencies: set<string>) {
    !isSelf && parentName !in childDependencies
  }

  /** The dependency update of `addSubCircuit` as written: only the child's
      dependency set is consulted, never the child's own name. */
  function AddDependencyAsWritten(parentName: string, parentDependencies: set<string>,
                                  childName: string, childDependencies: set<string>): (r: Result<set<string>>)
    ensures r.Err? <==> parentName in childDependencies
    ensures r.Ok? ==> r.value == parentDependencies + {childName} + childDependencies
  {
    if parentName in childDependencies then Err(CircularDependency)
    else Ok(parentDependencies + {childName} + childDependencies)
  }

  /** As written, a schematic may be added as its own sub-circuit: the check
      passes and the schematic then depends on itself, the cycle the
      dependency set exists to rule out. The corrected check refuses it. */
  lemma SelfReferenceAccepted(s: CircuitSchematic)
    requires s.Valid() && s.name !in s.dependencies
    ensures var r := AddDependencyAsWritten(s.name, s.dependencies, s.name, s.dependencies);
            r.Ok? && s.name in r.value
    ensures !Accepts(s.name, true, s.dependencies)
  {
  }

  // ---------------------------------------------------------------------
  // Bridge data

  /** `generateWireBridgeData`: for every bridge, the widths of each view and
      the names `<view>_<i>` of each view's terminals. */
  method GenerateWireBridgeData(bridges: seq<Bridge>) returns (sizes: seq<seq<WireBridge.View>>, names: seq<seq<seq<string>>>)
    ensures |sizes| == |bridges| && |names| == |bridges|
    ensures forall i | 0 <= i < |bridges| :: sizes[i] == Sizes(bridges[i])
    ensures forall i | 0 <= i < |bridges| ::
      && |names[i]| == |bridges[i]|
      && forall j | 0 <= j < |bridges[i]| :: names[i][j] == ViewNames(bridges[i][j])
  {
    sizes, names := [], [];
    for i := 0 to |bridges|
      invariant |sizes| == i && |names| == i
      invariant forall i2 | 0 <= i2 < i :: sizes[i2] == Sizes(bridges[i2])
      invariant forall i2 | 0 <= i2 < i ::
        && |names[i2]| == |bridges[i2]|
        && forall j | 0 <= j < |bridges[i2]| :: names[i2][j] == ViewNames(bridges[i2][j])
    {
      var bridge := bridges[i];
      var bridgeSizes: seq<WireBridge.View> := [];
      var bridgeNames: seq<seq<string>> := [];
      for j := 0 to |bridge|
        invariant |bridgeSizes| == j && |bridgeNames| == j
        invariant forall j2 | 0 <= j2 < j :: bridgeSizes[j2] == bridge[j2].portSizes
        invariant forall j2 | 0 <= j2 < j :: bridgeNames[j2] == ViewNames(bridge[j2])
      {
        var view := bridge[j];
        bridgeSizes := bridgeSizes + [view.portSizes];
        var viewNames: seq<string> := [];
        for k := 0 to |view.portSizes|
          invariant viewNames == ViewNames(view)[..k]
        {
          viewNames := viewNames + [view.name + "_" + NatToString(k)];
        }
        bridgeNames := bridgeNames + [viewNames];
      }
      sizes := sizes + [bridgeSizes];
      names := names + [bridgeNames];
    }
  }
}

=== FILE: sockets.dfy ===
/** Sockets: directed copies from one field to another of the same width,
    applied once per tick in insertion order by the socket controller. */
module Sockets {
  import opened Storage

  /** A directed connection: `to` takes the value of `from`. */
  datatype Socket = Socket(from: Accessor, to: Accessor)

  /** Both ends are valid fields of the same width (`addSocket` refuses others). */
  predicate WellFormed(s: Socket) {
    s.from.InBounds() && s.to.InBounds() && s.from.width == s.to.width
  }

  predicate AllWellFormed(socks: seq<Socket>) {
    forall j | 0 <= j < |socks| :: WellFormed(socks[j])
  }

  /** Every end of every socket names an existing cell. */
  predicate AllLive(cells: Cells, socks: seq<Socket>) {
    forall j | 0 <= j < |socks| :: LiveIn(cells, socks[j].from) && LiveIn(cells, socks[j].to)
  }

  /** No socket writes into the field `b`. */
  predicate Untouched(socks: seq<Socket>, b: Accessor) {
    forall j | 0 <= j < |socks| :: Disjoint(socks[j].to, b)
  }

  /** `Socket::tick`: the destination field takes the source field's value; the
      source is read first, so a dangling source leaves everything unchanged. */
  function Step(cells: Cells, s: Socket): (r: Run)
    requires WellFormed(s)
    ensures r.cells.Keys == cells.Keys
    ensures r.outcome.Pass? <==> LiveIn(cells, s.from) && LiveIn(cells, s.to)
    ensures r.outcome.Fail? ==> r.outcome.error == DanglingReference && r.cells == cells
    ensures r.outcome.Pass? ==> Read(r.cells, s.to) == Read(cells, s.from)
    ensures forall b: Accessor | b.InBounds() && Disjoint(s.to, b) :: Read(r.cells, b) == Read(cells, b)
  {
    match Read(cells, s.from)
    case Err(e) => Run(cells, Fail(e))
    case Ok(v) =>
      if LiveIn(cells, s.to) then Run(WriteField(cells, s.to, v), Pass)
      else Run(cells, Fail(DanglingReference))
  }

  /** `Socket::preTick`: the destination field is cleared. */
  function PreStep(cells: Cells, s: Socket): (r: Run)
    requires WellFormed(s)
    ensures r.cells.Keys == cells.Keys
    ensures r.outcome.Pass? <==> LiveIn(cells, s.to)
    ensures r.outcome.Fail? ==> r.outcome.error == DanglingReference && r.cells == cells
    ensures r.outcome.Pass? ==> Read(r.cells, s.to) == Ok(Zeros())
    ensures forall b: Accessor | b.InBounds() && Disjoint(s.to, b) :: Read(r.cells, b) == Read(cells, b)
  {
    if LiveIn(cells, s.to) then
      var c := cells[s.to.cell.index];
      assert ClearField(c, s.to) == SetField(c, s.to, Zeros());
      assert And(Zeros(), LowBits(s.to.width)) == Zeros();
      Run(WriteField(cells, s.to, Zeros()), Pass)
    else Run(cells, Fail(DanglingReference))
  }

  /** One controller tick: every socket steps in insertion order; the first
      dangling end stops the tick, keeping the copies already made. */
  function RunAll(cells: Cells, socks: seq<Socket>): (r: Run)
    requires AllWellFormed(socks)
    ensures r.cells.Keys == cells.Keys
    ensures r.outcome.Pass? <==> AllLive(cells, socks)
    ensures r.outcome.Fail? ==> r.outcome.error == DanglingReference
    decreases |socks|
  {
    if socks == [] then Run(cells, Pass)
    else
      var first := Step(cells, socks[0]);
      if first.outcome.Fail? then first
      else
        LiveDependsOnKeys(cells, first.cells, socks[1..]);
        RunAll(first.cells, socks[1..])
  }

  /** A controller with one socket runs that socket's step. */
  lemma SingleSocket(cells: Cells, s: Socket)
    requires WellFormed(s)
    ensures RunAll(cells, [s]) == Step(cells, s)
  {
    assert [s][1..] == [];
  }

  /** Whether the sockets' ends exist depends only on which cells exist. */
  lemma LiveDependsOnKeys(c1: Cells, c2: Cells, socks: seq<Socket>)
    requires c1.Keys == c2.Keys
    ensures AllLive(c1, socks) <==> AllLive(c2, socks)
  {
    assert forall a: Accessor :: LiveIn(c1, a) == LiveIn(c2, a);
  }

  /** A field no socket writes reads the same after a tick. */
  lemma {:induction false} RunAllFrame(cells: Cells, socks: seq<Socket>, b: Accessor)
    requires AllWellFormed(socks) && b.InBounds() && Untouched(socks, b)
    ensures Read(RunAll(cells, socks).cells, b) == Read(cells, b)
    decreases |socks|
  {
    if socks != [] {
      var first := Step(cells, socks[0]);
      if first.outcome.Pass? {
        RunAllFrame(first.cells, socks[1..], b);
      }
    }
  }

  /** `n` consecutive ticks; a failing tick ends the sequence. */
  function Ticks(cells: Cells, socks: seq<Socket>, n: nat): (r: Run)
    requires AllWellFormed(socks)
    ensures r.cells.Keys == cells.Keys
    ensures r.outcome.Pass? <==> n == 0 || AllLive(cells, socks)
    decreases n
  {
    if n == 0 then Run(cells, Pass)
    else
      var first := RunAll(cells, socks);
      if first.outcome.Fail? then first
      else
        LiveDependsOnKeys(cells, first.cells, socks);
        Ticks(first.cells, socks, n - 1)
  }

  /** `Socket::tick` on the arena. */
  method TickSocket(arena: Arena, s: Socket) returns (o: Outcome)
    requires arena.Valid() && WellFormed(s)
    modifies arena
    ensures arena.Valid() && arena.next == old(arena.next)
    ensures Run(arena.cells, o) == Step(old(arena.cells), s)
  {
    var v := arena.Get(s.from);
    if v.Err? {
      return Fail(v.error);
    }
    o := arena.Set(s.to, v.value);
  }

  /** `Socket::preTick` on the arena. */
  method PreTickSocket(arena: Arena, s: Socket) returns (o: Outcome)
    requires arena.Valid() && WellFormed(s)
    modifies arena
    ensures arena.Valid() && arena.next == old(arena.next)
    ensures Run(arena.cells, o) == PreStep(old(arena.cells), s)
  {
    o := arena.Clear(s.to);
    if o.Pass? {
      var c := old(arena.cells)[s.to.cell.index];
      assert ClearField(c, s.to) == SetField(c, s.to, Zeros());
    }
  }

  /** The socket controller: the sockets in insertion order. */
  class SocketController {
    const arena: Arena
    var sockets: seq<Socket>

    ghost predicate Valid()
      reads this, arena
    {
      arena.Valid() && AllWellFormed(sockets)
    }

    constructor (arena: Arena)
      requires arena.Valid()
      ensures Valid() && this.arena == arena && sockets == []
    {
      this.arena := arena;
      sockets := [];
    }

    /** `addSocket`: refuses fields of different widths, else appends. */
    method AddSocket(from: Accessor, to: Accessor) returns (o: Outcome)
      requires Valid() && from.InBounds() && to.InBounds()
      modifies this
      ensures Valid()
      ensures o.Pass? <==> from.width == to.width
      ensures o.Fail? ==> o.error == SocketSizeMismatch
      ensures sockets == if o.Pass? then old(sockets) + [Socket(from, to)] else old(sockets)
    {
      if from.width != to.width {
        return Fail(SocketSizeMismatch);
      }
      sockets := sockets + [Socket(from, to)];
      o := Pass;
    }

    /** `tick`: every socket copies, in insertion order. (The clearing pass
        before it has an empty body in the source.) */
    method Tick() returns (o: Outcome)
      requires Valid()
      modifies arena
      ensures Valid() && arena.next == old(arena.next)
      ensures Run(arena.cells, o) == RunAll(old(arena.cells), sockets)
    {
      var k := 0;
      while k < |sockets|
        invariant 0 <= k <= |sockets|
        invariant arena.Valid() && arena.next == old(arena.next)
        invariant RunAll(old(arena.cells), sockets) == RunAll(arena.cells, sockets[k..])
      {
        assert sockets[k..][1..] == sockets[k + 1..];
        o := TickSocket(arena, sockets[k]);
        if o.Fail? {
          return;
        }
        k := k + 1;
      }
      o := Pass;
    }
  }

  // ---------------------------------------------------------------------
  // What a tick achieves

  /** A socket from a field to itself changes nothing. */
  lemma SelfSocketIsIdentity(cells: Cells, a: Accessor)
    requires a.InBounds() && LiveIn(cells, a)
    ensures Step(cells, Socket(a, a)) == Run(cells, Pass)
  {
    var c := cells[a.cell.index];
    SetFieldWithOwnValue(c, a);
    assert cells[a.cell.index := c] == cells;
  }

  /** Sockets that write pairwise disjoint fields, none of which is read by any
      socket, all copy in a single tick, whatever their order: each
      destination ends up with its source's value from before the tick. */
  lemma {:induction false} IndependentSocketsCopy(cells: Cells, socks: seq<Socket>)
    requires AllWellFormed(socks) && AllLive(cells, socks)
    requires forall j, k | 0 <= j < |socks| && 0 <= k < |socks| :: Disjoint(socks[j].to, socks[k].from)
    requires forall j, k | 0 <= j < |socks| && 0 <= k < |socks| && j != k :: Disjoint(socks[j].to, socks[k].to)
    ensures RunAll(cells, socks).outcome.Pass?
    ensures forall j | 0 <= j < |socks| :: Read(RunAll(cells, socks).cells, socks[j].to) == Read(cells, socks[j].from)
    decreases |socks|
  {
    if socks != [] {
      var first := Step(cells, socks[0]);
      var tail := socks[1..];
      assert AllLive(first.cells, tail);
      IndependentSocketsCopy(first.cells, tail);
      var r := RunAll(cells, socks);
      assert r == RunAll(first.cells, tail);
      forall j | 0 <= j < |socks|
        ensures Read(r.cells, socks[j].to) == Read(cells, socks[j].from)
      {
        if j == 0 {
          assert Untouched(tail, socks[0].to);
          RunAllFrame(first.cells, tail, socks[0].to);
        } else {
          assert tail[j - 1] == socks[j];
          assert Read(first.cells, socks[j].from) == Read(cells, socks[j].from);
        }
      }
    }
  }

  // ---------------------------------------------------------------------
  // Chains

  /** The fields of a chain x[0] -> x[1] -> ... -> x[n]: existing, pairwise
      disjoint fields of one width. */
  predicate ChainFields(cells: Cells, x: seq<Accessor>) {
    && |x| > 0
    && (forall j | 0 <= j < |x| :: x[j].InBounds() && x[j].width == x[0].width && LiveIn(cells, x[j]))
    && (forall j, k | 0 <= j < |x| && 0 <= k < |x| && j != k :: Disjoint(x[j], x[k]))
  }

  /** Socket k is link links[k] of the chain: from x[links[k]] to x[links[k] + 1]. */
  predicate ChainLinks(x: seq<Accessor>, links: seq<nat>, socks: seq<Socket>) {
    && |links| == |socks|
    && forall k | 0 <= k < |socks| :: links[k] + 1 < |x| && socks[k] == Socket(x[links[k]], x[links[k] + 1])
  }

  /** A chain whose every link is present, in any order. */
  predicate Chain(cells: Cells, x: seq<Accessor>, links: seq<nat>, socks: seq<Socket>) {
    && ChainFields(cells, x) && ChainLinks(x, links, socks)
    && (forall i | 0 <= i < |x| - 1 :: i in links)
  }

  /** The first t + 1 fields of the chain hold v. */
  predicate Holds(cells: Cells, x: seq<Accessor>, t: nat, v: BoolStorage)
    requires forall j | 0 <= j < |x| :: x[j].InBounds()
  {
    forall j | 0 <= j < |x| && j <= t :: Read(cells, x[j]) == Ok(v)
  }

  /** The chain's fields still exist after any tick, which keeps every cell. */
  lemma ChainFieldsKeepKeys(c1: Cells, c2: Cells, x: seq<Accessor>)
    requires ChainFields(c1, x) && c1.Keys == c2.Keys
    ensures ChainFields(c2, x)
  {
    assert forall j | 0 <= j < |x| :: LiveIn(c2, x[j]) == LiveIn(c1, x[j]);
  }

  /** One link steps: the settled prefix x[0..t] stays at v, and x[t + 1]
      holds v once link t has stepped or if it already held v. */
  lemma ChainLinkStep(cells: Cells, x: seq<Accessor>, i: nat, t: nat, v: BoolStorage, reached: bool)
    requires ChainFields(cells, x) && i + 1 < |x|
    requires Holds(cells, x, t, v)
    requires reached && t + 1 < |x| ==> Read(cells, x[t + 1]) == Ok(v)
    ensures var r := Step(cells, Socket(x[i], x[i + 1]));
            && r.outcome.Pass? && Holds(r.cells, x, t, v)
            && ((reached || i == t) && t + 1 < |x| ==> Read(r.cells, x[t + 1]) == Ok(v))
  {
    var r := Step(cells, Socket(x[i], x[i + 1]));
    forall j | 0 <= j < |x| && j != i + 1
      ensures Read(r.cells, x[j]) == Read(cells, x[j])
    {
      assert Disjoint(x[i + 1], x[j]);
    }
  }

  /** Dropping the first socket leaves chain links. */
  lemma ChainLinksTail(x: seq<Accessor>, links: seq<nat>, socks: seq<Socket>)
    requires ChainLinks(x, links, socks) && AllWellFormed(socks) && socks != []
    ensures ChainLinks(x, links[1..], socks[1..]) && AllWellFormed(socks[1..])
  {
  }

  /** Chain sockets, stepped in their order, keep the settled prefix x[0..t]
      at v, and x[t + 1] holds v at the end if link t is among them. */
  lemma {:induction false} ChainRunExtends(cells: Cells, x: seq<Accessor>, links: seq<nat>, socks: seq<Socket>,
                                           t: nat, v: BoolStorage, reached: bool)
    requires ChainFields(cells, x) && ChainLinks(x, links, socks) && AllWellFormed(socks)
    requires Holds(cells, x, t, v)
    requires reached && t + 1 < |x| ==> Read(cells, x[t + 1]) == Ok(v)
    ensures Holds(RunAll(cells, socks).cells, x, t, v)
    ensures (reached || t in links) && t + 1 < |x| ==> Read(RunAll(cells, socks).cells, x[t + 1]) == Ok(v)
    decreases |socks|
  {
    if socks != [] {
      var i := links[0];
      ChainLinkStep(cells, x, i, t, v, reached);
      var first := Step(cells, socks[0]);
      ChainFieldsKeepKeys(cells, first.cells, x);
      ChainLinksTail(x, links, socks);
      ChainRunExtends(first.cells, x, links[1..], socks[1..], t, v, reached || i == t);
      if t in links && i != t {
        var k :| 0 <= k < |links| && links[k] == t;
        assert links[1..][k - 1] == t;
      }
    }
  }

  /** After t ticks of a chain (in any order), its first t + 1 fields all hold
      the first field's original value; so a chain of n links settles within
      n ticks. */
  lemma ChainSettles(cells: Cells, x: seq<Accessor>, links: seq<nat>, socks: seq<Socket>, t: nat)
    requires Chain(cells, x, links, socks) && AllWellFormed(socks)
    ensures Ticks(cells, socks, t).outcome.Pass?
    ensures Holds(Ticks(cells, socks, t).cells, x, t, Read(cells, x[0]).value)
  {
    ChainTicksExtend(cells, x, links, socks, t, Read(cells, x[0]).value);
  }

  /** Each further tick settles one more field of the chain. */
  lemma {:induction false} ChainTicksExtend(cells: Cells, x: seq<Accessor>, links: seq<nat>, socks: seq<Socket>,
                                            t: nat, v: BoolStorage)
    requires Chain(cells, x, links, socks) && AllWellFormed(socks)
    requires Holds(cells, x, 0, v)
    ensures Ticks(cells, socks, t).outcome.Pass?
    ensures Holds(Ticks(cells, socks, t).cells, x, t, v)
    decreases t
  {
    assert AllLive(cells, socks) by {
      forall k | 0 <= k < |socks|
        ensures LiveIn(cells, socks[k].from) && LiveIn(cells, socks[k].to)
      {
        assert links[k] + 1 < |x|;
      }
    }
    if t > 0 {
      ChainTicksExtend(cells, x, links, socks, t - 1, v);
      var before := Ticks(cells, socks, t - 1).cells;
      ChainFieldsKeepKeys(cells, before, x);
      ChainRunExtends(before, x, links, socks, t - 1, v, false);
      TicksLast(cells, socks, t);
      var after := RunAll(before, socks).cells;
      forall j | 0 <= j < |x| && j <= t
        ensures Read(after, x[j]) == Ok(v)
      {
        if j == t {
          assert t - 1 in links;
        }
      }
    }
  }

  /** t ticks are t - 1 ticks followed by one more. */
  lemma {:induction false} TicksLast(cells: Cells, socks: seq<Socket>, t: nat)
    requires AllWellFormed(socks) && AllLive(cells, socks) && t > 0
    ensures Ticks(cells, socks, t) == RunAll(Ticks(cells, socks, t - 1).cells, socks)
    decreases t
  {
    if t > 1 {
      var first := RunAll(cells, socks);
      assert AllLive(first.cells, socks);
      TicksLast(first.cells, socks, t - 1);
    }
  }

  // ---------------------------------------------------------------------
  // Sockets registered in chain order

  /** Fields of one width, each in bounds. */
  predicate SameWidths(x: seq<Accessor>) {
    |x| > 0 && forall j | 0 <= j < |x| :: x[j].InBounds() && x[j].width == x[0].width
  }

  /** The links of a chain registered in chain order: x[0] -> x[1] first,
      then x[1] -> x[2], and so on. */
  function InOrder(x: seq<Accessor>): (socks: seq<Socket>)
    requires SameWidths(x)
    ensures |socks| == |x| - 1 && AllWellFormed(socks)
    ensures forall k | 0 <= k < |socks| :: socks[k] == Socket(x[k], x[k + 1])
    decreases |x|
  {
    if |x| == 1 then [] else [Socket(x[0], x[1])] + InOrder(x[1..])
  }

  /** Registered in chain order, a single tick carries the head's value to
      every field of the chain: each socket reads, within the same tick, what
      the socket before it has just written. */
  lemma {:induction false} InOrderChainCopies(cells: Cells, x: seq<Accessor>)
    requires ChainFields(cells, x)
    ensures RunAll(cells, InOrder(x)).outcome.Pass?
    ensures forall j | 0 <= j < |x| :: Read(RunAll(cells, InOrder(x)).cells, x[j]) == Read(cells, x[0])
    decreases |x|
  {
    if |x| > 1 {
      var socks := InOrder(x);
      assert socks[1..] == InOrder(x[1..]);
      var c1 := FirstLink(cells, x);
      InOrderChainCopies(c1, x[1..]);
      RunAllFrame(c1, socks[1..], x[0]);
      var r := RunAll(c1, socks[1..]);
      assert RunAll(cells, socks) == r;
      forall j | 0 <= j < |x|
        ensures Read(r.cells, x[j]) == Read(cells, x[0])
      {
        if j > 0 {
          assert x[1..][j - 1] == x[j];
        }
      }
    }
  }

  /** The first link of a chain: the second field takes the head's value, the
      head keeps it, and the rest is still a chain. */
  lemma FirstLink(cells: Cells, x: seq<Accessor>) returns (c1: Cells)
    requires ChainFields(cells, x) && |x| > 1
    ensures var first := Step(cells, Socket(x[0], x[1]));
            first.outcome.Pass? && c1 == first.cells
    ensures Read(c1, x[0]) == Read(cells, x[0]) && Read(c1, x[1]) == Read(cells, x[0])
    ensures ChainFields(c1, x[1..])
    ensures Untouched(InOrder(x)[1..], x[0])
  {
    c1 := Step(cells, Socket(x[0], x[1])).cells;
    assert Disjoint(x[1], x[0]);
    ChainFieldsKeepKeys(cells, c1, x);
    var socks := InOrder(x);
    forall k | 0 <= k < |socks[1..]|
      ensures Disjoint(socks[1..][k].to, x[0])
    {
      assert socks[1..][k].to == x[k + 2];
    }
  }

  /** By contrast, registered in reverse order, one tick moves the value by
      one link only: the second field takes the head's value while the third
      keeps the second field's old value. */
  lemma ReverseOrderMovesOneLink(cells: Cells, x: seq<Accessor>)
    requires ChainFields(cells, x) && |x| == 3
    ensures var r := RunAll(cells, [Socket(x[1], x[2]), Socket(x[0], x[1])]);
            && r.outcome.Pass?
            && Read(r.cells, x[1]) == Read(cells, x[0])
            && Read(r.cells, x[2]) == Read(cells, x[1])
  {
    var s1 := Socket(x[1], x[2]);
    var s0 := Socket(x[0], x[1]);
    var first := Step(cells, s1);
    var second := Step(first.cells, s0);
    assert [s1, s0][1..] == [s0];
    SingleSocket(first.cells, s0);
    assert Read(second.cells, x[2]) == Read(first.cells, x[2]);
  }
}

=== FILE: storage.dfy ===
/** Storage cells (fixed 64-bit bitsets), the field accessors that view a bit
    range of one cell, and the arena that owns every cell.

    A cell is modelled bit by bit: element i of the sequence is bit i of the
    bitset, so the bitset operators the source uses (`<<`, `>>`, `&`, `|`,
    `~`, `flip`) are written out below with the bitset's own semantics
    (a shift by STORAGE_SIZE or more yields all zeros). */
module Storage {

  /** Number of bits in one storage cell. */
  const STORAGE_SIZE: nat := 64

  /** The smallest unit of data a socket can carry: exactly STORAGE_SIZE bits. */
  type BoolStorage = s: seq<bool> | |s| == STORAGE_SIZE witness seq(64, i => false)

  /** The failures the core reports (the source throws them as exceptions). */
  datatype Error =
    | OutOfBounds           // accessor construction with offset + width > STORAGE_SIZE
    | DanglingReference     // the backing cell no longer exists
    | WidthExceedsCapacity  // a field request wider than a cell
    | SocketSizeMismatch    // a socket between fields of different widths
    | PortNotFound          // an undeclared name in a connection or exposed port
    | CircularDependency    // a sub-circuit whose dependencies name the parent

  datatype Result<+T> = Ok(value: T) | Err(error: Error)

  datatype Outcome = Pass | Fail(error: Error)

  /** The content of every live cell, by handle. */
  type Cells = map<nat, BoolStorage>

  /** The state after a sequence of in-place updates and whether it completed;
      a failed run keeps the updates made before the failure. */
  datatype Run = Run(cells: Cells, outcome: Outcome)

  // ---------------------------------------------------------------------
  // Bitset operators

  /** The all-zero cell (a freshly made bitset). */
  function Zeros(): (r: BoolStorage)
    ensures forall i | 0 <= i < STORAGE_SIZE :: !r[i]
  {
    seq(STORAGE_SIZE, i => false)
  }

  /** `ONES`: every bit set. */
  function Ones(): (r: BoolStorage)
    ensures forall i | 0 <= i < STORAGE_SIZE :: r[i]
  {
    seq(STORAGE_SIZE, i => true)
  }

  /** `~c` / `c.flip()` */
  function Flip(c: BoolStorage): (r: BoolStorage)
    ensures forall i | 0 <= i < STORAGE_SIZE :: r[i] == !c[i]
  {
    seq(STORAGE_SIZE, i requires 0 <= i < STORAGE_SIZE => !c[i])
  }

  /** `a & b` */
  function And(a: BoolStorage, b: BoolStorage): (r: BoolStorage)
    ensures forall i | 0 <= i < STORAGE_SIZE :: r[i] == (a[i] && b[i])
  {
    seq(STORAGE_SIZE, i requires 0 <= i < STORAGE_SIZE => a[i] && b[i])
  }

  /** `a | b` */
  function Or(a: BoolStorage, b: BoolStorage): (r: BoolStorage)
    ensures forall i | 0 <= i < STORAGE_SIZE :: r[i] == (a[i] || b[i])
  {
    seq(STORAGE_SIZE, i requires 0 <= i < STORAGE_SIZE => a[i] || b[i])
  }

  /** `a ^ b` */
  function Xor(a: BoolStorage, b: BoolStorage): (r: BoolStorage)
    ensures forall i | 0 <= i < STORAGE_SIZE :: r[i] == (a[i] != b[i])
  {
    seq(STORAGE_SIZE, i requires 0 <= i < STORAGE_SIZE => a[i] != b[i])
  }

  /** `c << n`: bit i comes from bit i - n; shifting by the width or more clears every bit. */
  function ShiftLeft(c: BoolStorage, n: nat): (r: BoolStorage)
    ensures forall i | 0 <= i < STORAGE_SIZE :: r[i] == (n <= i && c[i - n])
  {
    seq(STORAGE_SIZE, i requires 0 <= i < STORAGE_SIZE => n <= i && c[i - n])
  }

  /** `c >> n`: bit i comes from bit i + n. */
  function ShiftRight(c: BoolStorage, n: nat): (r: BoolStorage)
    ensures forall i | 0 <= i < STORAGE_SIZE :: r[i] == (i + n < STORAGE_SIZE && c[i + n])
  {
    seq(STORAGE_SIZE, i requires 0 <= i < STORAGE_SIZE => i + n < STORAGE_SIZE && c[i + n])
  }

  // ---------------------------------------------------------------------
  // Accessors

  /** A non-owning reference to a cell: a handle into the arena, or none at all. */
  datatype CellRef = NoCell | CellAt(index: nat)

  /** A view of the bits [offset, offset + width) of one cell. Its three
      fields are fixed when it is made. */
  datatype Accessor = Accessor(offset: nat, width: nat, cell: CellRef) {
    /** The bound every successfully constructed accessor satisfies. */
    predicate InBounds() {
      offset + width <= STORAGE_SIZE
    }
    /** Whether bit i of the cell lies inside this field. */
    predicate Covers(i: int) {
      offset <= i < offset + width
    }
  }

  /** The accessor constructor: fails when the field does not fit in a cell.
      The source checks the sum and then each value separately, to guard
      against a wrapped sum; with unbounded integers the sum check already
      decides. */
  function NewAccessor(offset: nat, width: nat, cell: CellRef): (r: Result<Accessor>)
    ensures r.Ok? <==> offset + width <= STORAGE_SIZE
    ensures r.Ok? ==> r.value.InBounds() && r.value.offset == offset
                      && r.value.width == width && r.value.cell == cell
    ensures r.Err? ==> r.error == OutOfBounds
  {
    if offset + width > STORAGE_SIZE then Err(OutOfBounds)
    else if offset > STORAGE_SIZE || width > STORAGE_SIZE then Err(OutOfBounds)
    else Ok(Accessor(offset, width, cell))
  }

  /** The default-constructed accessor: offset 0, width 0, no cell. */
  const EMPTY_ACCESSOR: Accessor := Accessor(0, 0, NoCell)

  /** Two fields that can never see each other's bits. */
  predicate Disjoint(a: Accessor, b: Accessor) {
    a.width == 0 || b.width == 0 || a.cell != b.cell
    || a.offset + a.width <= b.offset || b.offset + b.width <= a.offset
  }

  // ---------------------------------------------------------------------
  // Field operations on one cell value, written with the source's masks

  /** `ONES >> (STORAGE_SIZE - width)`: the low `width` bits. */
  function LowBits(width: nat): (r: BoolStorage)
    requires width <= STORAGE_SIZE
    ensures forall i | 0 <= i < STORAGE_SIZE :: r[i] == (i < width)
  {
    ShiftRight(Ones(), STORAGE_SIZE - width)
  }

  /** `(ONES << width).flip() << offset`: exactly the field's bits. */
  function FieldMask(a: Accessor): (r: BoolStorage)
    requires a.InBounds()
    ensures forall i | 0 <= i < STORAGE_SIZE :: r[i] == a.Covers(i)
  {
    ShiftLeft(Flip(ShiftLeft(Ones(), a.width)), a.offset)
  }

  /** `(value & ONES >> (STORAGE_SIZE - width)) << offset`: the value's low
      bits moved into the field. */
  function Shifted(a: Accessor, value: BoolStorage): (r: BoolStorage)
    requires a.InBounds()
    ensures forall i | 0 <= i < STORAGE_SIZE ::
      r[i] == (a.Covers(i) && value[i - a.offset])
  {
    ShiftLeft(And(value, LowBits(a.width)), a.offset)
  }

  /** `get`: the field's bits moved down to bit 0; every bit at or above the
      width is 0. */
  function GetField(c: BoolStorage, a: Accessor): (r: BoolStorage)
    requires a.InBounds()
    ensures forall i | 0 <= i < STORAGE_SIZE :: r[i] == (i < a.width && c[a.offset + i])
    ensures And(r, LowBits(a.width)) == r
  {
    ShiftRight(And(FieldMask(a), c), a.offset)
  }

  /** `set`: the field takes the low `width` bits of the value; every other
      bit keeps its old value. */
  function SetField(c: BoolStorage, a: Accessor, value: BoolStorage): (r: BoolStorage)
    requires a.InBounds()
    ensures forall i | 0 <= i < STORAGE_SIZE ::
      r[i] == if a.Covers(i) then value[i - a.offset] else c[i]
    ensures GetField(r, a) == And(value, LowBits(a.width))
    ensures And(r, Flip(FieldMask(a))) == And(c, Flip(FieldMask(a)))
  {
    Or(And(c, Flip(FieldMask(a))), Shifted(a, value))
  }

  /** `clear`: the field's bits become 0; every other bit is kept. */
  function ClearField(c: BoolStorage, a: Accessor): (r: BoolStorage)
    requires a.InBounds()
    ensures forall i | 0 <= i < STORAGE_SIZE :: r[i] == (!a.Covers(i) && c[i])
    ensures GetField(r, a) == Zeros()
  {
    And(c, Flip(FieldMask(a)))
  }

  /** `add`: the value's low bits are ORed into the field; every other bit is kept. */
  function AddField(c: BoolStorage, a: Accessor, value: BoolStorage): (r: BoolStorage)
    requires a.InBounds()
    ensures forall i | 0 <= i < STORAGE_SIZE ::
      r[i] == if a.Covers(i) then c[i] || value[i - a.offset] else c[i]
    ensures GetField(r, a) == Or(GetField(c, a), And(value, LowBits(a.width)))
  {
    Or(c, Shifted(a, value))
  }

  /** `multiply` as the source writes it: the cell is ANDed with the shifted
      value, which is 0 outside the field, so every bit outside the field is
      cleared too. */
  function MultiplyAsWritten(c: BoolStorage, a: Accessor, value: BoolStorage): (r: BoolStorage)
    requires a.InBounds()
    ensures forall i | 0 <= i < STORAGE_SIZE ::
      r[i] == (a.Covers(i) && c[i] && value[i - a.offset])
  {
    And(c, Shifted(a, value))
  }

  /** `multiply` as intended: the field is ANDed with the value's low bits and
      every other bit is kept. */
  function MultiplyField(c: BoolStorage, a: Accessor, value: BoolStorage): (r: BoolStorage)
    requires a.InBounds()
    ensures forall i | 0 <= i < STORAGE_SIZE ::
      r[i] == if a.Covers(i) then c[i] && value[i - a.offset] else c[i]
    ensures GetField(r, a) == And(GetField(c, a), value)
    ensures And(r, Flip(FieldMask(a))) == And(c, Flip(FieldMask(a)))
  {
    Or(And(c, Flip(FieldMask(a))), And(And(c, FieldMask(a)), Shifted(a, value)))
  }

  // ---------------------------------------------------------------------
  // Lemmas about the field operations

  /** The written-out `multiply` destroys the bits of a neighbouring field:
      on a cell of all ones, multiplying the one-bit field at bit 0 by 1
      clears bit 1, which the intended operation keeps. */
  lemma MultiplyAsWrittenClobbers()
    ensures var a := Accessor(0, 1, NoCell);
            MultiplyAsWritten(Ones(), a, Ones())[1] == false
            && MultiplyField(Ones(), a, Ones())[1] == true
            && MultiplyAsWritten(Ones(), a, Ones()) != MultiplyField(Ones(), a, Ones())
  {
    var a := Accessor(0, 1, NoCell);
    assert MultiplyAsWritten(Ones(), a, Ones())[1] != MultiplyField(Ones(), a, Ones())[1];
  }

  /** Writing one field does not change what a disjoint field reads. */
  lemma SetFieldFrame(c: BoolStorage, a: Accessor, b: Accessor, value: BoolStorage)
    requires a.InBounds() && b.InBounds() && a.cell == b.cell && Disjoint(a, b)
    ensures GetField(SetField(c, a, value), b) == GetField(c, b)
  {
    var r := SetField(c, a, value);
    forall i | 0 <= i < STORAGE_SIZE
      ensures GetField(r, b)[i] == GetField(c, b)[i]
    {
      if i < b.width {
        assert !a.Covers(b.offset + i);
      }
    }
  }

  /** Writing a field with the value it already holds leaves the cell unchanged. */
  lemma SetFieldWithOwnValue(c: BoolStorage, a: Accessor)
    requires a.InBounds()
    ensures SetField(c, a, GetField(c, a)) == c
  {
    var r := SetField(c, a, GetField(c, a));
    forall i | 0 <= i < STORAGE_SIZE ensures r[i] == c[i] {
      if a.Covers(i) {
        assert GetField(c, a)[i - a.offset] == c[a.offset + (i - a.offset)];
      }
    }
  }

  /** A second `add` of the same value has no further effect. */
  lemma AddFieldIdempotent(c: BoolStorage, a: Accessor, value: BoolStorage)
    requires a.InBounds()
    ensures AddField(AddField(c, a, value), a, value) == AddField(c, a, value)
  {
    var once := AddField(c, a, value);
    var twice := AddField(once, a, value);
    forall i | 0 <= i < STORAGE_SIZE ensures twice[i] == once[i] { }
  }

  /** `set(x); add(y)` reads back as the low bits of `x | y`. */
  lemma SetThenAdd(c: BoolStorage, a: Accessor, x: BoolStorage, y: BoolStorage)
    requires a.InBounds()
    ensures GetField(AddField(SetField(c, a, x), a, y), a) == And(Or(x, y), LowBits(a.width))
  {
    var r := GetField(AddField(SetField(c, a, x), a, y), a);
    forall i | 0 <= i < STORAGE_SIZE ensures r[i] == And(Or(x, y), LowBits(a.width))[i] { }
  }

  /** On an all-zero cell, `set` leaves exactly the shifted value in the cell. */
  lemma SetOnZeroCell(a: Accessor, value: BoolStorage)
    requires a.InBounds()
    ensures SetField(Zeros(), a, value) == Shifted(a, value)
  {
    var r := SetField(Zeros(), a, value);
    forall i | 0 <= i < STORAGE_SIZE ensures r[i] == Shifted(a, value)[i] { }
  }

  /** A width-0 field reads as 0, and `set`, `clear` and `add` leave its cell as it was. */
  lemma EmptyFieldIsInert(c: BoolStorage, offset: nat, cell: CellRef, value: BoolStorage)
    requires offset <= STORAGE_SIZE
    ensures var a := Accessor(offset, 0, cell);
            GetField(c, a) == Zeros() && SetField(c, a, value) == c
            && ClearField(c, a) == c && AddField(c, a, value) == c
  {
    var a := Accessor(offset, 0, cell);
    assert GetField(c, a) == Zeros();
    assert SetField(c, a, value) == c;
    assert ClearField(c, a) == c;
    assert AddField(c, a, value) == c;
  }

  /** Reading a field of a bitwise combination combines the fields' readings. */
  lemma GetFieldDistributes(c: BoolStorage, d: BoolStorage, a: Accessor)
    requires a.InBounds()
    ensures GetField(Or(c, d), a) == Or(GetField(c, a), GetField(d, a))
    ensures GetField(And(c, d), a) == And(GetField(c, a), GetField(d, a))
    ensures GetField(Xor(c, d), a) == Xor(GetField(c, a), GetField(d, a))
    ensures GetField(Flip(c), a) == And(Flip(GetField(c, a)), LowBits(a.width))
  {
    assert GetField(Or(c, d), a) == Or(GetField(c, a), GetField(d, a));
    assert GetField(And(c, d), a) == And(GetField(c, a), GetField(d, a));
    assert GetField(Xor(c, d), a) == Xor(GetField(c, a), GetField(d, a));
    assert GetField(Flip(c), a) == And(Flip(GetField(c, a)), LowBits(a.width));
  }

  // ---------------------------------------------------------------------
  // Accessors over a snapshot of the cells

  /** Whether the accessor's cell is among `cells`. */
  predicate LiveIn(cells: Cells, a: Accessor) {
    a.cell.CellAt? && a.cell.index in cells
  }

  /** `lock()` on a cell reference, then a dereference of the whole cell. */
  function Lock(cells: Cells, ref: CellRef): (r: Result<BoolStorage>)
    ensures r.Ok? <==> ref.CellAt? && ref.index in cells
    ensures r.Ok? ==> r.value == cells[ref.index]
    ensures r.Err? ==> r.error == DanglingReference
  {
    if ref.CellAt? && ref.index in cells then Ok(cells[ref.index]) else Err(DanglingReference)
  }

  /** `get` through the accessor: the field's bits, shifted down to bit 0, or
      a dangling reference when the cell is gone. */
  function Read(cells: Cells, a: Accessor): (r: Result<BoolStorage>)
    requires a.InBounds()
    ensures r.Ok? <==> LiveIn(cells, a)
    ensures r.Err? ==> r.error == DanglingReference
    ensures r.Ok? ==> forall i | 0 <= i < STORAGE_SIZE ::
      r.value[i] == (i < a.width && cells[a.cell.index][a.offset + i])
  {
    if LiveIn(cells, a) then Ok(GetField(cells[a.cell.index], a)) else Err(DanglingReference)
  }

  /** `set` through a live accessor, on a snapshot of the cells. */
  function WriteField(cells: Cells, a: Accessor, value: BoolStorage): (r: Cells)
    requires a.InBounds() && LiveIn(cells, a)
    ensures r.Keys == cells.Keys
    ensures Read(r, a) == Ok(And(value, LowBits(a.width)))
    ensures forall b: Accessor | b.InBounds() && Disjoint(a, b) :: Read(r, b) == Read(cells, b)
    ensures forall i | i in cells && i != a.cell.index :: r[i] == cells[i]
  {
    var r := cells[a.cell.index := SetField(cells[a.cell.index], a, value)];
    forall b: Accessor | b.InBounds() && Disjoint(a, b)
      ensures Read(r, b) == Read(cells, b)
    {
      if LiveIn(cells, b) && b.cell == a.cell {
        SetFieldFrame(cells[a.cell.index], a, b, value);
      }
    }
    r
  }

  // ---------------------------------------------------------------------
  // The arena of cells

  /** Owns every storage cell. Handles are handed out in increasing order and
      never reused, so a released handle stays invalid: every accessor that
      names it is dangling from then on. */
  class Arena {
    /** The live cells and their content. */
    var cells: Cells
    /** Every handle below `next` has been handed out. */
    var next: nat

    ghost predicate Valid()
      reads this
    {
      forall i | i in cells :: i < next
    }

    constructor ()
      ensures Valid() && cells == map[] && next == 0
    {
      cells := map[];
      next := 0;
    }

    /** `std::make_shared<BoolStorage>()`: a new zeroed cell under a fresh handle. */
    method Allocate() returns (index: nat)
      requires Valid()
      modifies this
      ensures Valid()
      ensures index == old(next) && index !in old(cells) && next == old(next) + 1
      ensures cells == old(cells)[index := Zeros()]
    {
      index := next;
      cells := cells[index := Zeros()];
      next := next + 1;
    }

    /** The last owner of a cell lets it go (`shared_ptr::reset`). */
    method Release(index: nat)
      requires Valid()
      modifies this
      ensures Valid() && next == old(next) && cells == old(cells) - {index}
    {
      cells := cells - {index};
    }

    /** An owner zeroes its own cell (`BoolStorage::reset` through a
        `shared_ptr`, which keeps the cell alive). */
    method Reset(index: nat)
      requires Valid() && index in cells
      modifies this
      ensures Valid() && next == old(next) && cells == old(cells)[index := Zeros()]
    {
      cells := cells[index := Zeros()];
    }

    /** A write to the whole cell that does not go through an accessor
        (`*cell.lock() = value`); it fails when the cell is gone. */
    method Store(ref: CellRef, value: BoolStorage) returns (o: Outcome)
      requires Valid()
      modifies this
      ensures Valid() && next == old(next)
      ensures o.Pass? <==> ref.CellAt? && ref.index in old(cells)
      ensures o.Fail? ==> o.error == DanglingReference
      ensures cells == if o.Pass? then old(cells)[ref.index := value] else old(cells)
    {
      if ref.CellAt? && ref.index in cells {
        cells := cells[ref.index := value];
        o := Pass;
      } else {
        o := Fail(DanglingReference);
      }
    }

    /** Whether the accessor's cell still exists (`buffer_ref.lock()` succeeds). */
    predicate Live(a: Accessor)
      reads this
    {
      LiveIn(cells, a)
    }

    /** `get` through the accessor. */
    function Get(a: Accessor): (r: Result<BoolStorage>)
      requires a.InBounds()
      reads this
      ensures r.Ok? <==> Live(a)
      ensures r.Err? ==> r.error == DanglingReference
      ensures r.Ok? ==> r.value == GetField(cells[a.cell.index], a)
    {
      Read(cells, a)
    }

    /** `set` through the accessor: only the field's bits of its cell change. */
    method Set(a: Accessor, value: BoolStorage) returns (o: Outcome)
      requires Valid() && a.InBounds()
      modifies this
      ensures Valid() && next == old(next)
      ensures o.Pass? <==> old(Live(a))
      ensures o.Fail? ==> o.error == DanglingReference
      ensures cells == if o.Pass? then old(cells)[a.cell.index := SetField(old(cells)[a.cell.index], a, value)]
                       else old(cells)
    {
      if Live(a) {
        cells := cells[a.cell.index := SetField(cells[a.cell.index], a, value)];
        o := Pass;
      } else {
        o := Fail(DanglingReference);
      }
    }

    /** `clear` through the accessor. */
    method Clear(a: Accessor) returns (o: Outcome)
      requires Valid() && a.InBounds()
      modifies this
      ensures Valid() && next == old(next)
      ensures o.Pass? <==> old(Live(a))
      ensures o.Fail? ==> o.error == DanglingReference
      ensures cells == if o.Pass? then old(cells)[a.cell.index := ClearField(old(cells)[a.cell.index], a)]
                       else old(cells)
    {
      if Live(a) {
        cells := cells[a.cell.index := ClearField(cells[a.cell.index], a)];
        o := Pass;
      } else {
        o := Fail(DanglingReference);
      }
    }

    /** `add` (bitwise OR into the field) through the accessor. */
    method Add(a: Accessor, value: BoolStorage) returns (o: Outcome)
      requires Valid() && a.InBounds()
      modifies this
      ensures Valid() && next == old(next)
      ensures o.Pass? <==> old(Live(a))
      ensures o.Fail? ==> o.error == DanglingReference
      ensures cells == if o.Pass? then old(cells)[a.cell.index := AddField(old(cells)[a.cell.index], a, value)]
                       else old(cells)
    {
      if Live(a) {
        cells := cells[a.cell.index := AddField(cells[a.cell.index], a, value)];
        o := Pass;
      } else {
        o := Fail(DanglingReference);
      }
    }

    /** `multiply` (bitwise AND into the field) through the accessor, with the
        bits outside the field kept (see MultiplyAsWritten for the source's
        expression). */
    method Multiply(a: Accessor, value: BoolStorage) returns (o: Outcome)
      requires Valid() && a.InBounds()
      modifies this
      ensures Valid() && next == old(next)
      ensures o.Pass? <==> old(Live(a))
      ensures o.Fail? ==> o.error == DanglingReference
      ensures cells == if o.Pass? then old(cells)[a.cell.index := MultiplyField(old(cells)[a.cell.index], a, value)]
                       else old(cells)
    {
      if Live(a) {
        cells := cells[a.cell.index := MultiplyField(cells[a.cell.index], a, value)];
        o := Pass;
      } else {
        o := Fail(DanglingReference);
      }
    }
  }

  /** The default accessor names no cell, so every operation through it fails. */
  lemma EmptyAccessorDangles(arena: Arena)
    ensures !arena.Live(EMPTY_ACCESSOR)
    ensures arena.Get(EMPTY_ACCESSOR) == Err(DanglingReference)
  {
  }
}

=== FILE: wirebridge.dfy ===
/** The wire bridge: one fresh cell, viewed by several ports. Every port
    starts at bit 0 of that cell and splits it into consecutive terminals, so
    different ports of one bridge are different splittings of the same bus. */
module WireBridge {
  import opened Storage
  import opened DataBank

  /** The widths of one port's terminals, in order (`WireBridgeView`). */
  type View = seq<nat>

  /** Total width of a sequence of terminals. */
  function Sum(sizes: seq<nat>): nat {
    if sizes == [] then 0 else Sum(sizes[..|sizes| - 1]) + sizes[|sizes| - 1]
  }

  /** A prefix is never wider than the whole port. */
  lemma {:induction false} SumOfPrefix(sizes: seq<nat>, j: nat)
    requires j <= |sizes|
    ensures Sum(sizes[..j]) <= Sum(sizes)
    decreases |sizes|
  {
    if j < |sizes| {
      var init := sizes[..|sizes| - 1];
      assert init[..j] == sizes[..j];
      SumOfPrefix(init, j);
    } else {
      assert sizes[..j] == sizes;
    }
  }

  /** Terminal j of a port: its width, placed right after terminals 0..j-1. */
  function Terminal(sizes: View, j: nat, cell: CellRef): Accessor
    requires j < |sizes|
  {
    Accessor(Sum(sizes[..j]), sizes[j], cell)
  }

  /** Every port fits in one cell. */
  predicate Fits(ports: seq<View>) {
    forall p | 0 <= p < |ports| :: Sum(ports[p]) <= STORAGE_SIZE
  }

  /** The terminals of a port that fits are valid fields that tile the bits
      [0, Sum(sizes)) of the cell in order, without overlap. */
  lemma {:induction false} PortLayout(sizes: View, cell: CellRef)
    requires Sum(sizes) <= STORAGE_SIZE
    ensures forall j | 0 <= j < |sizes| :: Terminal(sizes, j, cell).InBounds()
    ensures forall j | 0 < j < |sizes| ::
      Terminal(sizes, j, cell).offset == Terminal(sizes, j - 1, cell).offset + sizes[j - 1]
    ensures forall j, k | 0 <= j < k < |sizes| :: Disjoint(Terminal(sizes, j, cell), Terminal(sizes, k, cell))
  {
    forall j | 0 <= j < |sizes|
      ensures Terminal(sizes, j, cell).InBounds()
    {
      SumOfPrefix(sizes, j + 1);
      assert sizes[..j + 1][..j] == sizes[..j];
    }
    forall j | 0 < j < |sizes|
      ensures Terminal(sizes, j, cell).offset == Terminal(sizes, j - 1, cell).offset + sizes[j - 1]
    {
      assert sizes[..j][..j - 1] == sizes[..j - 1];
    }
    forall j, k | 0 <= j < k < |sizes|
      ensures Disjoint(Terminal(sizes, j, cell), Terminal(sizes, k, cell))
    {
      SumOfPrefix(sizes[..k], j + 1);
      assert sizes[..k][..j + 1] == sizes[..j + 1];
      assert sizes[..j + 1][..j] == sizes[..j];
    }
  }

  /** `wireBridge`: lends one fresh cell from a single-lane bank and builds,
      for every port, one field per terminal width at the running offset. A
      terminal that does not fit makes the accessor constructor fail; the
      cell has been lent by then. */
  method Build(db: DataBank, ports: seq<View>) returns (r: Result<seq<seq<Accessor>>>)
    requires db.Valid() && db.lanes == 1
    modifies db, db.arena
    ensures db.Valid() && db.loans == old(db.loans)
    ensures db.storage == old(db.storage) + [FreshBlock(old(db.arena.next), 1, STORAGE_SIZE)]
    ensures db.arena.next == old(db.arena.next) + 1
    ensures db.arena.cells == old(db.arena.cells)[old(db.arena.next) := Zeros()]
    ensures r.Ok? <==> Fits(ports)
    ensures r.Err? ==> r.error == OutOfBounds
    ensures r.Ok? ==>
      && |r.value| == |ports|
      && forall p | 0 <= p < |ports| ::
           && |r.value[p]| == |ports[p]|
           && forall j | 0 <= j < |ports[p]| :: r.value[p][j] == Terminal(ports[p], j, CellAt(old(db.arena.next)))
  {
    var refs := db.LendStorage();
    assert ZeroCells(old(db.arena.next), 1) == map[old(db.arena.next) := Zeros()];
    var cell := refs[0];
    var result: seq<seq<Accessor>> := [];
    var p := 0;
    while p < |ports|
      invariant 0 <= p <= |ports| && |result| == p
      invariant forall q | 0 <= q < p :: Sum(ports[q]) <= STORAGE_SIZE
      invariant forall q | 0 <= q < p ::
        && |result[q]| == |ports[q]|
        && forall j | 0 <= j < |ports[q]| :: result[q][j] == Terminal(ports[q], j, cell)
    {
      var port := ports[p];
      var accessors: seq<Accessor> := [];
      var offset := 0;
      var j := 0;
      while j < |port|
        invariant 0 <= j <= |port| && |accessors| == j
        invariant offset == Sum(port[..j]) && offset <= STORAGE_SIZE
        invariant forall i | 0 <= i < j :: accessors[i] == Terminal(port, i, cell)
      {
        assert port[..j + 1][..j] == port[..j];
        var a := NewAccessor(offset, port[j], cell);
        if a.Err? {
          SumOfPrefix(port, j + 1);
          return Err(a.error);
        }
        accessors := accessors + [a.value];
        offset := offset + port[j];
        j := j + 1;
      }
      assert port[..j] == port;
      result := result + [accessors];
      p := p + 1;
    }
    return Ok(result);
  }
}

=== FILE: xorwrapper.dfy ===
/** The two schematics the schematic tests build: `xor_wrapper`, one XOR
    gate between an input bridge and an output bridge, and `wrapper`, which
    holds nothing but one `xor_wrapper` instance named `xor`. */
module XorWrapper {
  import opened Names
  import opened Schematic
  import opened Circuits
  import opened Gates
  import opened Populate
  import opened Instantiate
  import WireBridge
  import M = Managers

  /** `xor_wrapper`: gate `xor1`, bridges `input` (two 1-bit terminals) and
      `output` (one), the three bridge terminals exposed and wired to the
      gate. */
  function XorWrapperSchematic(): SchematicData {
    SchematicData(
      "xor_wrapper", [], [], [], ["xor1"],
      [[BridgeView("input", [1, 1])], [BridgeView("output", [1])]],
      [],
      [Connection("input_0", "xor1_a"), Connection("input_1", "xor1_b"), Connection("xor1_c", "output_0")],
      ["input_0", "input_1", "output_0"])
  }

  /** `wrapper`: one sub-circuit `xor` built from `xor_wrapper`. */
  function WrapperSchematic(): SchematicData {
    SchematicData("wrapper", [], [], [], [], [], [SubCircuit("xor", XorWrapperSchematic())], [], [])
  }

  /** The terminal names of a bridge of one view with one or two terminals. */
  lemma OneViewKeys(name: string, sizes: seq<nat>)
    requires 1 <= |sizes| <= 2
    ensures ViewKeys([BridgeView(name, sizes)])
            == if |sizes| == 1 then {name + "_0"} else {name + "_0", name + "_1"}
  {
    var v := BridgeView(name, sizes);
    assert [v][..0] == [];
    assert NatToString(0) == "0" && NatToString(1) == "1";
    assert ViewNames(v)[0] == name + "_0";
    if |sizes| == 2 {
      assert ViewNames(v)[1] == name + "_1";
    }
  }

  /** An instance of `xor_wrapper` knows the gate's three terminals and the
      three bridge terminals, six names, and exposes the bridge terminals. */
  lemma XorWrapperKeys()
    ensures Keys(XorWrapperSchematic())
            == {"xor1_a", "xor1_b", "xor1_c", "input_0", "input_1", "output_0"}
    ensures PortSet(XorWrapperSchematic().exposedPorts) == {"input_0", "input_1", "output_0"}
  {
    var s := XorWrapperSchematic();
    assert BridgeKeys(s.wireBridges) == {"input_0", "input_1", "output_0"} by {
      OneViewKeys("input", [1, 1]);
      OneViewKeys("output", [1]);
      assert "input" + "_0" == "input_0" && "input" + "_1" == "input_1" && "output" + "_0" == "output_0";
      assert s.wireBridges[..1] == [s.wireBridges[0]] && s.wireBridges[..1][..0] == [];
    }
    assert GateKeys(s.xorGates, XorGate) == {"xor1_a", "xor1_b", "xor1_c"} by {
      assert s.xorGates[..0] == [];
      assert "xor1" + "_a" == "xor1_a" && "xor1" + "_b" == "xor1_b" && "xor1" + "_c" == "xor1_c";
    }
    var ports := s.exposedPorts;
    assert PortSet(ports) == {"input_0", "input_1", "output_0"} by {
      assert ports[0] == "input_0" && ports[1] == "input_1" && ports[2] == "output_0";
    }
  }

  /** `xor_wrapper` passes every check of `build`: its bridges fit and every
      connection end and exposed port is a known name. */
  lemma XorWrapperResolves()
    ensures Resolves(XorWrapperSchematic())
  {
    var s := XorWrapperSchematic();
    XorWrapperKeys();
    OneBridgeFits("input", [1, 1]);
    OneBridgeFits("output", [1]);
    assert BridgesFit(s.wireBridges) by {
      assert s.wireBridges[0] == [BridgeView("input", [1, 1])];
      assert s.wireBridges[1] == [BridgeView("output", [1])];
    }
    var keys := Keys(s);
    var conns := s.connections;
    forall i | 0 <= i < |conns| ensures conns[i].from in keys && conns[i].to in keys {
      if i == 0 {
        assert conns[0] == Connection("input_0", "xor1_a");
      } else if i == 1 {
        assert conns[1] == Connection("input_1", "xor1_b");
      } else {
        assert conns[2] == Connection("xor1_c", "output_0");
      }
    }
    assert forall i | 0 <= i < |s.exposedPorts| :: s.exposedPorts[i] in keys by {
      assert forall i | 0 <= i < |s.exposedPorts| :: s.exposedPorts[i] in PortSet(s.exposedPorts);
    }
  }

  /** A bridge of one view of at most two 1-bit terminals fits in a cell. */
  lemma OneBridgeFits(name: string, sizes: seq<nat>)
    requires sizes == [1] || sizes == [1, 1]
    ensures WireBridge.Fits(Sizes([BridgeView(name, sizes)]))
  {
    assert Sizes([BridgeView(name, sizes)]) == [sizes];
    assert [1][..0] == [] && [1, 1][..1] == [1];
    assert WireBridge.Sum([1]) == 1;
    assert WireBridge.Sum([1, 1]) == 2;
  }

  /** An instance of `wrapper` knows only the three names its `xor` child
      re-exports. */
  lemma WrapperKeys()
    ensures Keys(WrapperSchematic()) == {"xor_input_0", "xor_input_1", "xor_output_0"}
  {
    var s := WrapperSchematic();
    var ports := XorWrapperSchematic().exposedPorts;
    assert s.subCircuits[1..] == [];
    assert ExportKeys("xor", ports) == {"xor_input_0", "xor_input_1", "xor_output_0"} by {
      assert "xor" + "_" + ports[0] == "xor_input_0";
      assert "xor" + "_" + ports[1] == "xor_input_1";
      assert "xor" + "_" + ports[2] == "xor_output_0";
    }
  }

  /** A built `xor_wrapper` holds exactly the six names and exposes the three
      bridge terminals, each as the field it knows under that name. */
  lemma BuiltXorWrapper(table: seq<Circuit>, l: M.Layout)
    requires Instance(table, 1, XorWrapperSchematic(), l)
    ensures table[1].names.Keys == {"xor1_a", "xor1_b", "xor1_c", "input_0", "input_1", "output_0"}
    ensures table[1].exposedPorts.Keys == {"input_0", "input_1", "output_0"}
    ensures forall p | p in table[1].exposedPorts :: table[1].exposedPorts[p] == table[1].names[p]
  {
    var s := XorWrapperSchematic();
    XorWrapperKeys();
    assert Holds(table[1], s);
    forall p | p in table[1].exposedPorts ensures table[1].exposedPorts[p] == table[1].names[p] {
      var i :| 0 <= i < |s.exposedPorts| && s.exposedPorts[i] == p;
    }
  }

  /** A built `wrapper` holds exactly the three re-exported names. */
  lemma BuiltWrapper(table: seq<Circuit>, l: M.Layout)
    requires Instance(table, 1, WrapperSchematic(), l)
    ensures table[1].names.Keys == {"xor_input_0", "xor_input_1", "xor_output_0"}
    ensures |table[1].subCircuits| == 1
  {
    WrapperKeys();
  }
}
